=== FILE: README.md ===
# Arbaro stem generator core, modelled in Dafny

Arbaro generates trees by the Weber–Penn algorithm. A tree is a trunk with
levels of substems, clones from splitting, and leaves, all grown from a table
of parameters. This project models the core of that generator:

- **Stem growth rules.** Modelled from `StemImpl`:
  - a stem's length, radius, base radius and pruning;
  - the rounding accumulator that turns fractional expected counts of
    substems, leaves and splits into whole numbers;
  - substem and leaf placement, and clones and splits;
  - the tree-position string, the bounding-box propagation, the visitor
    traversal, the recursive substem count and the section count.
- **Parameter logic.** Modelled from `Params`: the shape-ratio profiles, the
  level-parameter lookup, the registry of named parameters with `setParam`,
  and the validation and derived settings of `prepare`.
- **`IntParam`.** A validated integer parameter with an "empty" sentinel and
  a default on read.
- **`StringIndenter`.** A non-negative indent counter rendered as a repeated
  string.

## How the model is built

- **Stems.** Stems live in an arena (`seq<Stem>`) indexed by integers.
  `parent` and `clonedFrom` are indices that point back. The `substems` and
  `clones` lists are indices that point forward. `Stems.Linked` is the
  invariant tying the two together, and every operation that adds a stem
  keeps it.
- **Numbers and randomness.**
  - Java doubles are `real`.
  - Java `(int)` casts truncate toward zero and saturate at the 32-bit
    range (`JavaNum.IntCast`).
  - Java `int` overflow, `/` and `%` are written out (`JavaNum.Wrap`,
    `Quot`, `Rem`).
  - A division by zero yields the oracle value `nonFinite`.
  - `sin`, `pow`, `sqrt` and `acos` are fields of a `Numerics` oracle
    record.
  - Random draws are inputs in [-1, 1], and `LevelParams.var(v)` is
    `v * draw`.
- **Defects and corrections.** Where the source has a defect (see
  Findings), the as-written member models the code as it stands:
  `Params.Prepare`, `Pruning.Make` and `Splitting.MakeClonesAsWritten`.
  A corrected twin states the evidently intended behaviour:
  `Params.PrepareIntended`, `Pruning.MakeIntended` and
  `Splitting.MakeClones`.
- **Transformations.** Rotations and translations are symbolic terms
  (`Geometry.Transform`) recording how a transformation was built. They are
  never evaluated.

Modules follow the program's structure:

| module | contents |
|---|---|
| `Params` | `Params.java` |
| `IntParam` | `IntParam.java` |
| `StringIndenter` | `StringIndenter.java` |
| `Stems` | the stem record, the constructor and `clone` |
| `StemGeometry` | `stemLength`, `stemRadius`, `stemBaseRadius`, the curve deltas and `prepareSubstemParams` |
| `Pruning` | `pruning` and `make` |
| `Substems` | `makeSubstems` and `substemDirection` |
| `Leaves` | `makeLeaves` |
| `Splitting` | `makeClones` and `split` |
| `StemTree` | position, bounding box, traversal and counts |
| `Accumulator` | the rounding scheme shared by substems, leaves and splits |

## Model

All StemImpl paths below are `src/main/java/net/katsstuff/arbaro/tree/StemImpl.java`.

| member | source | states |
|---|---|---|
| StringIndenter.New | src/main/java/net/katsstuff/arbaro/export/StringIndenter.java:32-36 | A new indenter is at level 0 and renders as the empty string. |
| StringIndenter.Increase | src/main/java/net/katsstuff/arbaro/export/StringIndenter.java:38-40 | `++indentLevel` raises the level by exactly one, wrapping to Integer.MIN_VALUE at the top of the int range. |
| StringIndenter.Decrease | src/main/java/net/katsstuff/arbaro/export/StringIndenter.java:42-46 | `decrease` lowers a positive level by one. At level 0 or below it is a no-op, so it never takes a non-negative level below 0. |
| StringIndenter.GetIndent | src/main/java/net/katsstuff/arbaro/export/StringIndenter.java:48-50 | The indent has length \|indent\| * max(0, level). Character k of it is character k mod \|indent\| of the unit. |
| StringIndenter.RepeatShape | src/main/java/net/katsstuff/arbaro/export/StringIndenter.java:48-50 | `String.repeat(n)` has n times the unit's length and repeats the unit character by character. |
| StringIndenter.IncreaseThenDecrease | src/main/java/net/katsstuff/arbaro/export/StringIndenter.java:38-46 | Increasing and then decreasing restores the indenter at every level from 0 up to, but not including, the top of the int range. |
| IntParam.New | src/main/java/net/katsstuff/arbaro/params/IntParam.java:32-41 | A new parameter keeps its bounds and default and is empty (holds the Integer.MIN_VALUE sentinel). |
| IntParam.Clear | src/main/java/net/katsstuff/arbaro/params/IntParam.java:47-50 | `clear` makes the parameter empty and keeps its name, bounds and default. |
| IntParam.SetValue | src/main/java/net/katsstuff/arbaro/params/IntParam.java:52-71 | Text that is not an integer fails as such. A value below min or above max fails with that bound. An in-range value is stored, and nothing else changes. |
| IntParam.GetValue | src/main/java/net/katsstuff/arbaro/params/IntParam.java:73-75 | The decimal text of the stored value parses back to exactly that value. |
| IntParam.IntValue | src/main/java/net/katsstuff/arbaro/params/IntParam.java:81-89 | An empty parameter yields its default and stores it. A non-empty one yields its value unchanged. |
| IntParam.IntValueSettles | src/main/java/net/katsstuff/arbaro/params/IntParam.java:81-89 | After the first `intValue` the parameter is no longer empty, and a second call returns the same value. The one exception is a default equal to the sentinel. |
| IntParam.SentinelIsIndistinguishable | src/main/java/net/katsstuff/arbaro/params/IntParam.java:61-79 | With min = Integer.MIN_VALUE, setting the sentinel's own text ("-2147483648") succeeds, but the parameter then reads as empty and `intValue` yields the default. |
| IntParam.IntValueAvoidsSentinel | src/main/java/net/katsstuff/arbaro/params/IntParam.java:81-89 | With a default other than the sentinel, `intValue` never yields Integer.MIN_VALUE, so its absolute value is never negative. |
| IntParam.CopyThroughText | src/main/java/net/katsstuff/arbaro/params/Params.java:296-306 | Copying a value from one parameter to another through `getValue`/`setValue`, as the Params copy constructor does, stores it unchanged when it lies in range. |
| Decimal.ParseInt | src/main/java/net/katsstuff/arbaro/params/IntParam.java:55-59 | `Integer.parseInt` accepts exactly an optional "-" or "+" followed by at least one digit and nothing else, whose value fits in 32 bits. The result is the digits' decimal value, negated after "-". It rejects the empty string and any other first character. |
| Decimal.IntToStringRoundTrip | src/main/java/net/katsstuff/arbaro/params/IntParam.java:73-75 | Parsing the decimal text of any 32-bit int gives that int back. |
| Params.ShapeRatio | src/main/java/net/katsstuff/arbaro/params/Params.java:533-569 | For a ratio in [0, 1], CONICAL and FLAME lie in [0, 1], TAPERED_CYLINDRICAL and TEND_FLAME in [0.5, 1], and INVERSE_CONICAL in [0.2, 1]. CYLINDRICAL is 1. ENVELOPE outside [0, 1] and any unknown shape id give 0. |
| Params.ShapeRatioProfiles | src/main/java/net/katsstuff/arbaro/params/Params.java:538-557 | CONICAL is the identity. FLAME and TEND_FLAME reach 1 at ratio 0.7 from both branches, and FLAME stays at most 1 on [0, 1]. |
| Params.LevelParamsAt | src/main/java/net/katsstuff/arbaro/params/Params.java:310-312 | Levels 0..3 get their own entry and every level above 3 gets level 3's. A negative level has none: the array index is out of bounds. |
| Params.LevelName | src/main/java/net/katsstuff/arbaro/params/Params.java:617-630 | A per-level parameter name replaces the pattern's leading `n` by the digit whose value is the level, and keeps the rest. |
| Params.LevelNamesDistinct | src/main/java/net/katsstuff/arbaro/params/Params.java:617-630 | Two patterns with the same leading character give the same name exactly when level and pattern agree, so each level's parameter is registered under its own name. |
| Params.InitialRegistry | src/main/java/net/katsstuff/arbaro/params/Params.java:674-1180 | Registration holds exactly the registered names, every integer parameter empty. Each default lies within its declared bounds. |
| Params.LevelsRegistered | src/main/java/net/katsstuff/arbaro/params/Params.java:701 | `Levels` is registered as an empty integer parameter with range 0..9 and default 3. |
| Params.SetParam | src/main/java/net/katsstuff/arbaro/params/Params.java:571-582 | An unregistered name fails as unknown and changes nothing. An integer parameter takes exactly `IntParam.setValue`'s outcome. Success changes only the named parameter, and the registry stays within its bounds. |
| Params.SetLevelsTooHigh | src/main/java/net/katsstuff/arbaro/params/Params.java:571-582 | Setting `Levels` to 10 fails as above its maximum 9. |
| Params.SetLevelsInRange | src/main/java/net/katsstuff/arbaro/params/Params.java:571-582 | Setting `Levels` to 2 succeeds and stores 2. |
| Params.SetUnknownRejected | src/main/java/net/katsstuff/arbaro/params/Params.java:571-582 | Setting the unregistered name `Seed` fails as unknown. |
| Params.ReadInt | src/main/java/net/katsstuff/arbaro/params/Params.java:390-397 | `getIntParam` succeeds exactly for integer parameters. It yields `intValue`, stores its settled state, and over a sound registry yields a value within the parameter's bounds. |
| Params.QuietLevelAsWritten | src/main/java/net/katsstuff/arbaro/params/Params.java:461-473 | As written, the preview zeroes the variations of curve, length, split angle and rotation and makes a positive down angle 0. A non-positive down angle and every other field, the down-angle variation included, are kept. |
| Params.QuietLevel | src/main/java/net/katsstuff/arbaro/params/Params.java:461-473 | The corrected preview quieting zeroes the variations of curve, length, split angle and rotation, and makes the down-angle variation non-positive. Everything else, including the down angle, is unchanged. |
| Params.SmoothMeshLevel | src/main/java/net/katsstuff/arbaro/params/Params.java:496-500 | The smooth-mesh level is -1 exactly when Smooth <= 0.2, and for Smooth <= 1 it is at most Levels. |
| Params.WithMeshPoints | src/main/java/net/katsstuff/arbaro/params/Params.java:503-518 | Levels 1..3 get at least 3 mesh points. Level 0 gets 4 without lobes and at least 4 with them. Nothing but the mesh points changes. |
| Params.Quieted | src/main/java/net/katsstuff/arbaro/params/Params.java:461-474 | For a preview, ScaleV becomes 0 and levels 1..3 are quieted. Level 0 and everything but ScaleV and the level table stay, and without a preview nothing changes. Whether a level is missing its split angle is not affected. |
| Params.Derive | src/main/java/net/katsstuff/arbaro/params/Params.java:484-527 | The smooth-mesh level is -1 exactly for Smooth <= 0.2. The mesh points are filled in. A stopLevel within 0..Levels replaces Levels and zeroes Leaves, and otherwise both stay. scale_tree differs from Scale by ScaleV times the draw and is Scale when ScaleV is 0. mesh_quality becomes Smooth, and no other field changes. |
| Params.Prepare | src/main/java/net/katsstuff/arbaro/params/Params.java:461-527 | `prepare` as written fails with the split-angle error exactly when a level below min(Levels, 4) splits with split angle 0. The parameters are then left quieted (as written) by the preview step, which ran before the check. Otherwise it yields the derived settings of the quieted parameters. |
| Params.PrepareIntended | src/main/java/net/katsstuff/arbaro/params/Params.java:461-527 | The same pipeline with the intended quieting. It fails on exactly the same inputs. |
| Params.PreparedSettings | src/main/java/net/katsstuff/arbaro/params/Params.java:461-526 | A prepared tree has at least 3 mesh points on levels 1..3 and at least 4 on level 0. Its smooth-mesh level is -1 exactly for Smooth <= 0.2, and stopLevel cuts Levels and zeroes Leaves. A preview has ScaleV 0 and scale_tree equal to Scale. |
| Params.PreviewKeepsDownAngleVariation | src/main/java/net/katsstuff/arbaro/params/Params.java:470 | As written, a preview takes level 1 with 1DownAngle = 30 and 1DownAngleV = 10 to down angle 0 and keeps the variation 10. |
| Params.PreviewIntendedIsDeterministic | src/main/java/net/katsstuff/arbaro/params/Params.java:461-473 | With the intended quieting, a preview keeps no random variation on levels 1..3: the down-angle variation is at most 0, which selects the deterministic gradient. Every down angle is kept, and ScaleV is 0 with scale_tree equal to Scale. |
| Params.ScaleTreeWithinVariation | src/main/java/net/katsstuff/arbaro/params/Params.java:526 | scale_tree lies within Scale ± ScaleV, and is exactly Scale for a preview. |
| Accumulator.Step | src/main/java/net/katsstuff/arbaro/tree/StemImpl.java:893-896 | One rounding step keeps count + error' = error + expected. A non-negative expectation keeps the error in [-0.5, 0.5) and the count non-negative. |
| Accumulator.Run | src/main/java/net/katsstuff/arbaro/tree/StemImpl.java:893-896 | Over a run of segments the counts plus the final error add up to the expected total plus the initial error. The error bound and the non-negative counts hold throughout. |
| Accumulator.RunTracksTotal | src/main/java/net/katsstuff/arbaro/tree/StemImpl.java:893-896 | From error 0 the total count is within 0.5 of the expected total, and equals it when that total is whole. |
| Accumulator.Distribute | src/main/java/net/katsstuff/arbaro/tree/StemImpl.java:988-991 | The loop form gives the same counts and error as the run, with the same sum, bound and sign guarantees. |
| Geometry.Widen | src/main/java/net/katsstuff/arbaro/tree/StemImpl.java:1314-1316 | Widening a box by a point contains the point and the old box. A box that already holds the point is unchanged. |
| Geometry.WidenIdempotent | src/main/java/net/katsstuff/arbaro/tree/StemImpl.java:1314-1316 | Widening twice by the same point is widening once. |
| Geometry.WidenCommutes | src/main/java/net/katsstuff/arbaro/tree/StemImpl.java:1314-1316 | Widening by two points in either order gives the same box. |
| Geometry.EmptyBoxHoldsNothing | src/main/java/net/katsstuff/arbaro/tree/StemImpl.java:252-253 | A new stem's box (min at +MAX_VALUE, max at -MAX_VALUE) holds no finite point. |
| Stems.NewStem | src/main/java/net/katsstuff/arbaro/tree/StemImpl.java:196-254 | A stem growing out of one of a lower level is its substem. Out of one of the same or a higher level, it is a clone of that stem with its parent. Lists start empty and the box empty. |
| Stems.Clone | src/main/java/net/katsstuff/arbaro/tree/StemImpl.java:332-358 | A clone copies the stem's measures and extends its clone-index path by the clone count. It copies the substem settings, with the rotation turned by 180, only when the stem is not under a prune test. |
| Stems.AddChild | src/main/java/net/katsstuff/arbaro/tree/StemImpl.java:924-928 | Adding a substem or clone appends it to the arena and to exactly one list of its stem. It changes no other stem and keeps the arena linked. |
| Stems.AddChildKeepsLinked | src/main/java/net/katsstuff/arbaro/tree/StemImpl.java:1125 | Recording a new clone or substem in its stem's list keeps every back and forward link consistent. |
| StemGeometry.TrunkLength | src/main/java/net/katsstuff/arbaro/tree/StemImpl.java:480-481 | The trunk's length lies within (0Length ± 0LengthV) times scale_tree. |
| StemGeometry.FirstLevelLength | src/main/java/net/katsstuff/arbaro/tree/StemImpl.java:482-496 | For a shape whose ratio stays in [0, 1], a level-1 stem above the bare base is between 0 and the parent's length times its maximal child length. |
| StemGeometry.DeepLength | src/main/java/net/katsstuff/arbaro/tree/StemImpl.java:497-498 | A deeper stem's length lies between 0.4 and 1 times the parent's maximal child length times its length. |
| StemGeometry.StemLength | src/main/java/net/katsstuff/arbaro/tree/StemImpl.java:479-500 | `stemLength` dispatches by level and meets the trunk, level-1 and deeper bounds. |
| StemGeometry.UnitTaper | src/main/java/net/katsstuff/arbaro/tree/StemImpl.java:731-736 | unit_taper is the taper itself up to 1, and lies in [0, 1) above it. |
| StemGeometry.RelativeHeight | src/main/java/net/katsstuff/arbaro/tree/StemImpl.java:728 | Z is min(h / length, 1), never above 1, and non-negative for h >= 0. |
| StemGeometry.LinearTaper | src/main/java/net/katsstuff/arbaro/tree/StemImpl.java:738 | The linear taper lies between (1 - unit_taper) * baseRadius and baseRadius. |
| StemGeometry.TrunkWidening | src/main/java/net/katsstuff/arbaro/tree/StemImpl.java:760-777 | Without flare, the trunk's radius is scaled by 0Scale only. |
| StemGeometry.StemRadius | src/main/java/net/katsstuff/arbaro/tree/StemImpl.java:719-782 | For a non-trunk stem with taper <= 1 the radius is the linear taper, equals the base radius at height 0, and lies within [(1 - taper) * baseRadius, baseRadius]. |
| StemGeometry.StemRadiusNonIncreasing | src/main/java/net/katsstuff/arbaro/tree/StemImpl.java:728-738 | Along a non-trunk stem with taper in [0, 1] the radius never grows from the base upwards. |
| StemGeometry.StemBaseRadius | src/main/java/net/katsstuff/arbaro/tree/StemImpl.java:694-709 | The trunk's base radius is length * Ratio. Any other stem's is capped by the parent's radius at its offset, and is the smaller of that cap and the Ratio/RatioPower rule. |
| StemGeometry.PlainDelta | src/main/java/net/katsstuff/arbaro/tree/StemImpl.java:624-634 | Without curve-back, nCurveRes segments turning by the delta add up to nCurve. With nCurveRes 0 the Java division gives a non-finite value. |
| StemGeometry.FrontDelta | src/main/java/net/katsstuff/arbaro/tree/StemImpl.java:624-634 | With curve-back, nCurveRes front deltas add up to 2 nCurve, so the lower half turns by nCurve. The Java division by nCurveRes 0 gives a non-finite value. |
| StemGeometry.BackDelta | src/main/java/net/katsstuff/arbaro/tree/StemImpl.java:624-634 | With curve-back, nCurveRes back deltas add up to 2 nCurveBack, so the upper half turns by nCurveBack. The Java division by nCurveRes 0 gives a non-finite value. |
| StemGeometry.CurveDelta | src/main/java/net/katsstuff/arbaro/tree/StemImpl.java:624-634 | Segments below the integer midpoint (nCurveRes + 1) / 2 use the front delta and the rest the back delta. At nCurveRes = Integer.MAX_VALUE the sum wraps and every segment curves back. |
| StemGeometry.TotalCurvePlain | src/main/java/net/katsstuff/arbaro/tree/StemImpl.java:624-634 | Segments 1..nCurveRes-1 of a stem without curve-back turn by nCurveRes - 1 plain deltas in total. |
| StemGeometry.TotalCurveBack | src/main/java/net/katsstuff/arbaro/tree/StemImpl.java:624-634 | With curve-back the total turn is the front deltas up to the midpoint plus the back deltas after it. |
| StemGeometry.SubstemCount | src/main/java/net/katsstuff/arbaro/tree/StemImpl.java:797-821 | The trunk and a preview take nBranches. A level-1 stem takes between nBranches / 5 and nBranches, and a deeper one between nBranches / 2 and nBranches. |
| StemGeometry.LeavesPerBranch | src/main/java/net/katsstuff/arbaro/tree/StemImpl.java:834-848 | There are no leaves without Leaves or on the trunk. Otherwise the count is \|Leaves\| times the leaf-distribution shape ratio times LeafQuality, and non-negative when those are. |
| StemGeometry.SubstemsPerSegment | src/main/java/net/katsstuff/arbaro/tree/StemImpl.java:801-821 | The count spread over the segments, on the trunk over the part above the bare base only, multiplies back to the count. |
| StemGeometry.LeavesPerSegment | src/main/java/net/katsstuff/arbaro/tree/StemImpl.java:825-827 | On the last level the leaves per branch spread over the segments. Elsewhere the value is left as it was. |
| StemGeometry.PrepareSubstemParams | src/main/java/net/katsstuff/arbaro/tree/StemImpl.java:789-828 | The maximal child length lies within nLength ± nLengthV, and the substem and leaf counts spread back to their totals. The rotation restarts at 0, and no other field changes. |
| Pruning.ShrinkLength | src/main/java/net/katsstuff/arbaro/tree/StemImpl.java:437-439 | A shrink step removes at least origlen / 15, and keeps at least half the length unless it removes exactly origlen / 15. |
| Pruning.ShrinkBudgetDrops | src/main/java/net/katsstuff/arbaro/tree/StemImpl.java:424-456 | Each step lowers the number of origlen / 15 steps left above the threshold, a non-negative measure, so the loop terminates for origlen > 0. |
| Pruning.Resize | src/main/java/net/katsstuff/arbaro/tree/StemImpl.java:427-443 | Cutting a stem to a length clears its segments and clones, makes its segments span the length, and derives its base radius from the length. |
| Pruning.Shrink | src/main/java/net/katsstuff/arbaro/tree/StemImpl.java:424-456 | The loop ends with the test negative or the length at most 0.001 * scale_tree. A run that enters the loop leaves a stem at least origlen / 15 shorter, cut as Resize cuts. |
| Pruning.ShrinkStep | src/main/java/net/katsstuff/arbaro/tree/StemImpl.java:424-456 | One iteration lowers the termination measure and leaves the same outcome as running on from the resized stem. |
| Pruning.Converged | src/main/java/net/katsstuff/arbaro/tree/StemImpl.java:410-471 | The converged stem is never longer. It keeps the full length exactly when the first test passes or the stem is already below the threshold, and a converged stem above both minimums passes the test. |
| Pruning.ShrinkLoop | src/main/java/net/katsstuff/arbaro/tree/StemImpl.java:419-456 | The imperative loop computes the converged stem, and ends with a negative test on any stem above both minimums. |
| Pruning.PruneAsWritten | src/main/java/net/katsstuff/arbaro/tree/StemImpl.java:410-471 | As written, the final length is origlen - (origlen - converged) * PruneRatio, while segment length and base radius stay the converged stem's. Segments and clones are cleared, the split correction is restored and the prune flag is off. |
| Pruning.PruneAsWrittenKeepsShortSegment | src/main/java/net/katsstuff/arbaro/tree/StemImpl.java:459 | A stem of length 1 blended back to 0.75 keeps the converged segment length 0.5, so its one segment no longer spans it. |
| Pruning.Blend | src/main/java/net/katsstuff/arbaro/tree/StemImpl.java:459 | The blend lies between the converged and the original length. PruneRatio 0 keeps the original and 1 the converged length. |
| Pruning.Prune | src/main/java/net/katsstuff/arbaro/tree/StemImpl.java:410-471 | The corrected pruning gives the blended length with segments spanning it and a base radius derived from it. Segments and clones are cleared, the prune flag is off, and nothing else changes. |
| Pruning.PruneKeepsFittingStem | src/main/java/net/katsstuff/arbaro/tree/StemImpl.java:422-459 | A stem whose full length passes the prune test keeps that length. |
| Pruning.TrunkBaseWidth | src/main/java/net/katsstuff/arbaro/tree/StemImpl.java:375-378 | The trunk's base width is at least its base radius and its radius at height 0. |
| Pruning.Measure | src/main/java/net/katsstuff/arbaro/tree/StemImpl.java:371-378 | The stem gets nCurveRes segments spanning its length and a base radius derived from it. A trunk's own box and the tree's box both grow to hold its base width. Below the trunk neither box changes. No other field of the stem changes. |
| Pruning.TrunkMeasureIsMinMaxTest | src/main/java/net/katsstuff/arbaro/tree/StemImpl.java:375-378 | On a trunk in a linked arena, Measure's box step is exactly `minMaxTest` at the base width: the trunk's box and the tree's box are widened, and no other stem changes. |
| Pruning.Make | src/main/java/net/katsstuff/arbaro/tree/StemImpl.java:368-402 | `make` as written reports a stem kept exactly when it is longer than MIN_STEM_LEN and its base radius is above MIN_STEM_RADIUS. For the trunk or without PruneRatio the length is unpruned, the segments span it and the base radius follows it. A pruned stem gets the blended length but keeps the converged stem's segment length and base radius, and that stale radius decides whether it is kept. A kept stem's rotation restarts at 0. The stem's box and the tree's box are those Measure leaves. |
| Pruning.MakeIntended | src/main/java/net/katsstuff/arbaro/tree/StemImpl.java:368-402 | `make` with the corrected pruning: the kept-stem test is unchanged, a pruned stem gets the blended length, and every stem's segments span its length with the base radius of that length. The boxes are those Measure leaves. |
| Pruning.MakesAgreeWithoutPruning | src/main/java/net/katsstuff/arbaro/tree/StemImpl.java:385-389 | Where nothing is pruned (the trunk, or PruneRatio <= 0) the as-written and the corrected `make` give the same result. |
| Substems.SegmentShare | src/main/java/net/katsstuff/arbaro/tree/StemImpl.java:870-890 | Off the trunk every segment expects the full substems per segment. Substems start at the parent's radius on the first segment and at the base on the others. |
| Substems.TrunkShare | src/main/java/net/katsstuff/arbaro/tree/StemImpl.java:870-890 | A trunk segment has no substems exactly when it lies wholly in the bare base. Otherwise they start where the base ends, or at the segment's start, and it expects the share of substems per segment above that point. |
| Substems.TrunkShareCovered | src/main/java/net/katsstuff/arbaro/tree/StemImpl.java:870-890 | A trunk segment expects substems per segment times the fraction of it above the bare base. |
| Substems.TrunkExpectsTotal | src/main/java/net/katsstuff/arbaro/tree/StemImpl.java:870-896 | The trunk's segments together expect exactly the substem count prepareSubstemParams spread over the part above the base. |
| Substems.SubstemStep | src/main/java/net/katsstuff/arbaro/tree/StemImpl.java:879-896 | A segment in the bare base makes no substem and keeps the error. Any other segment takes one accumulator step. |
| Substems.SubstemRun | src/main/java/net/katsstuff/arbaro/tree/StemImpl.java:879-896 | Along a stem the substem counts are the accumulator run over the segments' expectations. |
| Substems.TrunkSubstemTotal | src/main/java/net/katsstuff/arbaro/tree/StemImpl.java:879-896 | When the trunk's spread count is whole, its segments make exactly that many substems in total. |
| Substems.Slot | src/main/java/net/katsstuff/arbaro/tree/StemImpl.java:905-912 | Substem k sits in the middle half of its slot of width dist. |
| Substems.Placements | src/main/java/net/katsstuff/arbaro/tree/StemImpl.java:905-912 | A segment's substem positions, one per slot, each in the middle half of its slot. |
| Substems.PlacementsIncreasing | src/main/java/net/katsstuff/arbaro/tree/StemImpl.java:905-912 | With positive slots the substems follow each other strictly up the segment. |
| Substems.SlotsWithinSegment | src/main/java/net/katsstuff/arbaro/tree/StemImpl.java:905-912 | With nBranchDist in [0, 1] every substem lies between the start of the substem region and the segment's end. |
| Substems.TrunkSubstemsAboveBase | src/main/java/net/katsstuff/arbaro/tree/StemImpl.java:879-915 | A trunk substem placed at or above its segment's start offset lies above the bare base and within its segment. |
| Substems.SegmentSubstems | src/main/java/net/katsstuff/arbaro/tree/StemImpl.java:893-915 | A segment makes the accumulator's count of substems, at the slot positions spread over the region above offs. |
| Substems.SubstemIndices | src/main/java/net/katsstuff/arbaro/tree/StemImpl.java:924-929 | The kept substems get consecutive indices from the list size at the start, however many degenerate ones were dropped in between. |
| Substems.DownAngle | src/main/java/net/katsstuff/arbaro/tree/StemImpl.java:963-970 | With a non-negative variation the down angle lies within nDownAngle ± nDownAngleV. A negative variation turns it from nDownAngle - nDownAngleV at the base to nDownAngle + nDownAngleV at the tip. |
| Substems.NextRotation | src/main/java/net/katsstuff/arbaro/tree/StemImpl.java:949-960 | A non-negative nRotate turns by nRotate plus its variation, kept in (-360, 360) by fmod. A negative nRotate alternates the side between 1 and -1 and rotates by 180 + nRotate plus its variation. |
| Substems.SubstemDirection | src/main/java/net/katsstuff/arbaro/tree/StemImpl.java:945-976 | The substem is turned by a down angle within nDownAngle ± nDownAngleV when that variation is non-negative. With nRotate >= 0 the rotation is the new rotation angle, inside (-360, 360). With nRotate < 0 the stored rotation alternates as ±1. Only the stem's rotation changes. |
| Leaves.LeafSlot | src/main/java/net/katsstuff/arbaro/tree/StemImpl.java:1005-1011 | Leaf k lies within its slot of width dist. |
| Leaves.LeafPlacements | src/main/java/net/katsstuff/arbaro/tree/StemImpl.java:1004-1011 | There is one position per leaf, and leaf k lies within its own slot [offs + k dist, offs + (k + 1) dist]. |
| Leaves.LeavesWithinSegment | src/main/java/net/katsstuff/arbaro/tree/StemImpl.java:997-1011 | Leaves lie between offs and the segment's end, each no lower than the one before. |
| Leaves.RotationAfter | src/main/java/net/katsstuff/arbaro/tree/StemImpl.java:949-960 | After any leaf, the rotation is a side of ±1 for a negative nRotate and within (-360, 360) otherwise. |
| Leaves.AddLeaf | src/main/java/net/katsstuff/arbaro/tree/StemImpl.java:1011-1023 | A leaf is appended at its position and turned as a substem there. The rotation advances one step, and nothing else of the stem changes. |
| Leaves.PlaceLeaves | src/main/java/net/katsstuff/arbaro/tree/StemImpl.java:1007-1024 | The loop appends eff leaves in order at the slot positions, advancing the rotation once per leaf. |
| Leaves.SegmentLeaves | src/main/java/net/katsstuff/arbaro/tree/StemImpl.java:986-1025 | Normal mode places the accumulator's count of leaves above the parent's radius on the first segment, and carries the error on. |
| Leaves.SideYaw | src/main/java/net/katsstuff/arbaro/tree/StemImpl.java:1050-1053 | Fan leaf i turns to the left or right side, by the offset plus (i / 2) steps, varied by at most the variation. |
| Leaves.FanLeaves | src/main/java/net/katsstuff/arbaro/tree/StemImpl.java:1028-1059 | A fan has max(cnt, 0) leaves. The first is the middle leaf exactly when cnt is odd, and the rest are the cnt / 2 pairs. |
| Leaves.FanShape | src/main/java/net/katsstuff/arbaro/tree/StemImpl.java:1040-1050 | Java's cnt % 2 and cnt / 2 give one middle leaf for odd positive cnt plus cnt / 2 pairs, and nothing for cnt <= 0. |
| Leaves.FanMirrored | src/main/java/net/katsstuff/arbaro/tree/StemImpl.java:1050-1058 | Without yaw variation the two leaves of each pair turn by exactly opposite angles. |
| Leaves.FanEvenlySpaced | src/main/java/net/katsstuff/arbaro/tree/StemImpl.java:1034-1058 | Odd or even, the outermost pair of a fan of cnt leaves spans cnt - 1 steps. |
| Leaves.MakeLeaves | src/main/java/net/katsstuff/arbaro/tree/StemImpl.java:983-1061 | Normal mode adds the accumulator's count and moves the error. Fan mode adds the fan on the last segment only, leaving the error. Without leaves nothing changes. |
| Splitting.SplitCount | src/main/java/net/katsstuff/arbaro/tree/StemImpl.java:1076-1086 | The trunk's first segment splits BaseSplits times and keeps the error. Any other segment takes an accumulator step on nSegSplits. |
| Splitting.CloneAnglesWithinTurn | src/main/java/net/katsstuff/arbaro/tree/StemImpl.java:1092-1114 | The azimuths (i + 1) * (360 / (n + 1)) of the n clones stay below a full turn. With fewer than 360 clones they are positive and increasing. |
| Splitting.SplitAngle | src/main/java/net/katsstuff/arbaro/tree/StemImpl.java:1152-1154 | The split angle is nSplitAngle plus its variation less the declination, clamped at 0. |
| Splitting.Diverge | src/main/java/net/katsstuff/arbaro/tree/StemImpl.java:1164-1176 | A base split turns by the azimuth within nSplitAngleV. Any other split turns at least 20 degrees, to a side chosen by the draw. |
| Splitting.SplitCorrectionUndoesSplit | src/main/java/net/katsstuff/arbaro/tree/StemImpl.java:1148-1161 | Over the remaining segments the correction adds up to exactly the split angle. |
| Splitting.SplitSharesPropensity | src/main/java/net/katsstuff/arbaro/tree/StemImpl.java:1180-1182 | The nsplits + 1 stems of a split together keep the substem propensity of the stem before it. |
| Splitting.NthClone | src/main/java/net/katsstuff/arbaro/tree/StemImpl.java:1099-1114 | Clone i is a clone of the stem, with its clone-index path extended. It has its share of the propensity and its own split correction. |
| Splitting.CloneStep | src/main/java/net/katsstuff/arbaro/tree/StemImpl.java:1096-1126 | Adding clone i keeps the clone loop's invariant. |
| Splitting.AddClones | src/main/java/net/katsstuff/arbaro/tree/StemImpl.java:1096-1126 | The clone loop adds clones until all n are in or one reports growth. It leaves every stem already there unchanged apart from the clone list. |
| Splitting.SplitOriginal | src/main/java/net/katsstuff/arbaro/tree/StemImpl.java:1128 | Splitting the original stem changes only its correction and propensity, which add up over the segments and stems. It returns the direction turned by the split angle. |
| Splitting.MakeClonesAsWritten | src/main/java/net/katsstuff/arbaro/tree/StemImpl.java:1072-1130 | As written, the stem's direction is left as it was even though its split correction is reduced. When a clone runs out of the envelope, makeClones returns that clone's segment. The clones before it stay recorded, and every one of them stayed inside. |
| Splitting.SplitWithoutTurn | src/main/java/net/katsstuff/arbaro/tree/StemImpl.java:1128 | For an upright stem with nSplitAngle 30 and two segments left, the split takes 15 degrees per segment off the correction and turns the stem by 30 degrees. MakeClonesAsWritten drops that turn (its next is the old trf). |
| Splitting.MakeClones | src/main/java/net/katsstuff/arbaro/tree/StemImpl.java:1072-1130 | Without a split nothing changes. A full split adds exactly n clones, turns the stem by its split angle, and shares the propensity and correction as `split` does. When a clone runs out of the envelope, its segment is returned and the clones before it stay recorded. |
| StemTree.CloneSuffix | src/main/java/net/katsstuff/arbaro/tree/StemImpl.java:282-290 | A clone-index path is written without dots. |
| StemTree.Component | src/main/java/net/katsstuff/arbaro/tree/StemImpl.java:282-290 | A stem's position component is non-empty and holds no dot. |
| StemTree.PositionLoop | src/main/java/net/katsstuff/arbaro/tree/StemImpl.java:275-300 | The loop's string ends with a dot. |
| StemTree.PositionExtendsParent | src/main/java/net/katsstuff/arbaro/tree/StemImpl.java:275-300 | The trunk's position is its component. Any other stem's is its parent's position, a dot and its own component. |
| StemTree.PositionDots | src/main/java/net/katsstuff/arbaro/tree/StemImpl.java:275-300 | A position holds exactly as many dots as the stem's level. |
| StemTree.ClonePosition | src/main/java/net/katsstuff/arbaro/tree/StemImpl.java:275-300 | A clone's position is that of the stem it was cloned from plus "c" and its clone number. |
| StemTree.MinMaxTest | src/main/java/net/katsstuff/arbaro/tree/StemImpl.java:1314-1327 | The point widens the boxes of exactly the stems reached along the clonedFrom and parent links, and the tree's box. Nothing else changes. |
| StemTree.BoxesOnlyKeepLinked | src/main/java/net/katsstuff/arbaro/tree/StemImpl.java:1314-1327 | Widening boxes keeps the arena linked. |
| StemTree.MinMaxTestSteps | src/main/java/net/katsstuff/arbaro/tree/StemImpl.java:1314-1327 | The three steps of minMaxTest (own box, clonedFrom, parent) together widen exactly the reached stems. |
| StemTree.Traverse | src/main/java/net/katsstuff/arbaro/tree/StemImpl.java:1198-1231 | A traversal enters the stem first and leaves it last, returning the visitor's answer to leaving. A refused entry reports nothing else. |
| StemTree.TraverseLeaves | src/main/java/net/katsstuff/arbaro/tree/StemImpl.java:1202-1208 | The leaf loop visits the leaves in order and stops at the first refusal. |
| StemTree.TraverseBalanced | src/main/java/net/katsstuff/arbaro/tree/StemImpl.java:1198-1231 | Whatever the visitor answers, a traversal leaves every stem it enters. |
| StemTree.SubstemTotal | src/main/java/net/katsstuff/arbaro/tree/StemImpl.java:1239-1250 | The recursive substem total counts at least the stem's own substems. |
| StemTree.FullTraversalEntersSubstems | src/main/java/net/katsstuff/arbaro/tree/StemImpl.java:1198-1250 | Without clones, a visitor that accepts everything enters the stem and exactly the substems substemTotal counts. |
| StemTree.BelowPrefix | src/main/java/net/katsstuff/arbaro/tree/StemImpl.java:1288-1303 | The loop passes exactly the segments before the first one numbered `index` or higher. |
| StemTree.SectionCountBelow | src/main/java/net/katsstuff/arbaro/tree/StemImpl.java:1288-1303 | The count is the sections of the segments below that point, and at most all sections. |

## Left out

- **Reading and writing parameters** (the config file, XML and `toXML`): I/O.
- **GUI, listeners, warnings and progress output**: not behaviour of the generator (`fireStateChanged`, `warn`, `Console`, `DBG`).
- **`Params.getParamGroup` and `clearParams`**: listing and resetting the GUI's parameter groups.
- **`Params.setParam` on non-integer parameters**: FloatParam and StringParam are not part of this model. They are validated by a caller-supplied check and keep their text.
- **The random streams and `LevelParams.initRandom`, `saveState` and `restoreState`**: LevelParams is not part of this model. Draws are inputs in [-1, 1], and the prune test's save and restore are modelled by starting each test from the same inputs.
- **Rotation arithmetic**: transformations are symbolic terms. This covers the vector work in `newDirection`, attraction up and the random z rotation.
- **The growth of the segments in `makeSegments` as a whole**: the model covers what each segment contributes (curve delta, clones, substems, leaves, section counts). The growth of a clone is an input (`grown`), the prune test's verdict is an input (`test`), and the stem's declination enters as the z component of its direction.
- **`isInsideEnvelope`**: it uses sqrt and the envelope; the prune test that calls it is an input.
- **`LeafImpl.make`**: it is not part of this model. A leaf is its transformation.
- **`stemRadius` for taper above 1, and the lobes**: floating-point numerics (`TipTaper` is uninterpreted), and the lobe term's angle is always 0.
- **`(float)` casts**: `substemTotal`'s `long` overflow and the float segment counts are not modelled.
- **Pruning.Shrink**: requires `origlen > 0 || length <= 0.001 * scale_tree`. For a negative origlen with the length above the threshold, the source loop would run forever, so the model does not cover that case.
- **Pruning.Converged**: carries the same termination requirement as Pruning.Shrink.
- **Pruning.Prune**: carries the same termination requirement as Pruning.Shrink.
- **Pruning.Make**: carries the same termination requirement, on the stem length.
- **Pruning.MakeIntended**: carries the same termination requirement as Pruning.Make.
- **StemTree.TreePosition**: has no contract of its own. Its properties are stated by PositionExtendsParent, PositionDots and ClonePosition.
- **Decimal.ParseInt**: accepts ASCII digits only. Java's `Integer.parseInt` also accepts the decimal digits of other Unicode scripts (`Character.digit`), and those strings are rejected here.
- **IntParam.SetValue**: models the error kinds (not an integer, below minimum, above maximum) rather than their message text. The source's above-maximum message also says "greater or equal".

## Findings

| source | as written | input that shows it | evidently intended | confidence | as-written member | corrected member |
|---|---|---|---|---|---|---|
| src/main/java/net/katsstuff/arbaro/tree/StemImpl.java:1128 | `split(trf, ...)` returns the turned direction for the original stem, but the result is dropped. Its split correction is still reduced, so the stem curves back from a turn it never made. | A vertical stem (acos 0), nSplitAngle 30, no variation, two segments left: the stem keeps its direction but curves by -15 degrees on each of the next two segments. | The original stem continues in the split direction, as the comment at line 576 says ("trf is changed"). | not executed | Splitting.MakeClonesAsWritten, Splitting.SplitWithoutTurn | Splitting.MakeClones |
| src/main/java/net/katsstuff/arbaro/params/Params.java:470 | For a preview (ignoreVParams), a positive nDownAngle is set to 0 while its variation nDownAngleV is kept. | 1DownAngle = 30, 1DownAngleV = 10: the preview grows level-1 stems at 0 ± 10 degrees instead of at 30. | Zero the positive variation nDownAngleV, like every other variation in the block. | not executed | Params.QuietLevelAsWritten, Params.PreviewKeepsDownAngleVariation, Params.Prepare | Params.QuietLevel, Params.PrepareIntended, Params.PreviewIntendedIsDeterministic |
| src/main/java/net/katsstuff/arbaro/tree/StemImpl.java:459 | After blending the length with PruneRatio, segment length and base radius are not recomputed. They stay those of the last, shorter test stem. | length 1, one segment, PruneRatio 0.5, the test fails at 1 and passes at 0.5: the length becomes 0.75 but the segment length stays 0.5. | Recompute segment length and base radius from the blended length, as the loop does at lines 442-443. | not executed | Pruning.PruneAsWritten, Pruning.PruneAsWrittenKeepsShortSegment, Pruning.Make | Pruning.Prune, Pruning.MakeIntended |

=== FILE: accumulator.dfy ===
/** The rounding accumulator the generator uses to turn fractional expected
    counts (substems, leaves and splits per segment) into whole numbers:
    round x plus the carried error to the nearest int, then carry what the
    rounding added or dropped on to the next segment. */
module Accumulator {
  import opened JavaNum

  /** One step: eff = (int)(x + err + 0.5); err' = err - (eff - x). The
      count and the new error always add up to the old error plus x; for a
      non-negative x the error stays in [-0.5, 0.5) and the count is
      non-negative. */
  function Step(x: real, err: real): (r: (int, real))
    ensures r.0 as real + r.1 == err + x
    ensures 0.0 <= x <= IntMax as real && -0.5 <= err < 0.5 ==> -0.5 <= r.1 < 0.5 && r.0 >= 0
  {
    var eff := IntCast(x + err + 0.5);
    (eff, err - (eff as real - x))
  }

  function SumReal(xs: seq<real>): real {
    if |xs| == 0 then 0.0 else SumReal(xs[..|xs| - 1]) + xs[|xs| - 1]
  }

  function SumInt(cs: seq<int>): int {
    if |cs| == 0 then 0 else SumInt(cs[..|cs| - 1]) + cs[|cs| - 1]
  }

  /** Admissible expected counts: non-negative and inside the int range. */
  predicate Admissible(xs: seq<real>) {
    forall k :: 0 <= k < |xs| ==> 0.0 <= xs[k] <= IntMax as real
  }

  /** The accumulator run over the expected counts of consecutive segments,
      starting from error err0. The counts and the final error together
      account exactly for the expected total; for admissible counts the
      error never leaves [-0.5, 0.5) and no count is negative. */
  function Run(xs: seq<real>, err0: real): (r: (seq<int>, real))
    ensures |r.0| == |xs|
    ensures SumInt(r.0) as real + r.1 == SumReal(xs) + err0
    ensures Admissible(xs) && -0.5 <= err0 < 0.5 ==>
      -0.5 <= r.1 < 0.5 && forall k :: 0 <= k < |r.0| ==> r.0[k] >= 0
  {
    if |xs| == 0 then ([], err0)
    else
      var prev := Run(xs[..|xs| - 1], err0);
      var step := Step(xs[|xs| - 1], prev.1);
      assert (prev.0 + [step.0])[..|xs| - 1] == prev.0;
      (prev.0 + [step.0], step.1)
  }

  /** Started from error 0, the whole counts handed out never differ from
      the expected total by more than one half; when the expected total is
      a whole number, they add up to exactly that number. */
  lemma {:induction false} RunTracksTotal(xs: seq<real>)
    requires Admissible(xs)
    ensures SumReal(xs) - 0.5 < SumInt(Run(xs, 0.0).0) as real <= SumReal(xs) + 0.5
    ensures SumReal(xs).Floor as real == SumReal(xs) ==> SumInt(Run(xs, 0.0).0) == SumReal(xs).Floor
  {
    var r := Run(xs, 0.0);
    assert SumInt(r.0) as real == SumReal(xs) - r.1;
  }

  /** The imperative form: one accumulator step per segment in a loop. */
  method Distribute(xs: seq<real>, err0: real) returns (counts: seq<int>, err: real)
    requires Admissible(xs) && -0.5 <= err0 < 0.5
    ensures |counts| == |xs|
    ensures SumInt(counts) as real + err == SumReal(xs) + err0
    ensures -0.5 <= err < 0.5
    ensures forall k :: 0 <= k < |counts| ==> counts[k] >= 0
    ensures (counts, err) == Run(xs, err0)
  {
    counts, err := [], err0;
    var i := 0;
    while i < |xs|
      invariant 0 <= i <= |xs|
      invariant (counts, err) == Run(xs[..i], err0)
    {
      assert xs[..i + 1][..i] == xs[..i];
      var eff := IntCast(xs[i] + err + 0.5);
      assert (eff, err - (eff as real - xs[i])) == Step(xs[i], err);
      err := err - (eff as real - xs[i]);
      counts := counts + [eff];
      i := i + 1;
    }
    assert xs[..i] == xs;
  }
}

=== FILE: decimal.dfy ===
/** Decimal rendering and parsing of ints, as Integer.toString and
    Integer.parseInt do it for ASCII digits. */
module Decimal {
  import opened Wrappers
  import opened JavaNum

  predicate IsDigit(c: char) {
    '0' <= c <= '9'
  }

  predicate AllDigits(s: string) {
    forall k :: 0 <= k < |s| ==> IsDigit(s[k])
  }

  function DigitChar(d: int): (c: char)
    requires 0 <= d < 10
    ensures IsDigit(c)
  {
    ('0' as int + d) as char
  }

  function DigitValue(c: char): (d: nat)
    requires IsDigit(c)
    ensures d < 10 && DigitChar(d) == c
  {
    c as int - '0' as int
  }

  /** Shortest decimal digits of `n`: no leading zero except for "0" itself. */
  function NatToString(n: nat): (s: string)
    ensures |s| >= 1 && AllDigits(s)
    ensures |s| > 1 ==> s[0] != '0'
  {
    if n < 10 then [DigitChar(n)] else NatToString(n / 10) + [DigitChar(n % 10)]
  }

  /** Integer.toString: a minus sign before the magnitude of a negative value. */
  function IntToString(i: int): (s: string)
    ensures |s| >= 1
    ensures s[0] == '-' <==> i < 0
    ensures forall k :: 0 <= k < |s| ==> IsDigit(s[k]) || (k == 0 && s[k] == '-')
  {
    if i < 0 then "-" + NatToString(-i) else NatToString(i)
  }

  /** Value of a string of decimal digits, most significant first. */
  function DigitsValue(s: string): nat
    requires AllDigits(s)
  {
    if |s| == 0 then 0 else DigitsValue(s[..|s| - 1]) * 10 + DigitValue(s[|s| - 1])
  }

  /** Integer.parseInt on ASCII input: an optional sign, at least one digit,
      nothing else, and a value inside the int range; anything else is the
      NumberFormatException, here None. */
  function ParseInt(s: string): (r: Option<int>)
    ensures r.Some? ==> IsInt32(r.value)
    ensures |s| == 0 ==> r.None?
    ensures r.Some? ==> exists k :: 0 <= k < |s| && IsDigit(s[k])
    ensures |s| > 0 && s[0] == '-' ==>
      (r.Some? <==> |s| > 1 && AllDigits(s[1..]) && IsInt32(-(DigitsValue(s[1..]) as int)))
      && (r.Some? ==> r.value == -(DigitsValue(s[1..]) as int))
    ensures |s| > 0 && s[0] == '+' ==>
      (r.Some? <==> |s| > 1 && AllDigits(s[1..]) && IsInt32(DigitsValue(s[1..])))
      && (r.Some? ==> r.value == DigitsValue(s[1..]))
    ensures |s| > 0 && IsDigit(s[0]) ==>
      (r.Some? <==> AllDigits(s) && IsInt32(DigitsValue(s)))
      && (r.Some? ==> r.value == DigitsValue(s))
    ensures |s| > 0 && s[0] != '-' && s[0] != '+' && !IsDigit(s[0]) ==> r.None?
  {
    if |s| == 0 then None
    else
      var negative := s[0] == '-';
      var body := if s[0] == '-' || s[0] == '+' then s[1..] else s;
      if |body| == 0 || !AllDigits(body) then None
      else
        var v: int := if negative then -(DigitsValue(body) as int) else DigitsValue(body);
        if IsInt32(v) then
          assert IsDigit(s[|s| - 1]);
          Some(v)
        else None
  }

  lemma {:induction false} DigitsValueOfNatToString(n: nat)
    ensures DigitsValue(NatToString(n)) == n
  {
    var s := NatToString(n);
    if n < 10 {
      assert s[..0] == [];
    } else {
      var prefix := NatToString(n / 10);
      assert s[..|s| - 1] == prefix;
      DigitsValueOfNatToString(n / 10);
    }
  }

  /** Rendering an int and parsing it back yields the same int: the round
      trip IntParam relies on when a value is copied through getValue. */
  lemma IntToStringRoundTrip(i: int)
    requires IsInt32(i)
    ensures ParseInt(IntToString(i)) == Some(i)
  {
    var s := IntToString(i);
    if i < 0 {
      assert s[1..] == NatToString(-i);
      DigitsValueOfNatToString(-i);
    } else {
      DigitsValueOfNatToString(i);
    }
  }
}

=== FILE: geometry.dfy ===
/** Points, bounding boxes and transformations as the stem code uses them.
    Transformations are symbolic: a rotation or translation is recorded,
    never evaluated, so two transformations are equal exactly when they
    were built by the same sequence of operations. */
module Geometry {
  import opened JavaNum

  datatype Vec3 = Vec3(x: real, y: real, z: real)

  /** Vector.setMaxCoord / setMinCoord: componentwise max and min. */
  function MaxCoord(a: Vec3, b: Vec3): (r: Vec3)
    ensures r.x >= a.x && r.y >= a.y && r.z >= a.z
    ensures r.x >= b.x && r.y >= b.y && r.z >= b.z
    ensures (r.x == a.x || r.x == b.x) && (r.y == a.y || r.y == b.y) && (r.z == a.z || r.z == b.z)
  {
    Vec3(MaxReal(a.x, b.x), MaxReal(a.y, b.y), MaxReal(a.z, b.z))
  }

  function MinCoord(a: Vec3, b: Vec3): (r: Vec3)
    ensures r.x <= a.x && r.y <= a.y && r.z <= a.z
    ensures r.x <= b.x && r.y <= b.y && r.z <= b.z
    ensures (r.x == a.x || r.x == b.x) && (r.y == a.y || r.y == b.y) && (r.z == a.z || r.z == b.z)
  {
    Vec3(MinReal(a.x, b.x), MinReal(a.y, b.y), MinReal(a.z, b.z))
  }

  /** A box given by its least and greatest corner (minPoint, maxPoint). */
  datatype Box = Box(lo: Vec3, hi: Vec3)

  /** The box a new stem starts with: minPoint at +Double.MAX_VALUE and
      maxPoint at -Double.MAX_VALUE, so it holds no point. */
  const EmptyBox: Box := Box(Vec3(DoubleMax, DoubleMax, DoubleMax), Vec3(-DoubleMax, -DoubleMax, -DoubleMax))

  predicate Contains(b: Box, p: Vec3) {
    b.lo.x <= p.x <= b.hi.x && b.lo.y <= p.y <= b.hi.y && b.lo.z <= p.z <= b.hi.z
  }

  /** Every point of `small` lies in `big`. */
  ghost predicate Includes(big: Box, small: Box) {
    forall p: Vec3 {:trigger Contains(small, p)} :: Contains(small, p) ==> Contains(big, p)
  }

  /** Widening a box by a point: the least box holding the old box and the
      point. */
  function Widen(b: Box, p: Vec3): (r: Box)
    ensures Contains(r, p)
    ensures Includes(r, b)
    ensures Contains(b, p) ==> r == b
  {
    Box(MinCoord(b.lo, p), MaxCoord(b.hi, p))
  }

  /** Widening is idempotent and the order of two widenings does not
      matter, so a box widened along several paths by the same point ends
      up the same. */
  lemma WidenIdempotent(b: Box, p: Vec3)
    ensures Widen(Widen(b, p), p) == Widen(b, p)
  {
  }

  lemma WidenCommutes(b: Box, p: Vec3, q: Vec3)
    ensures Widen(Widen(b, p), q) == Widen(Widen(b, q), p)
  {
  }

  /** The empty box contains no point a double can hold. */
  lemma EmptyBoxHoldsNothing(p: Vec3)
    requires -DoubleMax < p.x < DoubleMax
    ensures !Contains(EmptyBox, p)
  {
  }

  /** A transformation, recorded as the operations that built it. */
  datatype Transform =
    | Given(id: nat)                                  // supplied from outside (trunk base, ...)
    | RotX(t: Transform, angle: real)                 // trf.rotx
    | RotY(t: Transform, angle: real)                 // trf.roty
    | RotXZ(t: Transform, down: real, rot: real)      // trf.rotxz
    | RotAxis(t: Transform, angle: real, axis: Vec3)  // trf.rotaxis
    | RotAxisZ(t: Transform, delta: real, rho: real)  // trf.rotaxisz
    | Translate(t: Transform, along: real)            // translation along the own z axis
    | Shift(t: Transform, axisOf: Transform, along: real) // translation along axisOf's z axis
    | SubstemAt(t: Transform, where: real)            // SegmentImpl.substemPosition

  /** Vector.Z_AXIS */
  const ZAxis: Vec3 := Vec3(0.0, 0.0, 1.0)
}

=== FILE: int_param.dfy ===
/** The errors a parameter operation raises (ParamException). */
module ParamErrors {

  datatype ParamError =
    | NotAnInteger(name: string, text: string)
    | BelowMinimum(name: string, min: int)
    | AboveMaximum(name: string, max: int)
    | UnknownParameter(name: string)
    | InvalidValue(name: string, text: string)
    | ZeroSplitAngle
    | MissingParameter(name: string)
}

/** A validated integer parameter. Integer.MIN_VALUE in `value` is the
    "not given" sentinel: reading an empty parameter returns, and stores,
    its default. */
module IntParam {
  import opened Wrappers
  import opened JavaNum
  import opened Decimal
  import opened ParamErrors

  datatype IntParam = IntParam(name: string, min: int, max: int, deflt: int, value: int)

  /** Every bound and value the Java fields can hold is a 32-bit int. */
  predicate Valid(p: IntParam) {
    IsInt32(p.min) && IsInt32(p.max) && IsInt32(p.deflt) && IsInt32(p.value)
  }

  predicate Empty(p: IntParam) {
    p.value == IntMin
  }

  /** The constructor: bounds and default as given, value not given yet. */
  function New(name: string, min: int, max: int, deflt: int): (p: IntParam)
    requires IsInt32(min) && IsInt32(max) && IsInt32(deflt)
    ensures Valid(p) && Empty(p)
    ensures p.name == name && p.min == min && p.max == max && p.deflt == deflt
  {
    IntParam(name, min, max, deflt, IntMin)
  }

  /** Forgets the value; name, bounds and default stay. */
  function Clear(p: IntParam): (q: IntParam)
    ensures Empty(q)
    ensures q.name == p.name && q.min == p.min && q.max == p.max && q.deflt == p.deflt
    ensures Valid(p) ==> Valid(q)
  {
    p.(value := IntMin)
  }

  /** setValue: parse the text, then check it against min and max, in that
      order. A failure reports the first broken rule and stores nothing;
      success stores exactly the parsed value. */
  function SetValue(p: IntParam, text: string): (r: Result<IntParam, ParamError>)
    ensures ParseInt(text).None? <==> r == Failure(NotAnInteger(p.name, text))
    ensures r.Success? <==> ParseInt(text).Some? && p.min <= ParseInt(text).value <= p.max
    ensures r.Success? ==> r.value == p.(value := ParseInt(text).value)
    ensures ParseInt(text).Some? && ParseInt(text).value < p.min ==> r == Failure(BelowMinimum(p.name, p.min))
    ensures ParseInt(text).Some? && p.min <= ParseInt(text).value && ParseInt(text).value > p.max
            ==> r == Failure(AboveMaximum(p.name, p.max))
    ensures Valid(p) && r.Success? ==> Valid(r.value)
  {
    match ParseInt(text)
    case None => Failure(NotAnInteger(p.name, text))
    case Some(i) =>
      if i < p.min then Failure(BelowMinimum(p.name, p.min))
      else if i > p.max then Failure(AboveMaximum(p.name, p.max))
      else Success(p.(value := i))
  }

  /** getValue: the stored value (the sentinel included) as decimal text,
      which parses back to that value. */
  function GetValue(p: IntParam): (s: string)
    requires Valid(p)
    ensures ParseInt(s) == Some(p.value)
  {
    IntToStringRoundTrip(p.value);
    IntToString(p.value)
  }

  /** intValue: an empty parameter yields its default and stores it (so the
      "not given" warning is issued once); otherwise the stored value, with
      the parameter unchanged. */
  function IntValue(p: IntParam): (r: (int, IntParam))
    ensures !Empty(p) ==> r == (p.value, p)
    ensures Empty(p) ==> r.0 == p.deflt && r.1 == p.(value := p.deflt)
    ensures r.1.value == r.0
    ensures Valid(p) ==> Valid(r.1)
  {
    if Empty(p) then (p.deflt, p.(value := p.deflt)) else (p.value, p)
  }

  /** A second intValue returns what the first returned and changes nothing
      more; unless the default is itself the sentinel, the parameter is no
      longer empty after the first. */
  lemma IntValueSettles(p: IntParam)
    ensures IntValue(IntValue(p).1) == IntValue(p) || (Empty(p) && p.deflt == IntMin)
    ensures p.deflt != IntMin ==> !Empty(IntValue(p).1)
    ensures p.deflt != IntMin ==> IntValue(IntValue(p).1) == IntValue(p)
  {
  }

  /** A value read back from one parameter and set on another with the same
      bounds (as the Params copy constructor does) is stored unchanged. */
  lemma CopyThroughText(p: IntParam, other: IntParam)
    requires Valid(p) && Valid(other)
    requires p.min <= other.value <= p.max
    ensures SetValue(p, GetValue(other)) == Success(p.(value := other.value))
  {
  }

  /** When the lower bound is Integer.MIN_VALUE (as for Leaves), the
      sentinel's own text is accepted, but the parameter then reads as
      empty and intValue hands out the default instead. */
  lemma SentinelIsIndistinguishable(p: IntParam)
    requires Valid(p) && p.min == IntMin
    ensures SetValue(p, IntToString(IntMin)).Success?
    ensures Empty(SetValue(p, IntToString(IntMin)).value)
    ensures IntValue(SetValue(p, IntToString(IntMin)).value).0 == p.deflt
  {
    IntToStringRoundTrip(IntMin);
  }

  /** intValue never yields the sentinel when the default is a real value,
      so Math.abs of it is never negative. */
  lemma IntValueAvoidsSentinel(p: IntParam)
    requires Valid(p) && p.deflt != IntMin
    ensures IntValue(p).0 != IntMin
    ensures Abs(IntValue(p).0) >= 0
  {
  }
}

=== FILE: java_num.dfy ===
/** The parts of Java's 32-bit integer arithmetic and double-to-int
    conversion that the generator relies on, written out over unbounded
    `int` and `real`. */
module JavaNum {
  import opened RealArith

  const IntMin: int := -0x8000_0000
  const IntMax: int := 0x7fff_ffff

  /** The largest finite double, the sentinel Java code uses for
      "no coordinate yet" (Double.MAX_VALUE). */
  const DoubleMax: real := 179769313486231570814527423731704356798070567525844996598917476803157260780028538760589558632766878171540458953514382464234321326889464182768467546703537516986049910576551282076245490090389328944075868508455133942304583236903222948165808559332123348274797826204144723168738177180919299881250404026184124858368.0

  predicate IsInt32(x: int) {
    IntMin <= x <= IntMax
  }

  /** Two's-complement wrap-around of an exact result into the int range,
      as Java's `+`, `-` and `++` on `int` do. */
  function Wrap(x: int): (r: int)
    ensures IsInt32(r)
    ensures (r - x) % 0x1_0000_0000 == 0
    ensures IsInt32(x) ==> r == x
  {
    (x - IntMin) % 0x1_0000_0000 + IntMin
  }

  /** Rounding toward zero, the rounding of Java's `(int)` and `(long)` casts. */
  function Trunc(x: real): (r: int)
    ensures 0.0 <= x ==> 0 <= r && r as real <= x < r as real + 1.0
    ensures x < 0.0 ==> r <= 0 && r as real - 1.0 < x <= r as real
  {
    if x >= 0.0 then x.Floor else -((-x).Floor)
  }

  /** Java's `(int)` cast of a finite double: truncation toward zero, then
      saturation at the ends of the int range. */
  function IntCast(x: real): (r: int)
    ensures IsInt32(r)
    ensures IsInt32(Trunc(x)) ==> r == Trunc(x)
    ensures Trunc(x) > IntMax ==> r == IntMax
    ensures Trunc(x) < IntMin ==> r == IntMin
  {
    var t := Trunc(x);
    if t < IntMin then IntMin else if t > IntMax then IntMax else t
  }

  /** A cast never exceeds an integer bound (at least IntMin) that its
      argument stays below. */
  lemma IntCastAtMost(x: real, n: int)
    requires x <= n as real && IntMin <= n
    ensures IntCast(x) <= n
  {
    var t := Trunc(x);
    if x < 0.0 {
      assert t as real - 1.0 < n as real;
    }
    assert t <= n;
  }

  /** A cast is at least any int-range integer its argument reaches. */
  lemma IntCastAtLeast(x: real, m: int)
    requires m as real <= x && IsInt32(m)
    ensures m <= IntCast(x)
  {
    var t := Trunc(x);
    if x >= 0.0 {
      assert x < t as real + 1.0;
    }
    assert m <= t;
  }

  /** Java's `/` on ints: the quotient rounded toward zero (Dafny's own `/`
      is Euclidean). The one overflowing case, IntMin / -1, wraps. */
  function Quot(a: int, b: int): (q: int)
    requires b != 0
    ensures q == Wrap(q)
    ensures IsInt32(a) && IsInt32(b) && !(a == IntMin && b == -1) ==> IsInt32(q)
  {
    var m := (if a < 0 then -a else a) / (if b < 0 then -b else b);
    Wrap(if (a < 0) == (b < 0) then m else -m)
  }

  /** Java's `%` on ints: the remainder takes the sign of the dividend. */
  function Rem(a: int, b: int): (r: int)
    requires b != 0
    ensures a >= 0 ==> 0 <= r < (if b < 0 then -b else b)
    ensures a < 0 ==> -(if b < 0 then -b else b) < r <= 0
  {
    var m := (if a < 0 then -a else a) % (if b < 0 then -b else b);
    if a < 0 then -m else m
  }

  /** Java's Math.abs on an int, which leaves IntMin unchanged. */
  function Abs(x: int): (r: int)
    requires IsInt32(x)
    ensures IsInt32(r)
    ensures x != IntMin ==> r >= 0 && (r == x || r == -x)
    ensures x == IntMin ==> r < 0
  {
    if x == IntMin then IntMin else if x < 0 then -x else x
  }

  /** For a non-negative dividend and a positive divisor Java's quotient and
      remainder agree with the mathematical ones. */
  lemma QuotRemNonNegative(a: int, b: int)
    requires 0 <= a <= IntMax && 0 < b <= IntMax
    ensures Quot(a, b) == a / b && Rem(a, b) == a % b
    ensures a == Quot(a, b) * b + Rem(a, b)
  {
  }

  /** Java's `%` on doubles: x minus the whole multiples of m that fit
      into it counting toward zero, so the remainder takes x's sign. A
      value already in [0, m) is its own remainder. */
  function FMod(x: real, m: real): (r: real)
    requires m > 0.0
    ensures x >= 0.0 ==> 0.0 <= r < m
    ensures x < 0.0 ==> -m < r <= 0.0
    ensures 0.0 <= x < m ==> r == x
    ensures ((x - r) / m).Floor as real == (x - r) / m
  {
    TruncMultiple(x, m);
    var q := Trunc(x / m) as real;
    assert (x - (x - q * m)) / m == q by {
      MulDivCancel(q, m);
    }
    x - q * m
  }

  /** The multiple of m that truncating x / m selects lies within m of x,
      below it for a non-negative x and above it for a negative one. */
  lemma TruncMultiple(x: real, m: real)
    requires m > 0.0
    ensures x >= 0.0 ==> Trunc(x / m) as real * m <= x < Trunc(x / m) as real * m + m
    ensures x < 0.0 ==> Trunc(x / m) as real * m - m < x <= Trunc(x / m) as real * m
    ensures 0.0 <= x < m ==> Trunc(x / m) == 0
  {
    var y := x / m;
    var qr := Trunc(y) as real;
    DivMulCancel(x, m);
    if x >= 0.0 {
      ScaledBetween(x, y, qr, m);
      if x < m && Trunc(y) != 0 {
        MulMonotone(1.0, y, m);
      }
    } else {
      ScaledBetween(x, y, qr - 1.0, m);
    }
  }

  /** With y = x / m between lo and lo + 1, x lies between lo m and lo m + m;
      the bound is strict on the side where y is. */
  lemma ScaledBetween(x: real, y: real, lo: real, m: real)
    requires m > 0.0 && y * m == x && lo <= y <= lo + 1.0
    ensures lo * m <= x <= lo * m + m
    ensures y < lo + 1.0 ==> x < lo * m + m
    ensures lo < y ==> lo * m < x
  {
    var f := y - lo;
    assert f * m == x - lo * m;
    MulMonotone(0.0, f, m);
    MulMonotone(f, 1.0, m);
    if f < 1.0 {
      MulStrictMonotone(f, 1.0, m);
    }
    if 0.0 < f {
      MulStrictMonotone(0.0, f, m);
    }
  }

  function MinReal(a: real, b: real): (r: real)
    ensures r <= a && r <= b && (r == a || r == b)
  {
    if a <= b then a else b
  }

  function MaxReal(a: real, b: real): (r: real)
    ensures r >= a && r >= b && (r == a || r == b)
  {
    if a >= b then a else b
  }

  function MaxInt(a: int, b: int): (r: int)
    ensures r >= a && r >= b && (r == a || r == b)
  {
    if a >= b then a else b
  }

  function AbsReal(x: real): (r: real)
    ensures r >= 0.0 && (r == x || r == -x)
  {
    if x < 0.0 then -x else x
  }
}

=== FILE: leaves.dfy ===
/** makeLeaves: the leaves of a stem on the last level, either spread along
    each segment (Leaves > 0) or gathered in a fan at the tip of the last
    segment (Leaves < 0). */
module Leaves {
  import opened JavaNum
  import opened Numerics
  import opened RealArith
  import opened Accumulator
  import opened Geometry
  import opened Params
  import opened Stems
  import opened StemGeometry
  import opened Substems

  // ---------------------------------------------------------------------
  // Leaves along the stem

  /** Leaf k of a segment: the middle of the k-th slot of width dist above
      offs, moved by up to half a slot (lpar.var(dist / 2)), so it never
      leaves its slot. */
  function LeafSlot(offs: real, dist: real, k: int, draw: real): (w: real)
    requires -1.0 <= draw <= 1.0
    ensures dist >= 0.0 ==> offs + k as real * dist <= w <= offs + k as real * dist + dist
  {
    offs + dist / 2.0 + k as real * dist + Var(dist / 2.0, draw)
  }

  /** The positions (fractions of the segment) of a segment's leaves. */
  function LeafPlacements(offs: real, dist: real, draw: int -> real, count: nat): (w: seq<real>)
    requires Draws(draw)
    ensures |w| == count
    ensures forall k :: 0 <= k < count ==> w[k] == LeafSlot(offs, dist, k, draw(k))
    ensures dist >= 0.0 ==> forall k :: 0 <= k < count ==>
      offs + k as real * dist <= w[k] <= offs + k as real * dist + dist
  {
    seq(count, k requires 0 <= k < count => LeafSlot(offs, dist, k, draw(k)))
  }

  /** eff leaves share the part of the segment above offs in equal slots:
      each lies between offs and the segment's end, and each lies no lower
      than the one before. */
  lemma LeavesWithinSegment(offs: real, eff: int, draw: int -> real)
    requires Draws(draw) && eff > 0 && 0.0 <= offs <= 1.0
    ensures var w := LeafPlacements(offs, (1.0 - offs) / eff as real, draw, eff);
            && (forall k :: 0 <= k < eff ==> offs <= w[k] <= 1.0)
            && (forall k :: 0 < k < eff ==> w[k - 1] <= w[k])
  {
    var e := eff as real;
    var dist := (1.0 - offs) / e;
    DivMulCancel(1.0 - offs, e);
    assert dist * e == 1.0 - offs;
    var w := LeafPlacements(offs, dist, draw, eff);
    forall k | 0 <= k < eff
      ensures offs <= w[k] <= 1.0
    {
      SlotBelowEnd(offs, dist, k as real, e, w[k]);
    }
    forall k | 0 < k < eff
      ensures w[k - 1] <= w[k]
    {
      LeafSlotsInOrder(offs, dist, (k - 1) as real, k as real, w[k - 1], w[k]);
    }
  }

  /** A position in slot j of eff, with eff slots filling 1 - offs, lies in
      [offs, 1]. */
  lemma SlotBelowEnd(offs: real, dist: real, j: real, e: real, w: real)
    requires dist >= 0.0 && 0.0 <= j && j + 1.0 <= e && dist * e == 1.0 - offs
    requires offs + j * dist <= w <= offs + j * dist + dist
    ensures offs <= w <= 1.0
  {
    MulNonNegative(j, dist);
    MulMonotone(j + 1.0, e, dist);
    MulSplit(dist, j + 1.0, j, 1.0);
  }

  /** A position in slot j lies no higher than one in slot j + 1. */
  lemma LeafSlotsInOrder(offs: real, dist: real, j: real, j1: real, a: real, b: real)
    requires j1 == j + 1.0
    requires a <= offs + j * dist + dist
    requires offs + j1 * dist <= b
    ensures a <= b
  {
    MulSplit(dist, j1, j, 1.0);
  }

  /** The stem's stored rotation after n leaves or substems have taken
      their direction from it. With nRotate < 0 it is always one of the two
      sides once anything took a direction. */
  function RotationAfter(lp1: LevelParams, start: real, draw: int -> real, n: nat): (r: real)
    requires Draws(draw)
    ensures lp1.nRotate < 0.0 && n > 0 ==> r == 1.0 || r == -1.0
    ensures lp1.nRotate >= 0.0 && n > 0 ==> -360.0 < r < 360.0
    ensures n == 0 ==> r == start
  {
    if n == 0 then start else NextRotation(lp1, RotationAfter(lp1, start, draw, n - 1), draw(n - 1)).0
  }

  /** A leaf that sits the fraction `where` up a segment of length segLen
      whose transformation is segTransf, turned as substemDirection turns a substem there. */
  predicate PlacedOn(leaf: Leaf, segTransf: Transform, where: real, segLen: real) {
    leaf.transf.Shift? && leaf.transf.axisOf == segTransf && leaf.transf.along == where * segLen
    && leaf.transf.t.RotXZ? && leaf.transf.t.t == segTransf
  }

  /** One leaf of normal mode: turned as a substem would be at its offset
      on the segment, moved `where` of the segment up, and appended; the
      stem's rotation advances by one step. */
  function AddLeaf(num: Numerics, p: TreeParams, lp1: LevelParams, s: Stem, seg: Segment, where: real,
                   start: real, rotDraw: int -> real, i: nat, downDraw: real): (r: Stem)
    requires Draws(rotDraw) && -1.0 <= downDraw <= 1.0
    requires s.substemRotangle == RotationAfter(lp1, start, rotDraw, i)
    ensures |r.leaves| == |s.leaves| + 1 && r.leaves[..|s.leaves|] == s.leaves
    ensures PlacedOn(r.leaves[|s.leaves|], seg.transf, where, s.segmentLength)
    ensures r.substemRotangle == RotationAfter(lp1, start, rotDraw, i + 1)
    ensures r == s.(leaves := r.leaves, substemRotangle := r.substemRotangle)
  {
    var loffs := (seg.index as real + where) * s.segmentLength;
    var turned := SubstemDirection(num, p, lp1, s, seg.transf, loffs, rotDraw(i), downDraw);
    turned.0.(leaves := s.leaves + [Leaf(Shift(turned.1, seg.transf, where * s.segmentLength))])
  }

  /** The leaf loop of normal mode: eff leaves at the slots of width dist
      above offs, appended in order. */
  method PlaceLeaves(num: Numerics, p: TreeParams, lp1: LevelParams, s: Stem, seg: Segment,
                     offs: real, dist: real, eff: nat,
                     placeDraw: int -> real, rotDraw: int -> real, downDraw: int -> real)
    returns (s': Stem, wheres: seq<real>)
    requires Draws(placeDraw) && Draws(rotDraw) && Draws(downDraw)
    ensures wheres == LeafPlacements(offs, dist, placeDraw, eff)
    ensures |s'.leaves| == |s.leaves| + eff && s'.leaves[..|s.leaves|] == s.leaves
    ensures forall k :: 0 <= k < eff ==>
      PlacedOn(s'.leaves[|s.leaves| + k], seg.transf, wheres[k], s.segmentLength)
    ensures s'.substemRotangle == RotationAfter(lp1, s.substemRotangle, rotDraw, eff)
    ensures s' == s.(leaves := s'.leaves, substemRotangle := s'.substemRotangle)
  {
    s', wheres := s, [];
    var i := 0;
    while i < eff
      invariant 0 <= i <= eff
      invariant |wheres| == i
      invariant forall k :: 0 <= k < i ==> wheres[k] == LeafSlot(offs, dist, k, placeDraw(k))
      invariant |s'.leaves| == |s.leaves| + i && s'.leaves[..|s.leaves|] == s.leaves
      invariant forall k :: 0 <= k < i ==>
        PlacedOn(s'.leaves[|s.leaves| + k], seg.transf, wheres[k], s.segmentLength)
      invariant s'.substemRotangle == RotationAfter(lp1, s.substemRotangle, rotDraw, i)
      invariant s' == s.(leaves := s'.leaves, substemRotangle := s'.substemRotangle)
    {
      var where := LeafSlot(offs, dist, i, placeDraw(i));
      var next := AddLeaf(num, p, lp1, s', seg, where, s.substemRotangle, rotDraw, i, downDraw(i));
      assert next.leaves[..|s.leaves|] == s.leaves by {
        assert next.leaves[..|s'.leaves|][..|s.leaves|] == s'.leaves[..|s.leaves|];
      }
      s' := next;
      wheres := wheres + [where];
      i := i + 1;
    }
  }

  /** makeLeaves in normal mode for one segment. The tree-wide leaf error
      takes one accumulator step; that many leaves (none for a count of 0
      or less) are appended to the stem, each turned by substemDirection and
      moved to its place on the segment; the stem's rotation advances once
      per leaf and nothing else of the stem changes. */
  method SegmentLeaves(num: Numerics, p: TreeParams, lp1: LevelParams, s: Stem, seg: Segment,
                       parentRadius: real, err: real,
                       placeDraw: int -> real, rotDraw: int -> real, downDraw: int -> real)
    returns (s': Stem, err': real, wheres: seq<real>)
    requires Draws(placeDraw) && Draws(rotDraw) && Draws(downDraw)
    ensures (MaxInt(Step(s.leavesPerSegment, err).0, 0), err') == (|wheres|, Step(s.leavesPerSegment, err).1)
    ensures var eff := Step(s.leavesPerSegment, err).0;
            var offs := if seg.index == 0 then Div(num, parentRadius, s.segmentLength) else 0.0;
            eff > 0 ==> wheres == LeafPlacements(offs, (1.0 - offs) / eff as real, placeDraw, eff)
    ensures |s'.leaves| == |s.leaves| + |wheres| && s'.leaves[..|s.leaves|] == s.leaves
    ensures forall k :: 0 <= k < |wheres| ==>
      PlacedOn(s'.leaves[|s.leaves| + k], seg.transf, wheres[k], s.segmentLength)
    ensures s'.substemRotangle == RotationAfter(lp1, s.substemRotangle, rotDraw, |wheres|)
    ensures s' == s.(leaves := s'.leaves, substemRotangle := s'.substemRotangle)
  {
    var step := Step(s.leavesPerSegment, err);
    var eff := step.0;
    err' := step.1;
    if eff <= 0 {
      s', wheres := s, [];
      return;
    }
    var offs := if seg.index == 0 then Div(num, parentRadius, s.segmentLength) else 0.0;
    s', wheres := PlaceLeaves(num, p, lp1, s, seg, offs, (1.0 - offs) / eff as real, eff,
                              placeDraw, rotDraw, downDraw);
  }

  // ---------------------------------------------------------------------
  // Leaves in a fan at the tip

  /** The number of leaves of a fan: leavesPerBranch rounded half up. */
  function FanCount(perBranch: real): int {
    IntCast(perBranch + 0.5)
  }

  /** The yaw of side leaf i of a fan: leaves 2s and 2s + 1 are the pair s,
      turned to either side of the middle by offsetangle + s distangle, each
      varied by its own draw (draws 2i and 2i + 1 belong to leaf i). */
  function SideYaw(offsetangle: real, distangle: real, varangle: real, draw: int -> real, i: nat): (y: real)
    requires Draws(draw)
    ensures var nominal := offsetangle + (i / 2) as real * distangle;
            var side := if i % 2 == 0 then 1.0 else -1.0;
            side * nominal - AbsReal(varangle) <= y <= side * nominal + AbsReal(varangle)
  {
    var rot := if i % 2 == 0 then 1.0 else -1.0;
    var v := Var(varangle, draw(2 * i));
    rot * (offsetangle + (i / 2) as real * distangle + v)
  }

  /** The side leaves of a fan with `pairs` pairs, turned about y by their
      yaw and then about x by the down angle, each varied. */
  function FanSides(base: Transform, offsetangle: real, distangle: real, varangle: real,
                    down: real, vardown: real, draw: int -> real, pairs: nat): (r: seq<Leaf>)
    requires Draws(draw)
    ensures |r| == 2 * pairs
    ensures forall i :: 0 <= i < 2 * pairs ==>
      r[i] == Leaf(RotX(RotY(base, SideYaw(offsetangle, distangle, varangle, draw, i)),
                        down + Var(vardown, draw(2 * i + 1))))
  {
    seq(2 * pairs, i requires 0 <= i < 2 * pairs =>
      Leaf(RotX(RotY(base, SideYaw(offsetangle, distangle, varangle, draw, i)), down + Var(vardown, draw(2 * i + 1)))))
  }

  /** The angle between the middle and the first pair of a fan: a whole
      step when a leaf sits in the middle, half a step otherwise. */
  function FanOffset(cnt: int, distangle: real): (a: real) {
    if Rem(cnt, 2) == 1 then distangle else distangle / 2.0
  }

  /** makeLeaves in fan mode: cnt leaves at the end of the last segment,
      one in the middle when cnt is odd and cnt / 2 pairs around it, the
      step between them nRotate / cnt. */
  function FanLeaves(num: Numerics, lp1: LevelParams, cnt: int, segTransf: Transform, segLen: real,
                     draw: int -> real): (r: seq<Leaf>)
    requires Draws(draw) && IsInt32(cnt)
    ensures |r| == MaxInt(cnt, 0)
    ensures (|r| > 0 && r[0] == Leaf(Translate(segTransf, segLen))) <==> Rem(cnt, 2) == 1
    ensures Rem(cnt, 2) == 1 ==> r[1..] == FanSides(Translate(segTransf, segLen), FanOffset(cnt, Div(num, lp1.nRotate, cnt as real)),
      Div(num, lp1.nRotate, cnt as real), Div(num, lp1.nRotateV, cnt as real), lp1.nDownAngle, lp1.nDownAngleV, draw, cnt / 2)
    ensures Rem(cnt, 2) != 1 ==> r == FanSides(Translate(segTransf, segLen), FanOffset(cnt, Div(num, lp1.nRotate, cnt as real)),
      Div(num, lp1.nRotate, cnt as real), Div(num, lp1.nRotateV, cnt as real), lp1.nDownAngle, lp1.nDownAngleV, draw, MaxInt(cnt / 2, 0))
  {
    var base := Translate(segTransf, segLen);
    var distangle := Div(num, lp1.nRotate, cnt as real);
    var varangle := Div(num, lp1.nRotateV, cnt as real);
    var pairs := Quot(cnt, 2);
    FanShape(cnt);
    var sides := FanSides(base, FanOffset(cnt, distangle), distangle, varangle, lp1.nDownAngle, lp1.nDownAngleV,
                          draw, MaxInt(pairs, 0));
    if Rem(cnt, 2) == 1 then [Leaf(base)] + sides else sides
  }

  /** Java's cnt % 2 and cnt / 2 split a positive cnt into a middle leaf
      (when odd) and cnt / 2 pairs, and leave nothing for cnt <= 0. */
  lemma FanShape(cnt: int)
    requires IsInt32(cnt)
    ensures Rem(cnt, 2) == 1 <==> cnt > 0 && cnt % 2 == 1
    ensures cnt >= 0 ==> Quot(cnt, 2) == cnt / 2
    ensures cnt < 0 ==> Quot(cnt, 2) <= 0 && Rem(cnt, 2) != 1
    ensures (if Rem(cnt, 2) == 1 then 1 else 0) + 2 * MaxInt(Quot(cnt, 2), 0) == MaxInt(cnt, 0)
  {
    if cnt >= 0 {
      QuotRemNonNegative(cnt, 2);
    }
  }

  /** With no yaw variation (nRotateV = 0) the two leaves of each pair turn
      by exactly opposite angles, so the fan is symmetric about its middle. */
  lemma FanMirrored(offsetangle: real, distangle: real, draw: int -> real, s: nat)
    requires Draws(draw)
    ensures SideYaw(offsetangle, distangle, 0.0, draw, 2 * s + 1) == -SideYaw(offsetangle, distangle, 0.0, draw, 2 * s)
  {
    assert (2 * s + 1) / 2 == s && (2 * s) / 2 == s;
    assert (2 * s + 1) % 2 == 1 && (2 * s) % 2 == 0;
  }

  /** The pairs of a fan are a step apart, and the outermost pair of a fan
      of cnt >= 2 leaves is (cnt - 1) / 2 steps from the middle either way:
      odd or even, the cnt leaves cover (cnt - 1) steps evenly. */
  lemma FanEvenlySpaced(cnt: int, distangle: real)
    requires 2 <= cnt <= IntMax
    ensures var outer := FanOffset(cnt, distangle) + (Quot(cnt, 2) - 1) as real * distangle;
            2.0 * outer == (cnt - 1) as real * distangle
  {
    FanShape(cnt);
    var q := cnt / 2;
    MulSucc(q - 1, distangle);
    if cnt % 2 == 1 {
      assert cnt - 1 == 2 * q;
      assert (cnt - 1) as real * distangle == 2.0 * (q as real * distangle);
    } else {
      assert cnt - 1 == 2 * (q - 1) + 1;
      assert (cnt - 1) as real * distangle == 2.0 * ((q - 1) as real * distangle) + distangle;
    }
  }

  // ---------------------------------------------------------------------
  // Which mode applies

  /** makeLeaves for one segment: normal mode when Leaves > 0; fan mode
      when Leaves < 0, on the last segment only; nothing otherwise. The
      tree-wide leaf error moves in normal mode only. */
  method MakeLeaves(num: Numerics, p: TreeParams, lp1: LevelParams, s: Stem, parent: Stem, seg: Segment,
                    parentRadius: real, err: real,
                    placeDraw: int -> real, rotDraw: int -> real, downDraw: int -> real, fanDraw: int -> real)
    returns (s': Stem, err': real)
    requires Draws(placeDraw) && Draws(rotDraw) && Draws(downDraw) && Draws(fanDraw)
    requires IsInt32(p.leaves)
    ensures p.leaves > 0 ==>
      err' == Step(s.leavesPerSegment, err).1
      && |s'.leaves| == |s.leaves| + MaxInt(Step(s.leavesPerSegment, err).0, 0)
    ensures p.leaves < 0 && seg.index == s.segmentCount - 1 ==>
      err' == err
      && s' == s.(leaves := s.leaves + FanLeaves(num, lp1, FanCount(LeavesPerBranch(num, p, s, parent)),
                                                 seg.transf, s.segmentLength, fanDraw))
    ensures p.leaves == 0 || (p.leaves < 0 && seg.index != s.segmentCount - 1) ==> s' == s && err' == err
  {
    if p.leaves > 0 {
      var wheres;
      s', err', wheres := SegmentLeaves(num, p, lp1, s, seg, parentRadius, err, placeDraw, rotDraw, downDraw);
    } else if p.leaves < 0 && seg.index == s.segmentCount - 1 {
      var cnt := FanCount(LeavesPerBranch(num, p, s, parent));
      s', err' := s.(leaves := s.leaves + FanLeaves(num, lp1, cnt, seg.transf, s.segmentLength, fanDraw)), err;
    } else {
      s', err' := s, err;
    }
  }
}

=== FILE: numerics.dfy ===
/** The floating-point library calls (Math.sin, Math.pow, Math.sqrt,
    Math.acos) are not evaluated: a `Numerics` value supplies them, and
    every property proved here holds whatever functions it holds. */
module Numerics {

  datatype Numerics = Numerics(
    sin: real -> real,
    pow: (real, real) -> real,
    sqrt: real -> real,
    acos: real -> real,
    /** stands for the infinity or NaN a double division by zero yields */
    nonFinite: real)

  /** Math.PI */
  const Pi: real := 3.141592653589793

  /** Double division; division by zero gives the non-finite stand-in. */
  function Div(num: Numerics, a: real, b: real): (r: real)
    ensures b != 0.0 ==> r == a / b
    ensures b == 0.0 ==> r == num.nonFinite
  {
    if b == 0.0 then num.nonFinite else a / b
  }

  /** Math.pow(2, k) for an int exponent, which doubles compute exactly. */
  function Pow2(k: int): (r: real)
    ensures r > 0.0
    ensures k >= 0 ==> r >= 1.0
    decreases if k < 0 then -k else k
  {
    if k == 0 then 1.0 else if k > 0 then 2.0 * Pow2(k - 1) else Pow2(k + 1) / 2.0
  }
}

=== FILE: params.dfy ===
/** The parameter set of a tree: the shape-ratio profile, the per-level
    lookup, the name registry behind setParam, and the preparation pass
    that validates and derives secondary settings. */
module Params {
  import opened Wrappers
  import opened JavaNum
  import opened Decimal
  import opened Numerics
  import opened ParamErrors
  import IP = IntParam
  import opened RealArith

  // Tree shape ids.
  const Conical: int := 0
  const Spherical: int := 1
  const Hemispherical: int := 2
  const Cylindrical: int := 3
  const TaperedCylindrical: int := 4
  const Flame: int := 5
  const InverseConical: int := 6
  const TendFlame: int := 7
  const Envelope: int := 8

  /** The pruning-envelope settings the ENVELOPE shape reads. */
  datatype EnvelopeShape = EnvelopeShape(pruneWidthPeak: real, prunePowerLow: real, prunePowerHigh: real)

  /** getShapeRatio: the profile curve for a height ratio. */
  function ShapeRatio(num: Numerics, env: EnvelopeShape, ratio: real, shape: int): (r: real)
    ensures 0.0 <= ratio <= 1.0 && (shape == Conical || shape == Flame) ==> 0.0 <= r <= 1.0
    ensures 0.0 <= ratio <= 1.0 && (shape == TaperedCylindrical || shape == TendFlame) ==> 0.5 <= r <= 1.0
    ensures 0.0 <= ratio <= 1.0 && shape == InverseConical ==> 0.2 <= r <= 1.0
    ensures shape == Cylindrical ==> r == 1.0
    ensures shape == Envelope && (ratio < 0.0 || ratio > 1.0) ==> r == 0.0
    ensures (shape < Conical || shape > Envelope) ==> r == 0.0
  {
    if shape == Conical then ratio
    else if shape == Spherical then 0.2 + 0.8 * num.sin(Pi * ratio)
    else if shape == Hemispherical then 0.2 + 0.8 * num.sin(0.5 * Pi * ratio)
    else if shape == Cylindrical then 1.0
    else if shape == TaperedCylindrical then 0.5 + 0.5 * ratio
    else if shape == Flame then (if ratio <= 0.7 then ratio / 0.7 else (1.0 - ratio) / 0.3)
    else if shape == InverseConical then 1.0 - 0.8 * ratio
    else if shape == TendFlame then
      (if ratio <= 0.7 then 0.5 + 0.5 * ratio / 0.7 else 0.5 + 0.5 * (1.0 - ratio) / 0.3)
    else if shape == Envelope then
      if ratio < 0.0 || ratio > 1.0 then 0.0
      else if ratio < 1.0 - env.pruneWidthPeak then
        num.pow(ratio / (1.0 - env.pruneWidthPeak), env.prunePowerHigh)
      else
        num.pow(Div(num, 1.0 - ratio, 1.0 - env.pruneWidthPeak), env.prunePowerLow)
    else 0.0
  }

  /** CONICAL is the identity; FLAME and TEND_FLAME peak at 1 at ratio 0.7,
      where both of their branches agree, so the curves are continuous. */
  lemma ShapeRatioProfiles(num: Numerics, env: EnvelopeShape, ratio: real)
    ensures ShapeRatio(num, env, ratio, Conical) == ratio
    ensures ShapeRatio(num, env, 0.7, Flame) == 1.0 && (1.0 - 0.7) / 0.3 == 1.0
    ensures ShapeRatio(num, env, 0.7, TendFlame) == 1.0 && 0.5 + 0.5 * (1.0 - 0.7) / 0.3 == 1.0
    ensures 0.0 <= ratio <= 1.0 ==> ShapeRatio(num, env, ratio, Flame) <= 1.0
  {
  }

  // ---------------------------------------------------------------------
  // Per-level parameters

  /** The per-level values the generator reads (LevelParams). */
  datatype LevelParams = LevelParams(
    level: int,
    nLength: real, nLengthV: real, nTaper: real,
    nSegSplits: real, nSplitAngle: real, nSplitAngleV: real,
    nCurveRes: int, nCurve: real, nCurveV: real, nCurveBack: real,
    nDownAngle: real, nDownAngleV: real, nRotate: real, nRotateV: real,
    nBranches: int, nBranchDist: real,
    meshPoints: int)

  /** getLevelParams: levels above 3 share the parameters of level 3; a
      negative level indexes outside the four-entry table (an
      ArrayIndexOutOfBoundsException, here None). */
  function LevelParamsAt(table: seq<LevelParams>, stemLevel: int): (r: Option<LevelParams>)
    requires |table| == 4
    ensures stemLevel < 0 <==> r.None?
    ensures 0 <= stemLevel <= 3 ==> r == Some(table[stemLevel])
    ensures stemLevel >= 3 ==> r == Some(table[3])
  {
    var i := if stemLevel < 3 then stemLevel else 3;
    if i < 0 then None else Some(table[i])
  }

  // ---------------------------------------------------------------------
  // The registry behind setParam

  /** A registered parameter: integer parameters are modelled; the other
      kinds keep their text and are validated by the caller-supplied check. */
  datatype Entry = IntEntry(p: IP.IntParam) | OtherEntry(text: Option<string>)

  type Registry = map<string, Entry>

  /** Names registered once for the whole tree, in registration order. */
  const GeneralNames: seq<string> := [
    "Species", "Shape", "Levels", "Scale", "ScaleV", "BaseSize", "0BaseSplits", "Ratio",
    "RatioPower", "Flare", "Lobes", "LobeDepth", "Leaves", "LeafShape", "LeafScale",
    "LeafScaleX", "LeafBend", "LeafStemLen", "LeafDistrib", "LeafQuality", "Smooth",
    "AttractionUp", "PruneRatio", "PruneWidth", "PruneWidthPeak", "PrunePowerLow",
    "PrunePowerHigh", "0Scale", "0ScaleV"]

  /** Name patterns registered once per level 0..3; the leading `n` becomes
      the level digit. */
  const LevelPatterns: seq<string> := [
    "nLength", "nLengthV", "nTaper", "nSegSplits", "nSplitAngle", "nSplitAngleV",
    "nCurveRes", "nCurve", "nCurveV", "nCurveBack", "nDownAngle", "nDownAngleV",
    "nRotate", "nRotateV", "nBranches", "nBranchDist"]

  /** The integer parameters of the whole tree: name, min, max, default. */
  const GeneralInts: seq<(string, int, int, int)> := [
    ("Shape", 0, 8, 0), ("Levels", 0, 9, 3), ("0BaseSplits", 0, IntMax, 0),
    ("Lobes", 0, IntMax, 0), ("Leaves", IntMin, IntMax, 0), ("LeafDistrib", 0, 8, 4)]

  /** The per-level integer parameters: pattern, min, max, four defaults. */
  const LevelInts: seq<(string, int, int, seq<int>)> := [
    ("nCurveRes", 1, IntMax, [3, 3, 1, 1]), ("nBranches", 0, IntMax, [1, 10, 5, 5])]

  /** The name a per-level parameter is registered under ("nCurveRes" at
      level 2 is "2CurveRes"). */
  function LevelName(level: int, pattern: string): (s: string)
    requires 0 <= level <= 3 && |pattern| >= 1
    ensures |s| == |pattern| && IsDigit(s[0]) && s[1..] == pattern[1..]
    ensures DigitValue(s[0]) == level
  {
    [DigitChar(level)] + pattern[1..]
  }

  /** Different levels register a pattern under different names, and the
      name gives back its level and pattern. */
  lemma LevelNamesDistinct(l1: int, p1: string, l2: int, p2: string)
    requires 0 <= l1 <= 3 && |p1| >= 1 && 0 <= l2 <= 3 && |p2| >= 1
    requires p1[0] == p2[0]
    ensures LevelName(l1, p1) == LevelName(l2, p2) <==> l1 == l2 && p1 == p2
  {
    var a, b := LevelName(l1, p1), LevelName(l2, p2);
    if a == b {
      assert a[0] == b[0] && a[1..] == b[1..];
      assert p1 == [p1[0]] + p1[1..] && p2 == [p2[0]] + p2[1..];
    }
  }

  function RegisteredNames(): set<string> {
    (set k | 0 <= k < |GeneralNames| :: GeneralNames[k])
    + (set l, k | 0 <= l <= 3 && 0 <= k < |LevelPatterns| && |LevelPatterns[k]| >= 1
         :: LevelName(l, LevelPatterns[k]))
  }

  /** The bounds and default (min, max, default) registered under `name`:
      a plain default for a tree-wide parameter, one per level for a level
      pattern. */
  function FindInt<D>(specs: seq<(string, int, int, D)>, name: string): (r: Option<(int, int, D)>)
    ensures r.Some? ==> exists k :: 0 <= k < |specs| && specs[k] == (name, r.value.0, r.value.1, r.value.2)
  {
    if |specs| == 0 then None
    else if specs[0].0 == name then Some((specs[0].1, specs[0].2, specs[0].3))
    else
      var r := FindInt(specs[1..], name);
      assert r.Some? ==> exists k :: 0 <= k < |specs[1..]| && specs[1..][k] == (name, r.value.0, r.value.1, r.value.2);
      r
  }

  function IntSpecOf(name: string): (r: Option<(int, int, int)>)
    ensures r.Some? ==> IsInt32(r.value.0) && IsInt32(r.value.1) && r.value.0 <= r.value.2 <= r.value.1
  {
    var g := FindInt(GeneralInts, name);
    if g.Some? then g
    else if |name| >= 1 && '0' <= name[0] <= '3' then
      var level := name[0] as int - '0' as int;
      match FindInt(LevelInts, "n" + name[1..])
      case Some((mn, mx, ds)) => Some((mn, mx, ds[level]))
      case None => None
    else None
  }

  /** An integer entry that reads back within its declared range. */
  predicate SoundInt(name: string, p: IP.IntParam) {
    IP.Valid(p) && p.name == name && p.min <= p.deflt <= p.max
    && (IP.Empty(p) || p.min <= p.value <= p.max)
  }

  predicate SoundRegistry(db: Registry) {
    forall n :: n in db && db[n].IntEntry? ==> SoundInt(n, db[n].p)
  }

  function InitialEntry(name: string): Entry {
    match IntSpecOf(name)
    case Some((mn, mx, d)) => IntEntry(IP.New(name, mn, mx, d))
    case None => OtherEntry(None)
  }

  /** registerParams: every registered name, each parameter empty. */
  function InitialRegistry(): (db: Registry)
    ensures db.Keys == RegisteredNames()
    ensures SoundRegistry(db)
    ensures forall n :: n in db ==> db[n] == InitialEntry(n)
  {
    map n | n in RegisteredNames() :: InitialEntry(n)
  }

  /** setParam: an unregistered name is rejected; a registered integer
      parameter is validated by IntParam.setValue; any other kind by the
      supplied check. On success exactly the named entry changes, and the
      registry stays sound. */
  function SetParam(db: Registry, name: string, text: string,
                    checkOther: (string, string) -> Option<ParamError>): (r: Result<Registry, ParamError>)
    ensures name !in db <==> r == Failure(UnknownParameter(name))
    ensures r.Success? ==> r.value.Keys == db.Keys && name in db
    ensures r.Success? ==> forall n :: n in db && n != name ==> r.value[n] == db[n]
    ensures name in db && db[name].IntEntry? ==>
      (r.Success? <==> IP.SetValue(db[name].p, text).Success?)
    ensures name in db && db[name].IntEntry? && r.Success? ==>
      r.value[name] == IntEntry(IP.SetValue(db[name].p, text).value)
    ensures SoundRegistry(db) && r.Success? ==> SoundRegistry(r.value)
  {
    if name !in db then Failure(UnknownParameter(name))
    else match db[name]
      case IntEntry(p) =>
        (match IP.SetValue(p, text)
         case Success(q) => Success(db[name := IntEntry(q)])
         case Failure(e) =>
           assert e != UnknownParameter(name);
           Failure(e))
      case OtherEntry(_) =>
        (match checkOther(name, text)
         case Some(e) => if e == UnknownParameter(name) then Failure(InvalidValue(name, text)) else Failure(e)
         case None => Success(db[name := OtherEntry(Some(text))]))
  }

  /** getIntParam: intValue of a registered integer parameter, storing the
      default when it was empty; a missing name is the "param not found"
      error. For a registered non-integer name the source's cast would
      throw instead; getIntParam is private and only ever called with
      integer names, so that path is not reached and the model reports it
      as "param not found" too. The value read from a sound registry lies
      within the parameter's declared range. */
  function ReadInt(db: Registry, name: string): (r: Result<(int, Registry), ParamError>)
    ensures r.Success? <==> name in db && db[name].IntEntry?
    ensures r.Success? ==> r.value.0 == IP.IntValue(db[name].p).0
    ensures r.Success? ==> r.value.1 == db[name := IntEntry(IP.IntValue(db[name].p).1)]
    ensures r.Success? && SoundRegistry(db) ==>
      db[name].p.min <= r.value.0 <= db[name].p.max && SoundRegistry(r.value.1)
  {
    if name in db && db[name].IntEntry? then
      var (v, q) := IP.IntValue(db[name].p);
      Success((v, db[name := IntEntry(q)]))
    else Failure(MissingParameter(name))
  }

  /** The registry knows "Levels" as an empty integer parameter with
      range 0..9 and default 3. */
  lemma LevelsRegistered()
    ensures "Levels" in InitialRegistry()
    ensures InitialRegistry()["Levels"] == IntEntry(IP.New("Levels", 0, 9, 3))
  {
    assert GeneralNames[2] == "Levels";
    assert FindInt(GeneralInts, "Levels") == Some((0, 9, 3)) by {
      assert GeneralInts[0].0 == "Shape" != "Levels";
      assert GeneralInts[1..][0] == ("Levels", 0, 9, 3);
    }
  }

  /** Setting Levels to 10 is rejected as above its maximum 9. */
  lemma SetLevelsTooHigh(checkOther: (string, string) -> Option<ParamError>)
    ensures SetParam(InitialRegistry(), "Levels", "10", checkOther) == Failure(AboveMaximum("Levels", 9))
  {
    LevelsRegistered();
    var db := InitialRegistry();
    var p := IP.New("Levels", 0, 9, 3);
    assert ParseInt("10") == Some(10) by { IntToStringRoundTrip(10); assert IntToString(10) == "10"; }
    assert IP.SetValue(p, "10") == Failure(AboveMaximum("Levels", 9));
    assert db["Levels"] == IntEntry(p);
  }

  /** Setting Levels to 2 is accepted and stores 2. */
  lemma SetLevelsInRange(checkOther: (string, string) -> Option<ParamError>)
    ensures var r := SetParam(InitialRegistry(), "Levels", "2", checkOther);
            r.Success? && r.value["Levels"].IntEntry? && r.value["Levels"].p.value == 2
  {
    LevelsRegistered();
    var db := InitialRegistry();
    var p := IP.New("Levels", 0, 9, 3);
    assert ParseInt("2") == Some(2) by { IntToStringRoundTrip(2); assert IntToString(2) == "2"; }
    assert IP.SetValue(p, "2") == Success(p.(value := 2));
    assert db["Levels"] == IntEntry(p);
  }

  /** A name that was never registered is rejected. */
  lemma SetUnknownRejected(checkOther: (string, string) -> Option<ParamError>)
    ensures SetParam(InitialRegistry(), "Seed", "13", checkOther) == Failure(UnknownParameter("Seed"))
  {
    assert "Seed" !in RegisteredNames() by {
      assert forall l, k :: (0 <= l <= 3 && 0 <= k < |LevelPatterns| && |LevelPatterns[k]| >= 1
                             ==> LevelName(l, LevelPatterns[k]) != "Seed") by {
        assert !IsDigit('S');
      }
      assert forall k :: 0 <= k < |GeneralNames| ==> GeneralNames[k] != "Seed";
    }
  }

  // ---------------------------------------------------------------------
  // Preparation

  /** The tree-wide parameter values prepare works on, as read from the
      registry, plus the settings prepare derives. */
  datatype TreeParams = TreeParams(
    ignoreVParams: bool, stopLevel: int, preview: bool,
    smooth: real, meshQuality: real, smoothMeshLevel: int,
    levels: int, ratio: real, ratioPower: real, shape: int, baseSize: real, flare: real,
    lobes: int, leaves: int, leafDistrib: int, leafQuality: real,
    scale: real, scaleV: real, trunkScale: real, attractionUp: real,
    pruneRatio: real, pruneWidth: real, envelope: EnvelopeShape,
    baseSplits: int, scaleTree: real,
    levelParams: seq<LevelParams>)

  /** The ignoreVParams zeroing of one level as the source writes it: the
      variations of curve, length, split angle and rotation become 0, and a
      positive down angle (not its variation) becomes 0. */
  function QuietLevelAsWritten(lp: LevelParams): (q: LevelParams)
    ensures q.nCurveV == 0.0 && q.nLengthV == 0.0 && q.nSplitAngleV == 0.0 && q.nRotateV == 0.0
    ensures q.nDownAngle <= 0.0 && (lp.nDownAngle <= 0.0 ==> q.nDownAngle == lp.nDownAngle)
    ensures q.(nCurveV := lp.nCurveV, nLengthV := lp.nLengthV, nSplitAngleV := lp.nSplitAngleV,
               nRotateV := lp.nRotateV, nDownAngle := lp.nDownAngle) == lp
  {
    lp.(nCurveV := 0.0, nLengthV := 0.0, nSplitAngleV := 0.0, nRotateV := 0.0,
        nDownAngle := if lp.nDownAngle > 0.0 then 0.0 else lp.nDownAngle)
  }

  /** The ignoreVParams zeroing of one level as intended: every random
      variation is removed, a negative down-angle variation (which selects a
      deterministic gradient, not a random draw) is kept, and the down angle
      itself is left alone. */
  function QuietLevel(lp: LevelParams): (q: LevelParams)
    ensures q.nCurveV == 0.0 && q.nLengthV == 0.0 && q.nSplitAngleV == 0.0 && q.nRotateV == 0.0
    ensures q.nDownAngleV <= 0.0 && (lp.nDownAngleV <= 0.0 ==> q.nDownAngleV == lp.nDownAngleV)
    ensures q.(nCurveV := lp.nCurveV, nLengthV := lp.nLengthV, nSplitAngleV := lp.nSplitAngleV,
               nRotateV := lp.nRotateV, nDownAngleV := lp.nDownAngleV) == lp
  {
    lp.(nCurveV := 0.0, nLengthV := 0.0, nSplitAngleV := 0.0, nRotateV := 0.0,
        nDownAngleV := if lp.nDownAngleV > 0.0 then 0.0 else lp.nDownAngleV)
  }

  /** Which of the two zeroings a preview applies. */
  datatype Quieting = AsWritten | Intended

  function Quiet(how: Quieting, lp: LevelParams): (q: LevelParams)
    ensures q.nSegSplits == lp.nSegSplits && q.nSplitAngle == lp.nSplitAngle
  {
    match how
    case AsWritten => QuietLevelAsWritten(lp)
    case Intended => QuietLevel(lp)
  }

  /** Some level below min(Levels, 4) would split (nSegSplits > 0) with a
      split angle of 0. */
  predicate MissingSplitAngle(table: seq<LevelParams>, levels: int)
    requires |table| == 4
  {
    exists l :: 0 <= l < 4 && l < levels && table[l].nSegSplits > 0.0 && table[l].nSplitAngle == 0.0
  }

  /** The first step of prepare, the ignoreVParams block: a preview drops
      ScaleV and quiets levels 1..3; otherwise nothing changes. The split
      settings the next step checks are not touched. */
  function Quieted(p: TreeParams, how: Quieting): (q: TreeParams)
    requires |p.levelParams| == 4
    ensures |q.levelParams| == 4 && q.levelParams[0] == p.levelParams[0]
    ensures p.ignoreVParams ==>
      q.scaleV == 0.0 && forall l :: 1 <= l < 4 ==> q.levelParams[l] == Quiet(how, p.levelParams[l])
    ensures !p.ignoreVParams ==> q == p
    ensures q == p.(scaleV := q.scaleV, levelParams := q.levelParams)
    ensures MissingSplitAngle(q.levelParams, q.levels) <==> MissingSplitAngle(p.levelParams, p.levels)
  {
    if p.ignoreVParams then
      var t := p.levelParams;
      var q := p.(scaleV := 0.0, levelParams := [t[0], Quiet(how, t[1]), Quiet(how, t[2]), Quiet(how, t[3])]);
      assert forall l :: 0 <= l < 4 ==>
        q.levelParams[l].nSegSplits == t[l].nSegSplits && q.levelParams[l].nSplitAngle == t[l].nSplitAngle;
      q
    else p
  }

  /** Mesh points per cross-section of levels 0..3 for a mesh quality and a
      lobe count. */
  function MeshPoints(lobes: int, meshQuality: real): seq<int> {
    var p0 := if lobes > 0 then
        MaxInt(IntCast(lobes as real * Pow2(IntCast(1.0 + 2.5 * meshQuality))),
               IntCast(4.0 * (1.0 + 2.0 * meshQuality)))
      else 4;
    [p0,
     MaxInt(3, IntCast(3.0 * (1.0 + 1.5 * meshQuality))),
     MaxInt(3, IntCast(2.0 * (1.0 + 1.5 * meshQuality))),
     MaxInt(3, IntCast(1.0 * (1.0 + 1.5 * meshQuality)))]
  }

  /** The smooth-mesh level: none (-1) up to Smooth 0.2, else the share
      Levels * Smooth of the levels, truncated. */
  function SmoothMeshLevel(levels: int, smooth: real): (r: int)
    ensures 0 <= levels ==> (r == -1 <==> smooth <= 0.2)
    ensures 0 <= levels && smooth <= 1.0 ==> r <= levels
  {
    if smooth <= 0.2 then -1
    else
      assert 0 <= levels ==> 0 <= IntCast(levels as real * smooth) by {
        if 0 <= levels {
          MulNonNegative(levels as real, smooth);
          IntCastAtLeast(levels as real * smooth, 0);
        }
      }
      assert 0 <= levels && smooth <= 1.0 ==> IntCast(levels as real * smooth) <= levels by {
        if 0 <= levels && smooth <= 1.0 {
          ShareCastAtMost(levels, smooth);
        }
      }
      IntCast(levels as real * smooth)
  }

  /** The truncated share n * f of n, for f in [0, 1], is at most n. */
  lemma ShareCastAtMost(n: int, f: real)
    requires 0 <= n && 0.0 <= f <= 1.0
    ensures IntCast(n as real * f) <= n
  {
    MulShare(n as real, f);
    IntCastAtMost(n as real * f, n);
  }

  /** The level table with the mesh points filled in: at least 3 on levels
      1..3, and on level 0 four, or more with lobes. */
  function WithMeshPoints(t: seq<LevelParams>, lobes: int, meshQuality: real): (r: seq<LevelParams>)
    requires |t| == 4
    ensures |r| == 4
    ensures forall l :: 1 <= l < 4 ==> r[l].meshPoints >= 3
    ensures lobes <= 0 ==> r[0].meshPoints == 4
    ensures lobes > 0 && meshQuality >= 0.0 ==> r[0].meshPoints >= 4
    ensures forall l :: 0 <= l < 4 ==> r[l] == t[l].(meshPoints := r[l].meshPoints)
  {
    var mesh := MeshPoints(lobes, meshQuality);
    [t[0].(meshPoints := mesh[0]), t[1].(meshPoints := mesh[1]),
     t[2].(meshPoints := mesh[2]), t[3].(meshPoints := mesh[3])]
  }

  /** The settings prepare derives once the split angles are valid: the
      smooth-mesh level, the mesh points, the stopLevel cut and the working
      tree scale Scale + uniform(-ScaleV, ScaleV). `rho` is the level-0
      stream's draw in [-1, 1] behind that uniform value. */
  function Derive(p: TreeParams, rho: real): (q: TreeParams)
    requires |p.levelParams| == 4
    ensures |q.levelParams| == 4
    ensures 0 <= p.levels ==> (q.smoothMeshLevel == -1 <==> p.smooth <= 0.2)
    ensures 0 <= p.levels && p.smooth <= 1.0 ==> q.smoothMeshLevel <= p.levels
    ensures q.levelParams == WithMeshPoints(p.levelParams, p.lobes, p.smooth)
    ensures 0 <= p.stopLevel <= p.levels ==> q.levels == p.stopLevel && q.leaves == 0
    ensures !(0 <= p.stopLevel <= p.levels) ==> q.levels == p.levels && q.leaves == p.leaves
    ensures q.scaleV == p.scaleV && q.ignoreVParams == p.ignoreVParams
    ensures p.scaleV == 0.0 ==> q.scaleTree == p.scale
    ensures p.scaleV != 0.0 ==> q.scaleTree - p.scale == p.scaleV * rho
    ensures q.meshQuality == p.smooth
    ensures q == p.(smoothMeshLevel := q.smoothMeshLevel, meshQuality := p.smooth, levelParams := q.levelParams,
                    levels := q.levels, leaves := q.leaves, scaleTree := q.scaleTree)
  {
    var stop := 0 <= p.stopLevel <= p.levels;
    p.(smoothMeshLevel := SmoothMeshLevel(p.levels, p.smooth),
       meshQuality := p.smooth,
       levelParams := WithMeshPoints(p.levelParams, p.lobes, p.smooth),
       levels := if stop then p.stopLevel else p.levels,
       leaves := if stop then 0 else p.leaves,
       scaleTree := p.scale + p.scaleV * rho)
  }

  /** prepare as the source runs it: the ignoreVParams block (with its
      down-angle zeroing as written), then the split-angle check, which
      throws leaving the parameters as the first step left them, then the
      derived settings. */
  function Prepare(p: TreeParams, rho: real): (r: Result<TreeParams, (ParamError, TreeParams)>)
    requires |p.levelParams| == 4
    ensures r.Failure? <==> MissingSplitAngle(p.levelParams, p.levels)
    ensures r.Failure? ==> r.error == (ZeroSplitAngle, Quieted(p, AsWritten))
    ensures r.Success? ==> r.value == Derive(Quieted(p, AsWritten), rho)
  {
    var q := Quieted(p, AsWritten);
    if MissingSplitAngle(q.levelParams, q.levels) then Failure((ZeroSplitAngle, q))
    else Success(Derive(q, rho))
  }

  /** prepare with the preview quieting as intended (see QuietLevel). */
  function PrepareIntended(p: TreeParams, rho: real): (r: Result<TreeParams, (ParamError, TreeParams)>)
    requires |p.levelParams| == 4
    ensures r.Failure? <==> MissingSplitAngle(p.levelParams, p.levels)
    ensures r.Failure? ==> r.error == (ZeroSplitAngle, Quieted(p, Intended))
    ensures r.Success? ==> r.value == Derive(Quieted(p, Intended), rho)
  {
    var q := Quieted(p, Intended);
    if MissingSplitAngle(q.levelParams, q.levels) then Failure((ZeroSplitAngle, q))
    else Success(Derive(q, rho))
  }

  /** The derived settings of a prepared tree: mesh points, and for a
      preview no scale variation at all. */
  lemma PreparedSettings(p: TreeParams, rho: real)
    requires |p.levelParams| == 4 && Prepare(p, rho).Success?
    ensures var q := Prepare(p, rho).value;
      && |q.levelParams| == 4
      && (forall l :: 1 <= l < 4 ==> q.levelParams[l].meshPoints >= 3)
      && (p.lobes <= 0 ==> q.levelParams[0].meshPoints == 4)
      && (p.lobes > 0 && p.smooth >= 0.0 ==> q.levelParams[0].meshPoints >= 4)
      && (0 <= p.levels ==> (q.smoothMeshLevel == -1 <==> p.smooth <= 0.2))
      && (0 <= p.stopLevel <= p.levels ==> q.levels == p.stopLevel && q.leaves == 0)
      && (p.ignoreVParams ==> q.scaleV == 0.0 && q.scaleTree == p.scale)
  {
    var q0 := Quieted(p, AsWritten);
    assert q0.levels == p.levels && q0.lobes == p.lobes && q0.smooth == p.smooth;
    assert q0.stopLevel == p.stopLevel && q0.scale == p.scale && q0.leaves == p.leaves;
  }

  /** As written, a preview keeps the random down-angle variation and
      flattens the down angle: level 1 with 1DownAngle = 30 and
      1DownAngleV = 10 comes out of prepare at 0 +- 10 degrees. */
  lemma PreviewKeepsDownAngleVariation(p: TreeParams, rho: real)
    requires |p.levelParams| == 4 && p.ignoreVParams && !MissingSplitAngle(p.levelParams, p.levels)
    requires p.levelParams[1].nDownAngle == 30.0 && p.levelParams[1].nDownAngleV == 10.0
    ensures Prepare(p, rho).Success?
    ensures Prepare(p, rho).value.levelParams[1].nDownAngle == 0.0
    ensures Prepare(p, rho).value.levelParams[1].nDownAngleV == 10.0
  {
    var q0 := Quieted(p, AsWritten);
    assert q0.levelParams[1] == QuietLevelAsWritten(p.levelParams[1]);
  }

  /** As intended, a preview has no random variation left on levels 1..3
      (a negative down-angle variation is a deterministic gradient) and
      keeps every down angle: the same level comes out at exactly 30. */
  lemma PreviewIntendedIsDeterministic(p: TreeParams, rho: real)
    requires |p.levelParams| == 4 && p.ignoreVParams && PrepareIntended(p, rho).Success?
    ensures var q := PrepareIntended(p, rho).value;
      && q.scaleV == 0.0 && q.scaleTree == p.scale
      && forall l :: 1 <= l < 4 ==>
           && q.levelParams[l].nCurveV == 0.0 && q.levelParams[l].nLengthV == 0.0
           && q.levelParams[l].nSplitAngleV == 0.0 && q.levelParams[l].nRotateV == 0.0
           && q.levelParams[l].nDownAngleV <= 0.0
           && q.levelParams[l].nDownAngle == p.levelParams[l].nDownAngle
  {
    var q0 := Quieted(p, Intended);
    assert forall l :: 1 <= l < 4 ==> q0.levelParams[l] == QuietLevel(p.levelParams[l]);
  }

  /** With a draw in [-1, 1] the working scale lies within Scale +- ScaleV,
      and a preview (ignoreVParams) uses Scale exactly. */
  lemma ScaleTreeWithinVariation(p: TreeParams, rho: real)
    requires |p.levelParams| == 4 && Prepare(p, rho).Success?
    requires -1.0 <= rho <= 1.0 && p.scaleV >= 0.0
    ensures p.scale - p.scaleV <= Prepare(p, rho).value.scaleTree <= p.scale + p.scaleV
    ensures p.ignoreVParams ==> Prepare(p, rho).value.scaleTree == p.scale
  {
    var q0 := Quieted(p, AsWritten);
    var q := Prepare(p, rho).value;
    if !p.ignoreVParams && p.scaleV != 0.0 {
      assert q.scaleTree - p.scale == p.scaleV * rho;
      assert -p.scaleV <= p.scaleV * rho <= p.scaleV by {
        if rho >= 0.0 { assert p.scaleV * rho <= p.scaleV * 1.0; }
        else { assert p.scaleV * rho >= p.scaleV * -1.0; }
      }
    }
  }
}

=== FILE: pruning.dfy ===
/** Pruning and making a stem. A prune test grows the stem's segments (and
    clones) without substems or leaves and reports the first segment that
    leaves the pruning envelope, or -1; it is given here as the oracle
    `test`, from the stem's length and segment length to that result. The
    random stream and the split correction are restored before every test,
    so the same length always gives the same answer. */
module Pruning {
  import opened JavaNum
  import opened Numerics
  import opened RealArith
  import opened Geometry
  import opened Params
  import opened Stems
  import opened StemGeometry
  import StemTree

  /** The new length of one shrink step: the length up to the segment that
      left the envelope, but no less than half the current length, and at
      least one fifteenth of the original length shorter than now. */
  function ShrinkLength(length: real, segmentLength: real, segm: int, origlen: real): (r: real)
    ensures r <= length - origlen / 15.0
    ensures r == length - origlen / 15.0 || r >= length / 2.0
    ensures segm >= 0 && segmentLength >= 0.0 && r != length - origlen / 15.0 ==> r >= length / 2.0
  {
    MinReal(MaxReal(segmentLength * segm as real, length / 2.0), length - origlen / 15.0)
  }

  /** The termination measure of the shrink loop: how many steps of
      origlen / 15 still fit above the loop's threshold. */
  function ShrinkBudget(length: real, threshold: real, origlen: real): int {
    if origlen > 0.0 && length > threshold then ((length - threshold) / (origlen / 15.0)).Floor + 1 else 0
  }

  lemma ShrinkBudgetDrops(a: real, b: real, c: real, origlen: real)
    requires origlen > 0.0 && a > c && b <= a - origlen / 15.0
    ensures 0 <= ShrinkBudget(b, c, origlen) < ShrinkBudget(a, c, origlen)
  {
    var q := origlen / 15.0;
    var x := (a - c) / q;
    assert x > 0.0;
    if b > c {
      var z := x - 1.0;
      var w := a - c - q;
      DivMulCancel(a - c, q);
      assert z * q == w;
      MulDivCancel(z, q);
      var y := (b - c) / q;
      DivMonotone(b - c, w, q);
      assert y <= z;
      assert x.Floor as real <= x < x.Floor as real + 1.0;
      assert y.Floor as real <= y;
      assert y.Floor < x.Floor;
    }
  }

  /** The n segments of stem s together are exactly as long as the stem. */
  predicate SegmentsSpan(s: Stem, n: int) {
    n != 0 ==> s.segmentLength * n as real == s.length
  }

  lemma SpanKept(a: Stem, b: Stem, n: int)
    requires SegmentsSpan(a, n) && b.segmentLength == a.segmentLength && b.length == a.length
    ensures SegmentsSpan(b, n)
  {
  }

  /** A stem under test cut to length len: segments and clones cleared,
      segment length and base radius derived from len. */
  function Resize(num: Numerics, p: TreeParams, lp: LevelParams, radiusOf: real -> real, t: Stem, len: real): (r: Stem)
    ensures r.length == len && r.segmentLength == Div(num, len, lp.nCurveRes as real)
    ensures r.length == len && SegmentsSpan(r, lp.nCurveRes)
    ensures r.baseRadius == radiusOf(r.length)
    ensures r == t.(length := len, segmentLength := r.segmentLength, baseRadius := r.baseRadius,
                    segments := [], clones := [])
  {
    SpanningSegments(num, len, lp.nCurveRes);
    t.(segments := [], clones := [], length := len, segmentLength := Div(num, len, lp.nCurveRes as real),
       baseRadius := radiusOf(len))
  }

  /** n segments of length len / n span the length len. */
  lemma SpanningSegments(num: Numerics, len: real, n: int)
    ensures n != 0 ==> Div(num, len, n as real) * n as real == len
  {
    if n != 0 {
      var d := n as real;
      DivMulCancel(len, d);
    }
  }

  /** The pruning loop (StemImpl.pruning): while the last test found a
      segment outside the envelope and the stem is longer than a thousandth
      of the tree scale, shorten the stem, derive its segment length and
      base radius from the new length and, while the stem is not
      degenerate, test again. `t` is the stem under test and `segm` the
      last test's result. The result is the converged stem and the last
      test result. */
  function Shrink(num: Numerics, p: TreeParams, lp: LevelParams, radiusOf: real -> real,
                  test: (real, real) -> int, origlen: real, t: Stem, segm: int): (r: (Stem, int))
    requires origlen > 0.0 || t.length <= 0.001 * p.scaleTree
    ensures !(r.1 >= 0 && r.0.length > 0.001 * p.scaleTree)
    ensures !(segm >= 0 && t.length > 0.001 * p.scaleTree) ==> r == (t, segm)
    ensures segm >= 0 && t.length > 0.001 * p.scaleTree ==>
      && r.0.length <= t.length - origlen / 15.0
      && r.0.segmentLength == Div(num, r.0.length, lp.nCurveRes as real)
      && r.0.baseRadius == radiusOf(r.0.length)
      && r.0 == t.(length := r.0.length, segmentLength := r.0.segmentLength, baseRadius := r.0.baseRadius,
                   segments := [], clones := [])
      && (r.0.length > MinStemLen ==> r.1 == test(r.0.length, r.0.segmentLength))
    decreases ShrinkBudget(t.length, 0.001 * p.scaleTree, origlen)
  {
    if segm >= 0 && t.length > 0.001 * p.scaleTree then
      var len := ShrinkLength(t.length, t.segmentLength, segm, origlen);
      var t2 := Resize(num, p, lp, radiusOf, t, len);
      var segm' := if len > MinStemLen then test(len, t2.segmentLength) else segm;
      ShrinkBudgetDrops(t.length, len, 0.001 * p.scaleTree, origlen);
      Shrink(num, p, lp, radiusOf, test, origlen, t2, segm')
    else (t, segm)
  }

  /** The stem the pruning loop converges to, started from stem s with
      the prune flag set and its first test. */
  function Converged(num: Numerics, p: TreeParams, lp: LevelParams, radiusOf: real -> real,
                     test: (real, real) -> int, s: Stem): (c: Stem)
    requires s.length > 0.0 || s.length <= 0.001 * p.scaleTree
    ensures c.length <= s.length
    ensures c.length == s.length <==> test(s.length, s.segmentLength) < 0 || s.length <= 0.001 * p.scaleTree
    ensures c.length > MinStemLen && c.length > 0.001 * p.scaleTree ==> test(c.length, c.segmentLength) < 0
    ensures c == s.(length := c.length, segmentLength := c.segmentLength, baseRadius := c.baseRadius,
                    segments := c.segments, clones := c.clones, pruneTest := true)
  {
    var r := Shrink(num, p, lp, radiusOf, test, s.length, s.(pruneTest := true),
                    test(s.length, s.segmentLength));
    r.0
  }

  /** The loop itself, as the source runs it. */
  method ShrinkLoop(num: Numerics, p: TreeParams, lp: LevelParams, radiusOf: real -> real,
                    test: (real, real) -> int, s: Stem) returns (t: Stem, segm: int)
    requires s.length > 0.0 || s.length <= 0.001 * p.scaleTree
    ensures t == Converged(num, p, lp, radiusOf, test, s)
    ensures t.length > MinStemLen && t.length > 0.001 * p.scaleTree ==> segm < 0
  {
    var origlen := s.length;
    t := s.(pruneTest := true);
    segm := test(t.length, t.segmentLength);
    ghost var goal := Shrink(num, p, lp, radiusOf, test, origlen, t, segm);
    while segm >= 0 && t.length > 0.001 * p.scaleTree
      invariant origlen > 0.0 || t.length <= 0.001 * p.scaleTree
      invariant Shrink(num, p, lp, radiusOf, test, origlen, t, segm) == goal
      decreases ShrinkBudget(t.length, 0.001 * p.scaleTree, origlen)
    {
      var minlen := t.length / 2.0;
      var maxlen := t.length - origlen / 15.0;
      var len := MinReal(MaxReal(t.segmentLength * segm as real, minlen), maxlen);
      ShrinkStep(num, p, lp, radiusOf, test, origlen, t, segm, len);
      var t' := Resize(num, p, lp, radiusOf, t, len);
      var segm' := if len > MinStemLen then test(len, t'.segmentLength) else segm;
      t, segm := t', segm';
    }
  }

  /** One pass of the loop body: the new length is ShrinkLength, the stem
      is resized to it, the budget drops, and what remains of the loop
      runs from the resized stem. */
  lemma ShrinkStep(num: Numerics, p: TreeParams, lp: LevelParams, radiusOf: real -> real,
                   test: (real, real) -> int, origlen: real, t: Stem, segm: int, len: real)
    requires origlen > 0.0 && segm >= 0 && t.length > 0.001 * p.scaleTree
    requires len == MinReal(MaxReal(t.segmentLength * segm as real, t.length / 2.0), t.length - origlen / 15.0)
    ensures 0 <= ShrinkBudget(len, 0.001 * p.scaleTree, origlen) < ShrinkBudget(t.length, 0.001 * p.scaleTree, origlen)
    ensures var t' := Resize(num, p, lp, radiusOf, t, len);
            var segm' := if len > MinStemLen then test(len, t'.segmentLength) else segm;
            Shrink(num, p, lp, radiusOf, test, origlen, t, segm) == Shrink(num, p, lp, radiusOf, test, origlen, t', segm')
  {
    assert len == ShrinkLength(t.length, t.segmentLength, segm, origlen);
    ShrinkBudgetDrops(t.length, len, 0.001 * p.scaleTree, origlen);
  }

  /** The end of pruning as the source writes it: the length is moved back
      towards the original by 1 - PruneRatio of the cut, the split
      correction restored, segments and clones cleared and the prune flag
      dropped; the segment length and base radius stay those of the
      converged length. */
  function PruneAsWritten(num: Numerics, p: TreeParams, lp: LevelParams, radiusOf: real -> real,
                          test: (real, real) -> int, s: Stem): (r: Stem)
    requires s.length > 0.0 || s.length <= 0.001 * p.scaleTree
    ensures var c := Converged(num, p, lp, radiusOf, test, s);
            r.length == s.length - (s.length - c.length) * p.pruneRatio
            && r.segmentLength == c.segmentLength && r.baseRadius == c.baseRadius
    ensures r.length == Blend(s.length, Converged(num, p, lp, radiusOf, test, s).length, p.pruneRatio)
    ensures r.segments == [] && r.clones == [] && !r.pruneTest && r.splitCorrection == s.splitCorrection
    ensures r == s.(length := r.length, segmentLength := r.segmentLength, baseRadius := r.baseRadius,
                    segments := [], clones := [], pruneTest := false)
  {
    var c := Converged(num, p, lp, radiusOf, test, s);
    c.(length := s.length - (s.length - c.length) * p.pruneRatio, splitCorrection := s.splitCorrection,
       segments := [], clones := [], pruneTest := false)
  }

  /** With PruneRatio = 0.5 a stem of length 1 in one segment whose first
      test fails and whose half-length test passes ends up 0.75 long, but
      its segment stays 0.5 long: the stem drawn is shorter than its
      length, and its base radius is the one of the shorter stem. */
  lemma PruneAsWrittenKeepsShortSegment(num: Numerics, p: TreeParams, lp: LevelParams, radiusOf: real -> real,
                                        test: (real, real) -> int, s: Stem)
    requires lp.nCurveRes == 1 && p.scaleTree == 1.0 && p.pruneRatio == 0.5
    requires s.length == 1.0 && s.segmentLength == 1.0
    requires test(1.0, 1.0) == 0 && test(0.5, 0.5) == -1
    ensures PruneAsWritten(num, p, lp, radiusOf, test, s).length == 0.75
    ensures PruneAsWritten(num, p, lp, radiusOf, test, s).segmentLength == 0.5
  {
    var t := s.(pruneTest := true);
    var len := ShrinkLength(1.0, 1.0, 0, 1.0);
    assert len == 0.5;
    var t2 := Resize(num, p, lp, radiusOf, t, len);
    assert Shrink(num, p, lp, radiusOf, test, 1.0, t, 0)
        == Shrink(num, p, lp, radiusOf, test, 1.0, t2, -1);
  }

  /** The final blend of pruning: the cut from the original length to the
      converged one is applied to the extent PruneRatio says. */
  function Blend(origlen: real, converged: real, pruneRatio: real): (r: real)
    ensures 0.0 <= pruneRatio <= 1.0 && converged <= origlen ==> converged <= r <= origlen
    ensures pruneRatio == 0.0 ==> r == origlen
    ensures pruneRatio == 1.0 ==> r == converged
  {
    var cut := origlen - converged;
    assert 0.0 <= pruneRatio <= 1.0 && converged <= origlen ==> 0.0 <= cut * pruneRatio <= cut by {
      if 0.0 <= pruneRatio <= 1.0 && converged <= origlen {
        MulMonotone(pruneRatio, 1.0, cut);
        assert pruneRatio * cut == cut * pruneRatio;
        MulNonNegative(cut, pruneRatio);
      }
    }
    origlen - cut * pruneRatio
  }

  /** pruning with the derived values brought in line with the final
      length: the blended length, and the segment length and base radius
      that belong to it. */
  function Prune(num: Numerics, p: TreeParams, lp: LevelParams, radiusOf: real -> real,
                 test: (real, real) -> int, s: Stem): (r: Stem)
    requires s.length > 0.0 || s.length <= 0.001 * p.scaleTree
    ensures r.length == Blend(s.length, Converged(num, p, lp, radiusOf, test, s).length, p.pruneRatio)
    ensures SegmentsSpan(r, lp.nCurveRes)
    ensures r.baseRadius == radiusOf(r.length)
    ensures r.segments == [] && r.clones == [] && !r.pruneTest && r.splitCorrection == s.splitCorrection
    ensures r == s.(length := r.length, segmentLength := r.segmentLength, baseRadius := r.baseRadius,
                    segments := [], clones := [], pruneTest := false)
  {
    var c := Converged(num, p, lp, radiusOf, test, s);
    var len := Blend(s.length, c.length, p.pruneRatio);
    Resize(num, p, lp, radiusOf, s.(pruneTest := false), len)
  }

  /** A stem whose full length passes the prune test keeps that length. */
  lemma PruneKeepsFittingStem(num: Numerics, p: TreeParams, lp: LevelParams, radiusOf: real -> real,
                              test: (real, real) -> int, s: Stem)
    requires s.length > 0.0 && test(s.length, s.segmentLength) < 0
    ensures Prune(num, p, lp, radiusOf, test, s).length == s.length
  {
  }

  /** The trunk's base width max(baseRadius, stemRadius(0)) and the box
      widened by the point (width, width, 0) at its base. */
  function TrunkBaseWidth(num: Numerics, p: TreeParams, lp: LevelParams, length: real, baseRadius: real): (w: real)
    ensures w >= baseRadius && w >= StemRadius(num, p, lp, 0, length, baseRadius, 0.0)
  {
    MaxReal(baseRadius, StemRadius(num, p, lp, 0, length, baseRadius, 0.0))
  }

  /** The first part of make: the stem gets nCurveRes segments, its
      length len, the segment length that spans it and its base radius; a
      trunk widens its box by its base width, and since a trunk has no
      parent, minMaxTest passes the point on to the tree's box as well.
      make runs on the trunk and on substems, never on a clone, so there is
      no stem a trunk was cloned from whose box would grow too. */
  function Measure(num: Numerics, p: TreeParams, lp: LevelParams, radiusOf: real -> real, s: Stem, len: real,
                   tree: Box)
    : (r: (Stem, Box))
    ensures r.0.segmentCount == lp.nCurveRes && r.0.length == len
    ensures SegmentsSpan(r.0, lp.nCurveRes)
    ensures r.0.baseRadius == radiusOf(len)
    ensures s.level == 0 ==>
      var w := TrunkBaseWidth(num, p, lp, len, r.0.baseRadius);
      && Contains(r.0.box, Vec3(w, w, 0.0)) && Includes(r.0.box, s.box)
      && Contains(r.1, Vec3(w, w, 0.0)) && Includes(r.1, tree)
    ensures s.level != 0 ==> r.0.box == s.box && r.1 == tree
    ensures r.0 == s.(segmentCount := r.0.segmentCount, length := r.0.length, segmentLength := r.0.segmentLength,
                      baseRadius := r.0.baseRadius, box := r.0.box)
  {
    SpanningSegments(num, len, lp.nCurveRes);
    var radius := radiusOf(len);
    var t := s.(segmentCount := lp.nCurveRes, length := len, segmentLength := Div(num, len, lp.nCurveRes as real),
                baseRadius := radius);
    if s.level == 0 then
      var w := TrunkBaseWidth(num, p, lp, len, radius);
      (t.(box := Widen(t.box, Vec3(w, w, 0.0))), Widen(tree, Vec3(w, w, 0.0)))
    else (t, tree)
  }

  /** Measure's box step on a trunk is minMaxTest at its base width: in
      an arena the trunk has no parent and was cloned from no stem, so
      minMaxTest widens the trunk's own box and the tree's box and nothing
      else, exactly as Measure does. */
  lemma TrunkMeasureIsMinMaxTest(num: Numerics, p: TreeParams, lp: LevelParams, radiusOf: real -> real,
                                 arena: seq<Stem>, i: nat, len: real, tree: Box)
    requires Linked(arena) && i < |arena| && arena[i].level == 0 && arena[i].clonedFrom.None?
    ensures var m := Measure(num, p, lp, radiusOf, arena[i], len, tree);
            var w := TrunkBaseWidth(num, p, lp, len, radiusOf(len));
            var mm := StemTree.MinMaxTest(arena, tree, i, Vec3(w, w, 0.0));
            mm.1 == m.1 && mm.0 == arena[i := arena[i].(box := m.0.box)]
  {
    var m := Measure(num, p, lp, radiusOf, arena[i], len, tree);
    var w := TrunkBaseWidth(num, p, lp, len, radiusOf(len));
    var pt := Vec3(w, w, 0.0);
    var mm := StemTree.MinMaxTest(arena, tree, i, pt);
    assert LinksBack(arena, i);
    assert StemTree.WidenedFrom(arena, mm.0, i, pt);
    forall j | 0 <= j < |arena|
      ensures mm.0[j] == arena[i := arena[i].(box := m.0.box)][j]
    {
      assert StemTree.Reaches(arena, i, j) <==> j == i;
    }
  }

  /** The base radius stem s gets at a given length (stemBaseRadius). */
  function BaseRadiusOf(num: Numerics, p: TreeParams, parent: Stem, parentLp: LevelParams, s: Stem): real -> real {
    (len: real) => StemBaseRadius(num, p, s.level, len, s.offset, parent, parentLp)
  }

  /** The end of make: the stem is created (true) exactly when it is
      longer than MinStemLen and thicker than MinStemRadius, and only then
      are its substem parameters prepared. */
  function Admit(num: Numerics, p: TreeParams, lp1: LevelParams, parent: Stem, t: Stem, childDraw: real)
    : (r: (bool, Stem))
    requires -1.0 <= childDraw <= 1.0 && IsInt32(p.leaves)
    ensures r.0 <==> t.length > MinStemLen && t.baseRadius > MinStemRadius
    ensures r.1.length == t.length && r.1.segmentLength == t.segmentLength && r.1.baseRadius == t.baseRadius
    ensures r.1.segmentCount == t.segmentCount && r.1.level == t.level && r.1.offset == t.offset
    ensures r.1.box == t.box
    ensures r.0 ==> r.1.substemRotangle == 0.0
    ensures !r.0 ==> r.1 == t
  {
    if t.length > MinStemLen && t.baseRadius > MinStemRadius then
      (true, PrepareSubstemParams(num, p, lp1, t, parent, childDraw))
    else (false, t)
  }

  /** make, up to the making of segments, as the source writes it: measure
      the stem (a trunk widening its own and the tree's box) and, above the
      trunk when PruneRatio is positive, prune it with PruneAsWritten. A
      pruned stem thus keeps the segment length and base radius of the
      converged (shorter) stem, and the creation test reads that base
      radius. The result is the creation verdict, the stem and the tree's
      box. */
  function Make(num: Numerics, p: TreeParams, lp: LevelParams, lp1: LevelParams, parent: Stem,
                parentLp: LevelParams, test: (real, real) -> int, s: Stem, draw: real, childDraw: real, tree: Box)
    : (r: (bool, Stem, Box))
    requires -1.0 <= draw <= 1.0 && -1.0 <= childDraw <= 1.0 && IsInt32(p.leaves)
    requires var len := StemLength(num, p, lp, s, parent, draw);
             len > 0.0 || len <= 0.001 * p.scaleTree
    ensures r.0 <==> r.1.length > MinStemLen && r.1.baseRadius > MinStemRadius
    ensures r.1.segmentCount == lp.nCurveRes && r.1.level == s.level && r.1.offset == s.offset
    ensures var m := Measure(num, p, lp, BaseRadiusOf(num, p, parent, parentLp, s), s,
                             StemLength(num, p, lp, s, parent, draw), tree);
            r.1.box == m.0.box && r.2 == m.1
    ensures s.level == 0 || p.pruneRatio <= 0.0 ==>
      && r.1.length == StemLength(num, p, lp, s, parent, draw) && SegmentsSpan(r.1, lp.nCurveRes)
      && r.1.baseRadius == BaseRadiusOf(num, p, parent, parentLp, s)(r.1.length)
    ensures s.level > 0 && p.pruneRatio > 0.0 ==>
      var c := Converged(num, p, lp, BaseRadiusOf(num, p, parent, parentLp, s), test,
                         Measure(num, p, lp, BaseRadiusOf(num, p, parent, parentLp, s), s,
                                 StemLength(num, p, lp, s, parent, draw), tree).0);
      && r.1.length == Blend(StemLength(num, p, lp, s, parent, draw), c.length, p.pruneRatio)
      && r.1.segmentLength == c.segmentLength && r.1.baseRadius == c.baseRadius
    ensures r.0 ==> r.1.substemRotangle == 0.0
  {
    var radiusOf := BaseRadiusOf(num, p, parent, parentLp, s);
    var m := Measure(num, p, lp, radiusOf, s, StemLength(num, p, lp, s, parent, draw), tree);
    if s.level > 0 && p.pruneRatio > 0.0 then
      var r := AdmitPrunedAsWritten(num, p, lp, lp1, parent, radiusOf, test, m.0, childDraw);
      (r.0, r.1, m.1)
    else
      var r := Admit(num, p, lp1, parent, m.0, childDraw);
      SpanKept(m.0, r.1, lp.nCurveRes);
      (r.0, r.1, m.1)
  }

  /** The pruned branch of make as written: prune the measured stem m with
      PruneAsWritten, then decide on its creation. */
  function AdmitPrunedAsWritten(num: Numerics, p: TreeParams, lp: LevelParams, lp1: LevelParams, parent: Stem,
                                radiusOf: real -> real, test: (real, real) -> int, m: Stem, childDraw: real)
    : (r: (bool, Stem))
    requires -1.0 <= childDraw <= 1.0 && IsInt32(p.leaves)
    requires m.length > 0.0 || m.length <= 0.001 * p.scaleTree
    ensures r.0 <==> r.1.length > MinStemLen && r.1.baseRadius > MinStemRadius
    ensures r.1.segmentCount == m.segmentCount && r.1.level == m.level && r.1.offset == m.offset
    ensures r.1.box == m.box
    ensures var c := Converged(num, p, lp, radiusOf, test, m);
            && r.1.length == Blend(m.length, c.length, p.pruneRatio)
            && r.1.segmentLength == c.segmentLength && r.1.baseRadius == c.baseRadius
    ensures r.0 ==> r.1.substemRotangle == 0.0
  {
    Admit(num, p, lp1, parent, PruneAsWritten(num, p, lp, radiusOf, test, m), childDraw)
  }

  /** make with the corrected pruning: every created stem's segments span
      it and its base radius is the one of its final length. */
  function MakeIntended(num: Numerics, p: TreeParams, lp: LevelParams, lp1: LevelParams, parent: Stem,
                        parentLp: LevelParams, test: (real, real) -> int, s: Stem, draw: real, childDraw: real,
                        tree: Box)
    : (r: (bool, Stem, Box))
    requires -1.0 <= draw <= 1.0 && -1.0 <= childDraw <= 1.0 && IsInt32(p.leaves)
    requires var len := StemLength(num, p, lp, s, parent, draw);
             len > 0.0 || len <= 0.001 * p.scaleTree
    ensures r.0 <==> r.1.length > MinStemLen && r.1.baseRadius > MinStemRadius
    ensures r.1.segmentCount == lp.nCurveRes && r.1.level == s.level && r.1.offset == s.offset
    ensures s.level == 0 || p.pruneRatio <= 0.0 ==> r.1.length == StemLength(num, p, lp, s, parent, draw)
    ensures var radiusOf := BaseRadiusOf(num, p, parent, parentLp, s);
            var len := StemLength(num, p, lp, s, parent, draw);
            s.level > 0 && p.pruneRatio > 0.0 ==>
              r.1.length == Blend(len, Converged(num, p, lp, radiusOf, test, Measure(num, p, lp, radiusOf, s, len, tree).0).length,
                                  p.pruneRatio)
    ensures SegmentsSpan(r.1, lp.nCurveRes)
    ensures r.1.baseRadius == BaseRadiusOf(num, p, parent, parentLp, s)(r.1.length)
    ensures var m := Measure(num, p, lp, BaseRadiusOf(num, p, parent, parentLp, s), s,
                             StemLength(num, p, lp, s, parent, draw), tree);
            r.1.box == m.0.box && r.2 == m.1
    ensures r.0 ==> r.1.substemRotangle == 0.0
  {
    var radiusOf := BaseRadiusOf(num, p, parent, parentLp, s);
    var m := Measure(num, p, lp, radiusOf, s, StemLength(num, p, lp, s, parent, draw), tree);
    var t := if s.level > 0 && p.pruneRatio > 0.0 then Prune(num, p, lp, radiusOf, test, m.0) else m.0;
    var r := Admit(num, p, lp1, parent, t, childDraw);
    SpanKept(t, r.1, lp.nCurveRes);
    (r.0, r.1, m.1)
  }

  /** Where nothing is pruned (the trunk, or PruneRatio <= 0) the two
      makes agree. */
  lemma MakesAgreeWithoutPruning(num: Numerics, p: TreeParams, lp: LevelParams, lp1: LevelParams, parent: Stem,
                                 parentLp: LevelParams, test: (real, real) -> int, s: Stem, draw: real, childDraw: real,
                                 tree: Box)
    requires -1.0 <= draw <= 1.0 && -1.0 <= childDraw <= 1.0 && IsInt32(p.leaves)
    requires var len := StemLength(num, p, lp, s, parent, draw);
             len > 0.0 || len <= 0.001 * p.scaleTree
    requires s.level == 0 || p.pruneRatio <= 0.0
    ensures Make(num, p, lp, lp1, parent, parentLp, test, s, draw, childDraw, tree)
         == MakeIntended(num, p, lp, lp1, parent, parentLp, test, s, draw, childDraw, tree)
  {
  }
}

=== FILE: real_arith.dfy ===
/** Small facts about products and quotients of reals that the solver does
    not find on its own inside larger proofs. */
module RealArith {

  lemma MulNonNegative(a: real, b: real)
    requires a >= 0.0 && b >= 0.0
    ensures a * b >= 0.0
  {
  }

  lemma MulMonotone(a: real, b: real, c: real)
    requires a <= b && c >= 0.0
    ensures a * c <= b * c
  {
    MulNonNegative(b - a, c);
    assert (b - a) * c == b * c - a * c;
  }

  /** A value scaled by a factor in [-1, 1] stays within its magnitude. */
  lemma MulUnitFactor(v: real, d: real)
    requires v >= 0.0 && -1.0 <= d <= 1.0
    ensures -v <= v * d <= v
  {
    MulMonotone(d, 1.0, v);
    MulMonotone(-1.0, d, v);
  }

  /** A non-negative value scaled by a factor in [0, 1] stays between 0
      and the value. */
  lemma MulShare(v: real, f: real)
    requires v >= 0.0 && 0.0 <= f <= 1.0
    ensures 0.0 <= v * f <= v
  {
    MulUnitFactor(v, f);
    MulNonNegative(v, f);
  }

  lemma RatioInUnit(a: real, b: real)
    requires 0.0 <= a <= b && b > 0.0
    ensures 0.0 <= a / b <= 1.0
  {
  }

  lemma DivMonotone(a: real, b: real, c: real)
    requires a <= b && c > 0.0
    ensures a / c <= b / c
  {
    MulMonotone(a, b, 1.0 / c);
  }

  lemma MulStrictMonotone(a: real, b: real, c: real)
    requires a < b && c > 0.0
    ensures a * c < b * c
  {
    assert (b - a) * c > 0.0;
    assert (b - a) * c == b * c - a * c;
  }

  lemma DivMulCancel(a: real, b: real)
    requires b != 0.0
    ensures a / b * b == a
  {
  }

  lemma MulDivCancel(a: real, b: real)
    requires b != 0.0
    ensures a * b / b == a
  {
  }

  /** A product with a sum, split: with s = b + c, a s = a b + a c. */
  lemma MulSplit(a: real, s: real, b: real, c: real)
    requires s == b + c
    ensures a * s == a * b + a * c
  {
  }

  /** Equal factors give equal products (the solver does not always carry
      an equality into a product on its own). */
  lemma MulCongruent(a: real, x: real, y: real)
    requires x == y
    ensures a * x == a * y
  {
  }

  lemma MulAssoc(a: real, b: real, c: real, bc: real)
    requires bc == b * c
    ensures a * bc == a * b * c
  {
  }

  lemma MulSucc(k: int, f: real)
    ensures (k + 1) as real * f == k as real * f + f
  {
  }
}

=== FILE: splitting.dfy ===
/** makeClones and split: at the end of a segment a stem may split into
    itself and a number of clones, each turned away from the common
    direction, with the substem propensity shared among them and a split
    correction that lets the stem curve back over its remaining segments. */
module Splitting {
  import opened Wrappers
  import opened JavaNum
  import opened Numerics
  import opened RealArith
  import opened Accumulator
  import opened Geometry
  import opened Params
  import opened Stems
  import opened StemGeometry
  import opened Substems

  /** The trunk's first segment splits by the BaseSplits parameter instead
      of nSegSplits. */
  predicate BaseSplit(p: TreeParams, level: int, nseg: int) {
    level == 0 && nseg == 0 && p.baseSplits > 0
  }

  /** How many clones makeClones makes at segment nseg, and the level's
      split error afterwards. BaseSplits applies unchanged and leaves the
      error alone; otherwise nSegSplits is rounded against the error, which
      keeps the count and the error adding up to what came in. */
  function SplitCount(p: TreeParams, lp: LevelParams, level: int, nseg: int, err: real): (r: (int, real))
    requires IsInt32(p.baseSplits)
    ensures IsInt32(r.0)
    ensures BaseSplit(p, level, nseg) ==> r.0 == p.baseSplits && r.1 == err
    ensures !BaseSplit(p, level, nseg) ==> r.0 as real + r.1 == err + lp.nSegSplits
    ensures !BaseSplit(p, level, nseg) && 0.0 <= lp.nSegSplits <= IntMax as real && -0.5 <= err < 0.5 ==>
      -0.5 <= r.1 < 0.5 && r.0 >= 0
  {
    if BaseSplit(p, level, nseg) then (p.baseSplits, err) else Step(lp.nSegSplits, err)
  }

  /** The angle between neighbouring clones around the stem: the int
      division 360 / (n + 1) of the source. */
  function CloneAngle(n: int): (a: int)
    requires IsInt32(n) && n >= 1
  {
    Quot(360, Wrap(n + 1))
  }

  /** With n clones the n + 1 stems are spread around at most one turn:
      clone i (counted from 0) turns by (i + 1) times the clone angle, which
      stays below 360 degrees, and the clones turn by different angles as
      long as there are fewer than 360 of them. */
  lemma CloneAnglesWithinTurn(n: int, i: int)
    requires 1 <= n < IntMax && 0 <= i < n
    ensures 0 <= CloneAngle(n) * (i + 1) < 360
    ensures n < 360 ==> CloneAngle(n) > 0 && CloneAngle(n) * i < CloneAngle(n) * (i + 1)
  {
    assert CloneAngle(n) == 360 / (n + 1) by {
      assert Wrap(n + 1) == n + 1;
      QuotRemNonNegative(360, n + 1);
    }
    ShareOfTurn(360 / (n + 1), 360 % (n + 1), n, i);
  }

  /** 360 = a (n + 1) + r with 0 <= r <= n: a whole multiple of up to n
      shares stays below 360, and a share is positive when n + 1 <= 360. */
  lemma ShareOfTurn(a: int, r: int, n: int, i: int)
    requires 360 == a * (n + 1) + r && 0 <= r < n + 1 && 0 <= i < n
    ensures 0 <= a * (i + 1) < 360
    ensures n < 360 ==> a > 0 && a * i < a * (i + 1)
  {
    assert a >= 0 by {
      if a < 0 {
        IntMulMonotone(-a, 1, n + 1);
      }
    }
    MulSuccInt(a, n);
    MulSuccInt(a, i);
    IntMulMonotone(a, i + 1, n);
    IntMulMonotone(a, 0, i + 1);
  }

  lemma MulSuccInt(a: int, k: int)
    ensures a * (k + 1) == a * k + a
  {
  }

  lemma IntMulMonotone(a: int, x: int, y: int)
    requires a >= 0 && x <= y
    ensures a * x <= a * y
  {
    assert a * y - a * x == a * (y - x);
  }

  /** The declination of a direction from the vertical, in degrees, given
      the z component of its z axis. */
  function Declination(num: Numerics, zz: real): real {
    num.acos(zz) * 180.0 / Pi
  }

  /** The split angle: nSplitAngle varied and less the declination, never
      negative. */
  function SplitAngle(num: Numerics, lp: LevelParams, zz: real, draw: real): (a: real)
    requires -1.0 <= draw <= 1.0
    ensures a >= 0.0 && a >= lp.nSplitAngle + Var(lp.nSplitAngleV, draw) - Declination(num, zz)
    ensures a == 0.0 || a == lp.nSplitAngle + Var(lp.nSplitAngleV, draw) - Declination(num, zz)
  {
    MaxReal(0.0, lp.nSplitAngle + Var(lp.nSplitAngleV, draw) - Declination(num, zz))
  }

  /** How far a clone turns about the vertical. For base splits it is its
      share of the turn, varied by nSplitAngleV; otherwise at least 20
      degrees to a side picked by a draw (whenever pow yields no negative
      square). */
  function Diverge(num: Numerics, p: TreeParams, lp: LevelParams, level: int, nseg: int, zz: real,
                   sAngle: real, d1: real, d2: real): (d: real)
    requires -1.0 <= d1 <= 1.0 && -1.0 <= d2 <= 1.0
    ensures BaseSplit(p, level, nseg) ==>
      sAngle - AbsReal(lp.nSplitAngleV) <= d <= sAngle + AbsReal(lp.nSplitAngleV)
    ensures !BaseSplit(p, level, nseg) && num.pow((Var(1.0, d1) + 1.0) / 2.0, 2.0) >= 0.0 ==>
      (d2 >= 0.0 ==> d <= -20.0) && (d2 < 0.0 ==> d >= 20.0)
  {
    if BaseSplit(p, level, nseg) then
      sAngle + Var(lp.nSplitAngleV, d1)
    else
      var sq := num.pow((Var(1.0, d1) + 1.0) / 2.0, 2.0);
      var spread := 0.75 * (30.0 + AbsReal(Declination(num, zz) - 90.0));
      var mag := 20.0 + spread * sq;
      assert sq >= 0.0 ==> mag >= 20.0 by {
        if sq >= 0.0 {
          MulNonNegative(spread, sq);
        }
      }
      if Var(1.0, d2) >= 0.0 then -mag else mag
  }

  /** split: stem s turns by the split angle about x and, for a clone
      (sAngle > 0), by its divergence about the vertical. The split angle,
      shared among the remaining segments, is taken off the stem's split
      correction, and outside a prune test the substem propensity is shared
      among the nsplits + 1 stems. Nothing else of the stem changes. */
  function Split(num: Numerics, p: TreeParams, lp: LevelParams, s: Stem, trf: Transform, zz: real,
                 sAngle: real, nseg: int, nsplits: int, d0: real, d1: real, d2: real): (r: (Stem, Transform))
    requires -1.0 <= d0 <= 1.0 && -1.0 <= d1 <= 1.0 && -1.0 <= d2 <= 1.0
    requires IsInt32(nsplits)
    ensures r.0 == s.(splitCorrection := r.0.splitCorrection, substemsPerSegment := r.0.substemsPerSegment)
    ensures r.0.splitCorrection ==
      s.splitCorrection - Div(num, SplitAngle(num, lp, zz, d0), (s.segmentCount - nseg - 1) as real)
    ensures s.pruneTest ==> r.0.substemsPerSegment == s.substemsPerSegment
    ensures !s.pruneTest ==> r.0.substemsPerSegment == Div(num, s.substemsPerSegment, Wrap(nsplits + 1) as real)
    ensures sAngle > 0.0 ==>
      (r.1.RotAxis? && r.1.axis == ZAxis && r.1.t == RotX(trf, SplitAngle(num, lp, zz, d0))
       && r.1.angle == Diverge(num, p, lp, s.level, nseg, zz, sAngle, d1, d2))
    ensures sAngle <= 0.0 ==> r.1 == RotX(trf, SplitAngle(num, lp, zz, d0))
  {
    var remaining := s.segmentCount - nseg - 1;
    var angle := SplitAngle(num, lp, zz, d0);
    var turned := RotX(trf, angle);
    var corrected := s.(splitCorrection := s.splitCorrection - Div(num, angle, remaining as real));
    var trf' := if sAngle > 0.0 then RotAxis(turned, Diverge(num, p, lp, s.level, nseg, zz, sAngle, d1, d2), ZAxis)
                else turned;
    var shared := if s.pruneTest then corrected
                  else corrected.(substemsPerSegment := Div(num, s.substemsPerSegment, Wrap(nsplits + 1) as real));
    (shared, trf')
  }

  /** Split at a segment below the last, the correction taken off the stem
      adds up over its remaining segments to exactly the split angle: the
      stem curves back by as much as it turned. */
  lemma SplitCorrectionUndoesSplit(num: Numerics, p: TreeParams, lp: LevelParams, s: Stem, trf: Transform, zz: real,
                                   sAngle: real, nseg: int, nsplits: int, d0: real, d1: real, d2: real)
    requires -1.0 <= d0 <= 1.0 && -1.0 <= d1 <= 1.0 && -1.0 <= d2 <= 1.0
    requires IsInt32(nsplits) && nseg < s.segmentCount - 1
    ensures var r := Split(num, p, lp, s, trf, zz, sAngle, nseg, nsplits, d0, d1, d2);
            (s.segmentCount - nseg - 1) as real * (s.splitCorrection - r.0.splitCorrection)
              == SplitAngle(num, lp, zz, d0)
  {
    var remaining := (s.segmentCount - nseg - 1) as real;
    var angle := SplitAngle(num, lp, zz, d0);
    DivMulCancel(angle, remaining);
  }

  /** Outside a prune test the nsplits + 1 stems of a split each keep an
      equal share of the substem propensity, and the shares add up to the
      stem's propensity before the split. */
  lemma SplitSharesPropensity(num: Numerics, p: TreeParams, lp: LevelParams, s: Stem, trf: Transform, zz: real,
                              sAngle: real, nseg: int, nsplits: int, d0: real, d1: real, d2: real)
    requires -1.0 <= d0 <= 1.0 && -1.0 <= d1 <= 1.0 && -1.0 <= d2 <= 1.0
    requires 0 <= nsplits < IntMax && !s.pruneTest
    ensures var r := Split(num, p, lp, s, trf, zz, sAngle, nseg, nsplits, d0, d1, d2);
            (nsplits + 1) as real * r.0.substemsPerSegment == s.substemsPerSegment
  {
    assert Wrap(nsplits + 1) == nsplits + 1;
    MulDivCancel(s.substemsPerSegment, (nsplits + 1) as real);
  }

  /** Clone i of stem o at a split into n: a copy of o (see Clone) split by
      (i + 1) clone angles and sent off in the split direction. It draws
      the three variations 3i, 3i + 1 and 3i + 2. */
  function NthClone(num: Numerics, p: TreeParams, lp: LevelParams, arena: seq<Stem>, o: nat, trf: Transform,
                    zz: real, nseg: int, n: int, i: nat, draw: int -> real): (c: Stem)
    requires o < |arena| && IsInt32(n) && n >= 1 && Draws(draw)
    ensures c.clonedFrom == Some(o) && c.parent == arena[o].parent && c.level == arena[o].level
    ensures c.cloneIndex == arena[o].cloneIndex + [|arena[o].clones|]
    ensures c.substems == [] && c.clones == []
    ensures !arena[o].pruneTest ==> c.substemsPerSegment == Div(num, arena[o].substemsPerSegment, Wrap(n + 1) as real)
    ensures c.splitCorrection == arena[o].splitCorrection
      - Div(num, SplitAngle(num, lp, zz, draw(3 * i)), (arena[o].segmentCount - nseg - 1) as real)
  {
    var sAngle := (CloneAngle(n) * (i + 1)) as real;
    var split := Split(num, p, lp, Clone(arena, o, trf), trf, zz, sAngle, nseg, n,
                       draw(3 * i), draw(3 * i + 1), draw(3 * i + 2));
    split.0.(transf := split.1)
  }

  /** The arena indices from `from` on, `count` of them, in order. */
  function Indices(from: nat, count: nat): (r: seq<nat>)
    ensures |r| == count && forall k :: 0 <= k < count ==> r[k] == from + k
  {
    seq(count, k requires 0 <= k < count => from + k)
  }

  /** Clone k of a split of stem s (which had `before` clones), and its
      share of the substem propensity among the n + 1 stems. */
  ghost predicate CloneOf(num: Numerics, s: Stem, o: nat, c: Stem, k: int, n: int)
    requires IsInt32(n)
  {
    c.clonedFrom == Some(o) && c.level == s.level && c.parent == s.parent
    && c.cloneIndex == s.cloneIndex + [|s.clones| + k]
    && (!s.pruneTest ==> c.substemsPerSegment == Div(num, s.substemsPerSegment, Wrap(n + 1) as real))
  }

  /** What makeClones did to the clones of stem o: `count` clones follow
      the arena's old end, are recorded in that order as o's next clones,
      and each has the next clone-index path and its share of the
      propensity. */
  ghost predicate ClonesAdded(num: Numerics, arena: seq<Stem>, a: seq<Stem>, o: nat, n: int, count: nat)
    requires o < |arena| && o < |a| && IsInt32(n)
  {
    |a| == |arena| + count
    && a[o].clones == arena[o].clones + Indices(|arena|, count)
    && forall j :: |arena| <= j < |a| ==> CloneOf(num, arena[o], o, a[j], j - |arena|, n)
  }

  /** Changing stem o other than in its clone list keeps what makeClones
      did to its clones. */
  lemma ClonesAddedKept(num: Numerics, arena: seq<Stem>, a: seq<Stem>, b: seq<Stem>, o: nat, n: int, count: nat)
    requires o < |arena| && o < |a| && IsInt32(n) && ClonesAdded(num, arena, a, o, n, count)
    requires |b| == |a| && b[o].clones == a[o].clones
    requires forall j :: 0 <= j < |a| && j != o ==> b[j] == a[j]
    ensures ClonesAdded(num, arena, b, o, n, count)
  {
    forall j | |arena| <= j < |b|
      ensures CloneOf(num, arena[o], o, b[j], j - |arena|, n)
    {
      assert b[j] == a[j];
    }
  }

  /** The state of the clone loop after `count` clones: the arena is
      linked, the clones are recorded as ClonesAdded says, and nothing else
      of the stems already there has changed. */
  ghost predicate CloneLoop(num: Numerics, arena: seq<Stem>, a: seq<Stem>, o: nat, n: int, count: nat)
    requires o < |arena| && IsInt32(n)
  {
    Linked(a) && o < |a| && ClonesAdded(num, arena, a, o, n, count)
    && a[o] == arena[o].(clones := a[o].clones)
    && forall j :: 0 <= j < |arena| && j != o ==> a[j] == arena[j]
  }

  /** Adding clone i keeps the clone loop's state. */
  lemma CloneStep(num: Numerics, p: TreeParams, lp: LevelParams, arena: seq<Stem>, a: seq<Stem>, o: nat,
                  trf: Transform, zz: real, nseg: int, n: int, i: nat, draw: int -> real)
    requires o < |arena| && IsInt32(n) && n >= 1 && Draws(draw)
    requires CloneLoop(num, arena, a, o, n, i)
    ensures var c := NthClone(num, p, lp, a, o, trf, zz, nseg, n, i, draw);
            CloneLoop(num, arena, AddChild(a, o, c), o, n, i + 1)
  {
    var c := NthClone(num, p, lp, a, o, trf, zz, nseg, n, i, draw);
    var a' := AddChild(a, o, c);
    assert Indices(|arena|, i + 1) == Indices(|arena|, i) + [|a|];
    assert CloneOf(num, arena[o], o, c, i, n);
  }

  /** The clone loop of makeClones: n clones made in turn and grown (the
      growth of clone i only reports whether the prune test ran out of the
      envelope, as grown(i) >= 0); the first clone that ran out stops the
      loop before it is recorded, and its result is returned. Every clone
      recorded links back to o and nothing but o's clone list changes among
      the stems already there. */
  method AddClones(num: Numerics, p: TreeParams, lp: LevelParams, arena: seq<Stem>, o: nat, trf: Transform,
                   zz: real, nseg: int, n: int, draw: int -> real, grown: int -> int)
    returns (a: seq<Stem>, segm: int)
    requires Linked(arena) && o < |arena| && IsInt32(n) && n >= 1 && Draws(draw)
    ensures 0 <= |a| - |arena| <= n
    ensures CloneLoop(num, arena, a, o, n, |a| - |arena|)
    ensures forall k :: 0 <= k < |a| - |arena| ==> grown(k) < 0
    ensures segm == -1 <==> |a| - |arena| == n
    ensures segm != -1 ==> segm == grown(|a| - |arena|) && segm >= 0
  {
    a, segm := arena, -1;
    assert ClonesAdded(num, arena, a, o, n, 0) by {
      assert Indices(|arena|, 0) == [];
    }
    var i := 0;
    while i < n
      invariant 0 <= i <= n && |a| == |arena| + i
      invariant CloneLoop(num, arena, a, o, n, i)
      invariant forall k :: 0 <= k < i ==> grown(k) < 0
    {
      if grown(i) >= 0 {
        segm := grown(i);
        return;
      }
      CloneStep(num, p, lp, arena, a, o, trf, zz, nseg, n, i, draw);
      a := AddChild(a, o, NthClone(num, p, lp, a, o, trf, zz, nseg, n, i, draw));
      i := i + 1;
    }
  }

  /** The stem's own split at the end of makeClones (a split angle of 0,
      so no divergence, drawing after all n clones): only the stem's split
      correction and propensity change, the correction taken off adds up
      over the remaining segments to the split angle, the propensity is
      shared among the n + 1 stems, and the direction it gives is turned by
      the split angle. */
  function SplitOriginal(num: Numerics, p: TreeParams, lp: LevelParams, a: seq<Stem>, o: nat, trf: Transform,
                         zz: real, nseg: int, n: int, draw: int -> real): (r: (seq<Stem>, Transform))
    requires Linked(a) && o < |a| && IsInt32(n) && n >= 1 && Draws(draw)
    ensures Linked(r.0) && |r.0| == |a|
    ensures forall j :: 0 <= j < |a| && j != o ==> r.0[j] == a[j]
    ensures r.0[o] == a[o].(splitCorrection := r.0[o].splitCorrection, substemsPerSegment := r.0[o].substemsPerSegment)
    ensures nseg < a[o].segmentCount - 1 ==>
      (a[o].segmentCount - nseg - 1) as real * (a[o].splitCorrection - r.0[o].splitCorrection)
        == SplitAngle(num, lp, zz, draw(3 * n))
    ensures r.0[o].splitCorrection == a[o].splitCorrection
      - Div(num, SplitAngle(num, lp, zz, draw(3 * n)), (a[o].segmentCount - nseg - 1) as real)
    ensures !a[o].pruneTest ==> r.0[o].substemsPerSegment == Div(num, a[o].substemsPerSegment, Wrap(n + 1) as real)
    ensures !a[o].pruneTest && n < IntMax ==> (n + 1) as real * r.0[o].substemsPerSegment == a[o].substemsPerSegment
    ensures r.1 == RotX(trf, SplitAngle(num, lp, zz, draw(3 * n)))
  {
    var d0, d1, d2 := draw(3 * n), draw(3 * n + 1), draw(3 * n + 2);
    var split := Split(num, p, lp, a[o], trf, zz, 0.0, nseg, n, d0, d1, d2);
    assert nseg < a[o].segmentCount - 1 ==>
      (a[o].segmentCount - nseg - 1) as real * (a[o].splitCorrection - split.0.splitCorrection) == SplitAngle(num, lp, zz, d0)
    by {
      if nseg < a[o].segmentCount - 1 {
        SplitCorrectionUndoesSplit(num, p, lp, a[o], trf, zz, 0.0, nseg, n, d0, d1, d2);
      }
    }
    assert !a[o].pruneTest && n < IntMax ==> (n + 1) as real * split.0.substemsPerSegment == a[o].substemsPerSegment by {
      if !a[o].pruneTest && n < IntMax {
        SplitSharesPropensity(num, p, lp, a[o], trf, zz, 0.0, nseg, n, d0, d1, d2);
      }
    }
    ReplaceKeepsLinked(a, o, split.0);
    (a[o := split.0], split.1)
  }

  /** makeClones as written. The split count is made; with none there is
      nothing to do; otherwise the clones are added and, unless one ran out
      of the envelope, the stem splits too. The direction the split gives
      the stem is dropped: the segments that follow keep the direction they
      had (next == trf), although the split correction that makes them
      curve back has been taken off. A clone that runs out of the envelope
      ends makeClones with its segment; the clones before it stay
      recorded. */
  method MakeClonesAsWritten(num: Numerics, p: TreeParams, lp: LevelParams, arena: seq<Stem>, o: nat,
                             trf: Transform, zz: real, nseg: int, err: real, draw: int -> real, grown: int -> int)
    returns (a: seq<Stem>, err': real, segm: int, next: Transform)
    requires Linked(arena) && o < |arena| && Draws(draw) && IsInt32(p.baseSplits)
    ensures err' == SplitCount(p, lp, arena[o].level, nseg, err).1
    ensures Linked(a) && o < |a| && next == trf
    ensures var n := SplitCount(p, lp, arena[o].level, nseg, err).0;
            && (n < 1 ==> a == arena && segm == -1)
            && (n >= 1 && segm == -1 ==>
                  |a| == |arena| + n
                  && a[o].splitCorrection == arena[o].splitCorrection
                       - Div(num, SplitAngle(num, lp, zz, draw(3 * n)), (arena[o].segmentCount - nseg - 1) as real))
    ensures var n := SplitCount(p, lp, arena[o].level, nseg, err).0;
            n >= 1 && segm != -1 ==>
              && segm >= 0 && next == trf && 0 <= |a| - |arena| < n
              && ClonesAdded(num, arena, a, o, n, |a| - |arena|)
              && segm == grown(|a| - |arena|)
              && (forall k :: 0 <= k < |a| - |arena| ==> grown(k) < 0)
  {
    var sc := SplitCount(p, lp, arena[o].level, nseg, err);
    var n := sc.0;
    err' := sc.1;
    next := trf;
    if n < 1 {
      a, segm := arena, -1;
      return;
    }
    a, segm := AddClones(num, p, lp, arena, o, trf, zz, nseg, n, draw, grown);
    if segm >= 0 {
      return;
    }
    var split := SplitOriginal(num, p, lp, a, o, trf, zz, nseg, n, draw);
    a := split.0;
  }

  /** makeClones with the stem's own split kept: the segments that follow
      continue in the split direction, so the split correction taken off
      the stem brings it back by exactly the split angle. Besides, the n
      clones follow the old end of the arena as o's next clones with the
      next clone-index paths, and outside a prune test the stem and its
      clones share its substem propensity equally. A clone that runs out of
      the envelope ends makeClones with its segment, as in the as-written
      version. */
  method MakeClones(num: Numerics, p: TreeParams, lp: LevelParams, arena: seq<Stem>, o: nat,
                    trf: Transform, zz: real, nseg: int, err: real, draw: int -> real, grown: int -> int)
    returns (a: seq<Stem>, err': real, segm: int, next: Transform)
    requires Linked(arena) && o < |arena| && Draws(draw) && IsInt32(p.baseSplits)
    ensures err' == SplitCount(p, lp, arena[o].level, nseg, err).1
    ensures Linked(a) && o < |a|
    ensures var n := SplitCount(p, lp, arena[o].level, nseg, err).0;
            n < 1 ==> a == arena && segm == -1 && next == trf
    ensures var n := SplitCount(p, lp, arena[o].level, nseg, err).0;
            n >= 1 && segm == -1 ==>
              && ClonesAdded(num, arena, a, o, n, n)
              && next == RotX(trf, SplitAngle(num, lp, zz, draw(3 * n)))
              && (!arena[o].pruneTest ==>
                    a[o].substemsPerSegment == Div(num, arena[o].substemsPerSegment, Wrap(n + 1) as real))
              && a[o].splitCorrection == arena[o].splitCorrection
                   - Div(num, SplitAngle(num, lp, zz, draw(3 * n)), (arena[o].segmentCount - nseg - 1) as real)
    ensures var n := SplitCount(p, lp, arena[o].level, nseg, err).0;
            n >= 1 && segm != -1 ==>
              && segm >= 0 && next == trf && 0 <= |a| - |arena| < n
              && ClonesAdded(num, arena, a, o, n, |a| - |arena|)
              && segm == grown(|a| - |arena|)
              && (forall k :: 0 <= k < |a| - |arena| ==> grown(k) < 0)
  {
    var sc := SplitCount(p, lp, arena[o].level, nseg, err);
    var n := sc.0;
    err' := sc.1;
    next := trf;
    if n < 1 {
      a, segm := arena, -1;
      return;
    }
    a, segm := AddClones(num, p, lp, arena, o, trf, zz, nseg, n, draw, grown);
    if segm >= 0 {
      return;
    }
    var split := SplitOriginal(num, p, lp, a, o, trf, zz, nseg, n, draw);
    ClonesAddedKept(num, arena, a, split.0, o, n, n);
    a, next := split.0, split.1;
  }

  /** An input on which makeClones as written goes wrong: an upright stem
      (declination 0) splitting with nSplitAngle 30 and no variation, two
      segments before its end. The split turns it by 30 degrees and takes
      15 degrees per remaining segment off its split correction; as written
      makeClones keeps that correction but drops the turn (its next is the
      old trf), so the stem curves back 30 degrees from a split it never
      made. */
  lemma SplitWithoutTurn(num: Numerics, p: TreeParams, lp: LevelParams, a: seq<Stem>, o: nat, trf: Transform,
                         zz: real, nseg: int, n: int, draw: int -> real)
    requires Linked(a) && o < |a| && IsInt32(n) && n >= 1 && Draws(draw)
    requires num.acos(zz) == 0.0 && lp.nSplitAngle == 30.0 && lp.nSplitAngleV == 0.0
    requires a[o].segmentCount - nseg - 1 == 2
    ensures SplitOriginal(num, p, lp, a, o, trf, zz, nseg, n, draw).1 == RotX(trf, 30.0)
    ensures SplitOriginal(num, p, lp, a, o, trf, zz, nseg, n, draw).0[o].splitCorrection
         == a[o].splitCorrection - 15.0
  {
    var d0 := draw(3 * n);
    assert Declination(num, zz) == 0.0;
    assert Var(lp.nSplitAngleV, d0) == 0.0;
    assert SplitAngle(num, lp, zz, d0) == 30.0;
    assert Div(num, 30.0, 2.0) == 15.0;
  }
}

=== FILE: stem_geometry.dfy ===
/** The per-stem arithmetic of the generator: length, base radius, radius
    along the stem, the curving angle per segment and the substem and leaf
    densities a stem hands down. A random draw `draw` stands for one value
    of the level's random stream in [-1, 1]: LevelParams.var(v) is v * draw. */
module StemGeometry {
  import opened JavaNum
  import opened Numerics
  import opened RealArith
  import opened Params
  import opened Stems

  /** LevelParams.var: a uniform value in [-v, v], here v times a draw. */
  function Var(v: real, draw: real): (r: real)
    requires -1.0 <= draw <= 1.0
    ensures -AbsReal(v) <= r <= AbsReal(v)
  {
    VarBound(v, draw);
    v * draw
  }

  lemma VarBound(v: real, draw: real)
    requires -1.0 <= draw <= 1.0
    ensures -AbsReal(v) <= v * draw <= AbsReal(v)
  {
    if v >= 0.0 {
      MulUnitFactor(v, draw);
    } else {
      MulUnitFactor(-v, draw);
    }
  }

  /** The shapes whose ratio stays in [0, 1] on [0, 1]. */
  predicate UnitShape(shape: int) {
    shape == Conical || shape == Cylindrical || shape == TaperedCylindrical
    || shape == Flame || shape == InverseConical || shape == TendFlame
  }

  /** The trunk's length: (0Length +- 0LengthV) times the tree scale. */
  function TrunkLength(lp: LevelParams, scaleTree: real, draw: real): (r: real)
    requires -1.0 <= draw <= 1.0
    ensures lp.nLengthV >= 0.0 && scaleTree >= 0.0 ==>
      (lp.nLength - lp.nLengthV) * scaleTree <= r <= (lp.nLength + lp.nLengthV) * scaleTree
  {
    var l := lp.nLength + Var(lp.nLengthV, draw);
    assert lp.nLengthV >= 0.0 && scaleTree >= 0.0 ==>
      (lp.nLength - lp.nLengthV) * scaleTree <= l * scaleTree <= (lp.nLength + lp.nLengthV) * scaleTree by {
      if lp.nLengthV >= 0.0 && scaleTree >= 0.0 {
        MulMonotone(lp.nLength - lp.nLengthV, l, scaleTree);
        MulMonotone(l, lp.nLength + lp.nLengthV, scaleTree);
      }
    }
    l * scaleTree
  }

  /** A level-1 stem's length: the parent's length times its maximal child
      length times the shape ratio of the stem's position above the bare
      base of length baseLen. */
  function FirstLevelLength(num: Numerics, p: TreeParams, offset: real, parlen: real, childMax: real): (r: real)
    ensures UnitShape(p.shape) && childMax >= 0.0 && parlen >= 0.0
            && p.baseSize * p.scaleTree <= offset <= parlen && p.baseSize * p.scaleTree < parlen
            ==> 0.0 <= r <= parlen * childMax
  {
    var baseLen := p.baseSize * p.scaleTree;
    var sr := ShapeRatio(num, p.envelope, Div(num, parlen - offset, parlen - baseLen), p.shape);
    assert UnitShape(p.shape) && childMax >= 0.0 && parlen >= 0.0 && baseLen <= offset <= parlen && baseLen < parlen
           ==> 0.0 <= parlen * childMax * sr <= parlen * childMax by {
      if UnitShape(p.shape) && childMax >= 0.0 && parlen >= 0.0 && baseLen <= offset <= parlen && baseLen < parlen {
        RatioInUnit(parlen - offset, parlen - baseLen);
        MulNonNegative(parlen, childMax);
        MulMonotone(sr, 1.0, parlen * childMax);
        MulNonNegative(parlen * childMax, sr);
      }
    }
    parlen * childMax * sr
  }

  /** A deeper stem's length: the parent's maximal child length times the
      parent's length less 0.6 of the offset. */
  function DeepLength(offset: real, parlen: real, childMax: real): (r: real)
    ensures childMax >= 0.0 && 0.0 <= offset <= parlen ==> 0.4 * childMax * parlen <= r <= childMax * parlen
  {
    assert childMax >= 0.0 && 0.0 <= offset <= parlen ==>
      0.4 * childMax * parlen <= childMax * (parlen - 0.6 * offset) <= childMax * parlen by {
      if childMax >= 0.0 && 0.0 <= offset <= parlen {
        MulMonotone(0.4 * parlen, parlen - 0.6 * offset, childMax);
        MulMonotone(parlen - 0.6 * offset, parlen, childMax);
      }
    }
    childMax * (parlen - 0.6 * offset)
  }

  /** stemLength: by level, the trunk, level-1 and deeper rules. */
  function StemLength(num: Numerics, p: TreeParams, lp: LevelParams, s: Stem, parent: Stem, draw: real): (r: real)
    requires -1.0 <= draw <= 1.0
    ensures s.level == 0 && lp.nLengthV >= 0.0 && p.scaleTree >= 0.0 ==>
      (lp.nLength - lp.nLengthV) * p.scaleTree <= r <= (lp.nLength + lp.nLengthV) * p.scaleTree
    ensures s.level == 1 && UnitShape(p.shape) && parent.lengthChildMax >= 0.0 && parent.length >= 0.0
            && p.baseSize * p.scaleTree <= s.offset <= parent.length && p.baseSize * p.scaleTree < parent.length
            ==> 0.0 <= r <= parent.length * parent.lengthChildMax
    ensures s.level >= 2 && parent.lengthChildMax >= 0.0 && 0.0 <= s.offset <= parent.length ==>
      0.4 * parent.lengthChildMax * parent.length <= r <= parent.lengthChildMax * parent.length
  {
    if s.level == 0 then TrunkLength(lp, p.scaleTree, draw)
    else if s.level == 1 then FirstLevelLength(num, p, s.offset, parent.length, parent.lengthChildMax)
    else DeepLength(s.offset, parent.length, parent.lengthChildMax)
  }

  /** The taper profile factor of stemRadius for nTaper: the taper itself up
      to 1, falling back to 0 between 1 and 2, 0 beyond. */
  function UnitTaper(taper: real): (u: real)
    ensures taper <= 1.0 ==> u == taper
    ensures 1.0 < taper ==> 0.0 <= u < 1.0
  {
    if taper <= 1.0 then taper else if taper <= 2.0 then 2.0 - taper else 0.0
  }

  /** The relative height min(h / length, 1) of stemRadius. */
  function RelativeHeight(num: Numerics, h: real, length: real): (z: real)
    ensures z <= 1.0
    ensures length > 0.0 && h >= 0.0 ==> 0.0 <= z
    ensures length != 0.0 ==> z == MinReal(h / length, 1.0)
  {
    MinReal(Div(num, h, length), 1.0)
  }

  /** The linear taper: base radius times 1 - unit_taper * Z. */
  function LinearTaper(baseRadius: real, unit: real, z: real): (r: real)
    ensures 0.0 <= unit <= 1.0 && 0.0 <= z <= 1.0 && baseRadius >= 0.0 ==>
      (1.0 - unit) * baseRadius <= r <= baseRadius
  {
    assert 0.0 <= unit <= 1.0 && 0.0 <= z <= 1.0 && baseRadius >= 0.0 ==>
      (1.0 - unit) * baseRadius <= baseRadius * (1.0 - unit * z) <= baseRadius by {
      if 0.0 <= unit <= 1.0 && 0.0 <= z <= 1.0 && baseRadius >= 0.0 {
        MulMonotone(z, 1.0, unit);
        MulNonNegative(unit, z);
        MulMonotone(1.0 - unit, 1.0 - unit * z, baseRadius);
        MulMonotone(1.0 - unit * z, 1.0, baseRadius);
      }
    }
    baseRadius * (1.0 - unit * z)
  }

  /** The rounded tip (1 < taper < 2) or periodic tapering (taper >= 2). */
  function TipTaper(num: Numerics, taper: real, length: real, z: real, radius: real): real
    requires taper > 1.0
  {
    var z2 := (1.0 - z) * length;
    var depth := if taper < 2.0 || z2 < radius then 1.0 else taper - 2.0;
    var z3 := if taper < 2.0 then z2
              else AbsReal(z2 - 2.0 * radius * IntCast(Div(num, z2 / 2.0, radius) + 0.5) as real);
    if taper > 2.0 || z3 < radius then
      (1.0 - depth) * radius + depth * num.sqrt(radius * radius - (z3 - radius) * (z3 - radius))
    else radius
  }

  /** The trunk's flare near the base and its 0Scale. */
  function TrunkWidening(num: Numerics, p: TreeParams, z: real, radius: real): (r: real)
    ensures p.flare == 0.0 ==> r == radius * p.trunkScale
  {
    var flared :=
      if p.flare != 0.0 then
        var y := MaxReal(0.0, 1.0 - 8.0 * z);
        radius * (1.0 + p.flare * (num.pow(100.0, y) - 1.0) / 100.0)
      else radius;
    flared * p.trunkScale
  }

  /** stemRadius(h): the base radius shrunk by the taper profile at the
      relative height; tapers above 1 round off the tip; the trunk is
      widened by Flare and scaled by 0Scale. Lobes are never applied here,
      because the angle argument is always 0. */
  function StemRadius(num: Numerics, p: TreeParams, lp: LevelParams, level: int, length: real, baseRadius: real,
                      h: real): (r: real)
    ensures level > 0 && lp.nTaper <= 1.0 ==>
      r == LinearTaper(baseRadius, lp.nTaper, RelativeHeight(num, h, length))
    ensures level > 0 && 0.0 <= lp.nTaper <= 1.0 && length > 0.0 && h >= 0.0 && baseRadius >= 0.0 ==>
      (1.0 - lp.nTaper) * baseRadius <= r <= baseRadius
    ensures level > 0 && lp.nTaper <= 1.0 && h == 0.0 && length != 0.0 ==> r == baseRadius
  {
    var z := RelativeHeight(num, h, length);
    var radius := LinearTaper(baseRadius, UnitTaper(lp.nTaper), z);
    var radius := if lp.nTaper > 1.0 then TipTaper(num, lp.nTaper, length, z, radius) else radius;
    if level == 0 then TrunkWidening(num, p, z, radius) else radius
  }

  /** Along a non-trunk stem with taper in [0, 1] the radius never grows
      from the base upwards. */
  lemma StemRadiusNonIncreasing(num: Numerics, p: TreeParams, lp: LevelParams, level: int, length: real,
                                baseRadius: real, h1: real, h2: real)
    requires level > 0 && 0.0 <= lp.nTaper <= 1.0 && length > 0.0 && baseRadius >= 0.0
    requires 0.0 <= h1 <= h2
    ensures StemRadius(num, p, lp, level, length, baseRadius, h2)
         <= StemRadius(num, p, lp, level, length, baseRadius, h1)
  {
    var z1 := RelativeHeight(num, h1, length);
    var z2 := RelativeHeight(num, h2, length);
    DivMonotone(h1, h2, length);
    assert z1 <= z2;
    MulMonotone(z1, z2, lp.nTaper);
    MulMonotone(1.0 - lp.nTaper * z2, 1.0 - lp.nTaper * z1, baseRadius);
  }

  /** stemBaseRadius: the trunk's base radius is its length times Ratio;
      any other stem takes the parent's base radius scaled by the length
      ratio to the power RatioPower, but never more than the parent's
      radius where the stem grows out. */
  function StemBaseRadius(num: Numerics, p: TreeParams, level: int, length: real, offset: real,
                          parent: Stem, parentLp: LevelParams): (r: real)
    ensures level == 0 ==> r == length * p.ratio
    ensures level != 0 ==> r <= StemRadius(num, p, parentLp, parent.level, parent.length, parent.baseRadius, offset)
    ensures level != 0 ==> r <= parent.baseRadius * num.pow(Div(num, length, parent.length), p.ratioPower)
    ensures level != 0 ==> r == StemRadius(num, p, parentLp, parent.level, parent.length, parent.baseRadius, offset)
                           || r == parent.baseRadius * num.pow(Div(num, length, parent.length), p.ratioPower)
  {
    if level == 0 then length * p.ratio
    else
      var maxRadius := StemRadius(num, p, parentLp, parent.level, parent.length, parent.baseRadius, offset);
      var radius := parent.baseRadius * num.pow(Div(num, length, parent.length), p.ratioPower);
      MinReal(radius, maxRadius)
  }

  /** The curving angles per segment: nCurve spread evenly over the
      segments, or, with curve-back, twice nCurve (lower half) and twice
      nCurveBack (upper half) per segment. */
  function PlainDelta(num: Numerics, lp: LevelParams): (d: real)
    ensures lp.nCurveRes != 0 ==> d * lp.nCurveRes as real == lp.nCurve
    ensures lp.nCurveRes == 0 ==> d == num.nonFinite
  {
    Div(num, lp.nCurve, lp.nCurveRes as real)
  }

  function FrontDelta(num: Numerics, lp: LevelParams): (d: real)
    ensures lp.nCurveRes != 0 ==> d * lp.nCurveRes as real == lp.nCurve * 2.0
    ensures lp.nCurveRes == 0 ==> d == num.nonFinite
  {
    Div(num, lp.nCurve * 2.0, lp.nCurveRes as real)
  }

  function BackDelta(num: Numerics, lp: LevelParams): (d: real)
    ensures lp.nCurveRes != 0 ==> d * lp.nCurveRes as real == lp.nCurveBack * 2.0
    ensures lp.nCurveRes == 0 ==> d == num.nonFinite
  {
    Div(num, lp.nCurveBack * 2.0, lp.nCurveRes as real)
  }

  /** The curving angle of segment nsegm > 0 before the split correction is
      added. The half is computed with Java's int arithmetic as
      (nCurveRes + 1) / 2, which overflows for nCurveRes = Integer.MAX_VALUE:
      then every segment curves back. */
  function CurveDelta(num: Numerics, lp: LevelParams, nsegm: int): (d: real)
    ensures lp.nCurveBack == 0.0 ==> d == PlainDelta(num, lp)
    ensures lp.nCurveBack != 0.0 && 0 <= lp.nCurveRes < IntMax ==>
      d == (if nsegm < (lp.nCurveRes + 1) / 2 then FrontDelta(num, lp) else BackDelta(num, lp))
    ensures lp.nCurveBack != 0.0 && lp.nCurveRes == IntMax && nsegm >= 0 ==> d == BackDelta(num, lp)
  {
    assert 0 <= lp.nCurveRes < IntMax ==> Quot(Wrap(lp.nCurveRes + 1), 2) == (lp.nCurveRes + 1) / 2 by {
      if 0 <= lp.nCurveRes < IntMax {
        QuotRemNonNegative(lp.nCurveRes + 1, 2);
      }
    }
    if lp.nCurveBack == 0.0 then Div(num, lp.nCurve, lp.nCurveRes as real)
    else if nsegm < Quot(Wrap(lp.nCurveRes + 1), 2) then Div(num, lp.nCurve * 2.0, lp.nCurveRes as real)
    else Div(num, lp.nCurveBack * 2.0, lp.nCurveRes as real)
  }

  /** newDirection's curving angle for segment nsegm: none for the first
      segment, else the curve delta plus the stem's split correction. */
  function SegmentCurve(num: Numerics, lp: LevelParams, s: Stem, nsegm: int): (d: real)
    ensures nsegm == 0 ==> d == 0.0
    ensures nsegm != 0 ==> d == CurveDelta(num, lp, nsegm) + s.splitCorrection
  {
    if nsegm == 0 then 0.0 else CurveDelta(num, lp, nsegm) + s.splitCorrection
  }

  /** k segments turning by c each. */
  function Times(k: int, c: real): real {
    k as real * c
  }

  /** The curve deltas of segments lo..hi-1. */
  function CurveSum(num: Numerics, lp: LevelParams, lo: int, hi: int): real
    decreases hi - lo
  {
    if hi <= lo then 0.0 else CurveSum(num, lp, lo, hi - 1) + CurveDelta(num, lp, hi - 1)
  }

  /** Segments that all curve by the same delta c curve by c per segment
      in total. */
  lemma {:induction false} CurveSumConstant(num: Numerics, lp: LevelParams, lo: int, hi: int, c: real)
    requires lo <= hi
    requires forall k :: lo <= k < hi ==> CurveDelta(num, lp, k) == c
    ensures CurveSum(num, lp, lo, hi) == Times(hi - lo, c)
    decreases hi - lo
  {
    if hi > lo {
      var k := hi - 1 - lo;
      CurveSumConstant(num, lp, lo, hi - 1, c);
      assert CurveSum(num, lp, lo, hi) == CurveSum(num, lp, lo, hi - 1) + c;
      MulSucc(k, c);
    }
  }

  lemma {:induction false} CurveSumSplit(num: Numerics, lp: LevelParams, lo: int, mid: int, hi: int)
    requires lo <= mid <= hi
    ensures CurveSum(num, lp, lo, hi) == CurveSum(num, lp, lo, mid) + CurveSum(num, lp, mid, hi)
    decreases hi - mid
  {
    if hi > mid {
      CurveSumSplit(num, lp, lo, mid, hi - 1);
    }
  }

  /** Segments lo..mid-1 curving by a each and mid..hi-1 by b each. */
  lemma CurveSumTwoParts(num: Numerics, lp: LevelParams, lo: int, mid: int, hi: int, a: real, b: real)
    requires lo <= mid <= hi
    requires forall k :: lo <= k < mid ==> CurveDelta(num, lp, k) == a
    requires forall k :: mid <= k < hi ==> CurveDelta(num, lp, k) == b
    ensures CurveSum(num, lp, lo, hi) == Times(mid - lo, a) + Times(hi - mid, b)
  {
    CurveSumSplit(num, lp, lo, mid, hi);
    CurveSumConstant(num, lp, lo, mid, a);
    CurveSumConstant(num, lp, mid, hi, b);
  }

  /** Over the segments 1..nCurveRes-1 that curve, a stem without curve-back
      turns by nCurveRes - 1 shares nCurve / nCurveRes. */
  lemma TotalCurvePlain(num: Numerics, lp: LevelParams)
    requires 1 <= lp.nCurveRes && lp.nCurveBack == 0.0
    ensures CurveSum(num, lp, 1, lp.nCurveRes) == Times(lp.nCurveRes - 1, PlainDelta(num, lp))
  {
    var c := PlainDelta(num, lp);
    forall k | 1 <= k < lp.nCurveRes
      ensures CurveDelta(num, lp, k) == c
    {
    }
    CurveSumConstant(num, lp, 1, lp.nCurveRes, c);
  }

  /** With curve-back the lower (nCurveRes + 1) / 2 - 1 curving segments
      turn by 2 nCurve / nCurveRes each and the remaining ones by
      2 nCurveBack / nCurveRes each. */
  lemma TotalCurveBack(num: Numerics, lp: LevelParams)
    requires 1 <= lp.nCurveRes < IntMax && lp.nCurveBack != 0.0
    ensures CurveSum(num, lp, 1, lp.nCurveRes)
        == Times((lp.nCurveRes + 1) / 2 - 1, FrontDelta(num, lp))
           + Times(lp.nCurveRes - (lp.nCurveRes + 1) / 2, BackDelta(num, lp))
  {
    var n := lp.nCurveRes;
    var half := (n + 1) / 2;
    var front := FrontDelta(num, lp);
    var back := BackDelta(num, lp);
    assert CurveSum(num, lp, 1, n) == Times(half - 1, front) + Times(n - half, back) by {
      forall k | 1 <= k < half
        ensures CurveDelta(num, lp, k) == front
      {
        assert k < (lp.nCurveRes + 1) / 2;
      }
      forall k | half <= k < n
        ensures CurveDelta(num, lp, k) == back
      {
        assert !(k < (lp.nCurveRes + 1) / 2);
      }
      CurveSumTwoParts(num, lp, 1, half, n, front, back);
    }
  }

  /** The substem share of a level-1 stem, 0.2 plus 0.8 of its length
      relative to the longest child its parent allows. */
  function FirstLevelShare(num: Numerics, length: real, parlen: real, childMax: real): (share: real)
    ensures parlen > 0.0 && childMax > 0.0 && 0.0 <= length <= parlen * childMax ==> 0.2 <= share <= 1.0
  {
    var q := Div(num, length, parlen);
    assert parlen > 0.0 && childMax > 0.0 && 0.0 <= length <= parlen * childMax ==> 0.0 <= q / childMax <= 1.0 by {
      if parlen > 0.0 && childMax > 0.0 && 0.0 <= length <= parlen * childMax {
        DivMonotone(length, parlen * childMax, parlen);
        assert parlen * childMax / parlen == childMax;
        RatioInUnit(q, childMax);
      }
    }
    0.2 + 0.8 * Div(num, q, childMax)
  }

  /** The substem share of a deeper stem, 1 less half its relative offset. */
  function DeepShare(num: Numerics, offset: real, parlen: real): (share: real)
    ensures parlen > 0.0 && 0.0 <= offset <= parlen ==> 0.5 <= share <= 1.0
  {
    assert parlen > 0.0 && 0.0 <= offset <= parlen ==> 0.0 <= offset / parlen <= 1.0 by {
      if parlen > 0.0 && 0.0 <= offset <= parlen {
        RatioInUnit(offset, parlen);
      }
    }
    1.0 - 0.5 * Div(num, offset, parlen)
  }

  /** (int)(n * share) for a share in [1/d, 1] lies between n / d and n. */
  lemma CastBetween(n: int, d: int, share: real)
    requires 0 <= n <= IntMax && d > 0
    requires 1.0 / d as real <= share <= 1.0
    ensures (n / d) as real <= IntCast(n as real * share) as real <= n as real
  {
    CastBelow(n, share);
    CastAbove(n, d, share);
  }

  lemma CastBelow(n: int, share: real)
    requires 0 <= n && share <= 1.0
    ensures IntCast(n as real * share) <= n
  {
    MulMonotone(share, 1.0, n as real);
    IntCastAtMost(n as real * share, n);
  }

  lemma CastAbove(n: int, d: int, share: real)
    requires 0 <= n <= IntMax && d > 0 && 1.0 / d as real <= share
    ensures n / d <= IntCast(n as real * share)
  {
    QuotientBelow(n, d);
    MulMonotone(1.0 / d as real, share, n as real);
    IntCastAtLeast(n as real * share, n / d);
  }

  lemma QuotientBelow(n: int, d: int)
    requires 0 <= n && d > 0
    ensures 0 <= n / d <= n
    ensures (n / d) as real <= 1.0 / d as real * n as real
  {
    var q := n / d;
    assert q * d <= n;
    assert q <= q * d;
    assert (q * d) as real == q as real * d as real;
    DivMonotone(q as real * d as real, n as real, d as real);
    assert q as real * d as real / d as real == q as real;
  }

  /** How many substems a stem may carry (substem_cnt): all nBranches of
      the next level for the trunk and in previews; for level 1 a share
      0.2..1 growing with the stem's length relative to the longest
      possible; deeper, a share 1..0.5 falling with the offset. */
  function SubstemCount(num: Numerics, p: TreeParams, lp1: LevelParams, s: Stem, parent: Stem): (c: real)
    ensures s.level == 0 || p.preview ==> c == lp1.nBranches as real
    ensures s.level >= 2 && !p.preview && 0 <= lp1.nBranches <= IntMax && parent.length > 0.0
            && 0.0 <= s.offset <= parent.length ==>
      (lp1.nBranches / 2) as real <= c <= lp1.nBranches as real
    ensures s.level == 1 && !p.preview && 0 <= lp1.nBranches <= IntMax && parent.length > 0.0
            && parent.lengthChildMax > 0.0 && 0.0 <= s.length <= parent.length * parent.lengthChildMax ==>
      (lp1.nBranches / 5) as real <= c <= lp1.nBranches as real
  {
    var n := lp1.nBranches;
    if s.level == 0 || p.preview then n as real
    else
      var share :=
        if s.level == 1 then FirstLevelShare(num, s.length, parent.length, parent.lengthChildMax)
        else DeepShare(num, s.offset, parent.length);
      assert 0 <= n <= IntMax && 0.2 <= share <= 1.0 ==>
        (n / 5) as real <= IntCast(n as real * share) as real <= n as real by {
        if 0 <= n <= IntMax && 0.2 <= share <= 1.0 {
          CastBetween(n, 5, share);
        }
      }
      assert 0 <= n <= IntMax && 0.5 <= share <= 1.0 ==>
        (n / 2) as real <= IntCast(n as real * share) as real <= n as real by {
        if 0 <= n <= IntMax && 0.5 <= share <= 1.0 {
          CastBetween(n, 2, share);
        }
      }
      IntCast(n as real * share) as real
  }

  /** leavesPerBranch: no leaves without Leaves or on the trunk; otherwise
      |Leaves| weighted by the LeafDistrib shape at the stem's relative
      offset and by LeafQuality. Java's Math.abs keeps Integer.MIN_VALUE
      negative. */
  function LeavesPerBranch(num: Numerics, p: TreeParams, s: Stem, parent: Stem): (r: real)
    requires IsInt32(p.leaves)
    ensures p.leaves == 0 || s.level == 0 ==> r == 0.0
    ensures (p.leaves != IntMin && p.leafQuality >= 0.0
             && ShapeRatio(num, p.envelope, Div(num, s.offset, parent.length), p.leafDistrib) >= 0.0) ==> r >= 0.0
    ensures p.leaves != 0 && s.level != 0 ==>
      r == Abs(p.leaves) as real * ShapeRatio(num, p.envelope, Div(num, s.offset, parent.length), p.leafDistrib)
           * p.leafQuality
  {
    if p.leaves == 0 then 0.0
    else if s.level == 0 then 0.0
    else
      var sr := ShapeRatio(num, p.envelope, Div(num, s.offset, parent.length), p.leafDistrib);
      assert p.leaves != IntMin && p.leafQuality >= 0.0 && sr >= 0.0 ==>
        Abs(p.leaves) as real * sr * p.leafQuality >= 0.0 by {
        if p.leaves != IntMin && p.leafQuality >= 0.0 && sr >= 0.0 {
          MulNonNegative(Abs(p.leaves) as real, sr);
          MulNonNegative(Abs(p.leaves) as real * sr, p.leafQuality);
        }
      }
      Abs(p.leaves) as real * sr * p.leafQuality
  }

  /** The substems per segment: the count spread over the segments, for
      the trunk over the part above its bare base only. */
  function SubstemsPerSegment(num: Numerics, p: TreeParams, s: Stem, count: real): (r: real)
    ensures s.level == 0 && s.segmentCount > 0 && p.baseSize < 1.0 ==>
      r * s.segmentCount as real * (1.0 - p.baseSize) == count
    ensures s.level != 0 && s.segmentCount > 0 ==> r * s.segmentCount as real == count
  {
    var n := s.segmentCount as real;
    assert s.segmentCount > 0 && s.level != 0 ==> count / n * n == count by {
      if s.segmentCount > 0 && s.level != 0 {
        DivMulCancel(count, n);
      }
    }
    assert s.segmentCount > 0 && s.level == 0 && p.baseSize < 1.0 ==>
      count / n / (1.0 - p.baseSize) * n * (1.0 - p.baseSize) == count by {
      if s.segmentCount > 0 && s.level == 0 && p.baseSize < 1.0 {
        var r := count / n / (1.0 - p.baseSize);
        DivMulCancel(count, n);
        DivMulCancel(count / n, 1.0 - p.baseSize);
        assert r * n * (1.0 - p.baseSize) == r * (1.0 - p.baseSize) * n;
      }
    }
    if s.level == 0 then Div(num, Div(num, count, n), 1.0 - p.baseSize)
    else Div(num, count, n)
  }

  /** The leaves per segment: on the last level the stem's leaves spread
      over its segments, on other levels left as they are. */
  function LeavesPerSegment(num: Numerics, p: TreeParams, s: Stem, parent: Stem): (r: real)
    requires IsInt32(p.leaves)
    ensures s.level == p.levels - 1 && s.segmentCount > 0 ==>
      r * s.segmentCount as real == LeavesPerBranch(num, p, s, parent)
    ensures s.level != p.levels - 1 ==> r == s.leavesPerSegment
  {
    var n := s.segmentCount as real;
    if s.level == p.levels - 1 then
      var total := LeavesPerBranch(num, p, s, parent);
      assert s.segmentCount > 0 ==> total / n * n == total by {
        if s.segmentCount > 0 {
          DivMulCancel(total, n);
        }
      }
      Div(num, total, n)
    else s.leavesPerSegment
  }

  /** prepareSubstemParams: the maximal child length (next level's nLength
      +- nLengthV), the substems per segment (the trunk spreads its count
      over the part above the bare base only), the substem rotation reset to
      0 and, on the last level, the leaves per segment. */
  function PrepareSubstemParams(num: Numerics, p: TreeParams, lp1: LevelParams, s: Stem, parent: Stem, draw: real)
    : (r: Stem)
    requires -1.0 <= draw <= 1.0 && IsInt32(p.leaves)
    ensures lp1.nLengthV >= 0.0 ==> lp1.nLength - lp1.nLengthV <= r.lengthChildMax <= lp1.nLength + lp1.nLengthV
    ensures s.level == 0 && s.segmentCount > 0 && p.baseSize < 1.0 ==>
      r.substemsPerSegment * s.segmentCount as real * (1.0 - p.baseSize) == lp1.nBranches as real
    ensures s.level != 0 && s.segmentCount > 0 ==>
      r.substemsPerSegment * s.segmentCount as real == SubstemCount(num, p, lp1, s, parent)
    ensures r.substemRotangle == 0.0
    ensures s.level == p.levels - 1 && s.segmentCount > 0 ==>
      r.leavesPerSegment * s.segmentCount as real == LeavesPerBranch(num, p, s, parent)
    ensures s.level != p.levels - 1 ==> r.leavesPerSegment == s.leavesPerSegment
    ensures r == s.(lengthChildMax := r.lengthChildMax, substemsPerSegment := r.substemsPerSegment,
                    substemRotangle := 0.0, leavesPerSegment := r.leavesPerSegment)
  {
    var count := SubstemCount(num, p, lp1, s, parent);
    var perSegment := SubstemsPerSegment(num, p, s, count);
    var leaves := LeavesPerSegment(num, p, s, parent);
    s.(lengthChildMax := lp1.nLength + Var(lp1.nLengthV, draw),
       substemsPerSegment := perSegment, substemRotangle := 0.0, leavesPerSegment := leaves)
  }
}

=== FILE: stem_tree.dfy ===
/** The operations of StemImpl that walk the tree of stems: the position
    string, the bounding boxes, the visitor traversal, the recursive
    substem count and the number of sections below a segment. */
module StemTree {
  import opened Wrappers
  import opened Decimal
  import opened Geometry
  import opened Stems

  // ---------------------------------------------------------------------
  // getTreePosition

  /** How many dots a string holds. */
  function DotCount(s: string): nat {
    if |s| == 0 then 0 else DotCount(s[..|s| - 1]) + (if s[|s| - 1] == '.' then 1 else 0)
  }

  lemma {:induction false} DotCountAppend(a: string, b: string)
    ensures DotCount(a + b) == DotCount(a) + DotCount(b)
    decreases |b|
  {
    if |b| == 0 {
      assert a + b == a;
    } else {
      assert (a + b)[..|a + b| - 1] == a + b[..|b| - 1];
      DotCountAppend(a, b[..|b| - 1]);
    }
  }

  lemma {:induction false} NoDotCount(s: string)
    requires forall k :: 0 <= k < |s| ==> s[k] != '.'
    ensures DotCount(s) == 0
    decreases |s|
  {
    if |s| > 0 {
      NoDotCount(s[..|s| - 1]);
    }
  }

  /** A clone-index path written as "c" and the number for each entry. */
  function CloneSuffix(path: seq<int>): (s: string)
    ensures forall k :: 0 <= k < |s| ==> s[k] != '.'
  {
    if |path| == 0 then "" else CloneSuffix(path[..|path| - 1]) + "c" + IntToString(path[|path| - 1])
  }

  /** One component of a tree position: the stem's index followed by its
      clone-index path. */
  function Component(s: Stem): (c: string)
    ensures |c| >= 1 && forall k :: 0 <= k < |c| ==> c[k] != '.'
  {
    IntToString(s.index) + CloneSuffix(s.cloneIndex)
  }

  /** The loop of getTreePosition: walking from the stem down its parents
      to the trunk, each stem's component and a dot are put in front. */
  function PositionLoop(arena: seq<Stem>, i: nat, lev: int): (s: string)
    requires Linked(arena) && i < |arena| && lev == arena[i].level
    ensures |s| >= 2 && s[|s| - 1] == '.'
    decreases lev
  {
    assert LinksBack(arena, i);
    var here := Component(arena[i]) + ".";
    if lev > 0 then PositionLoop(arena, arena[i].parent.value, lev - 1) + here else here
  }

  /** getTreePosition: the loop's string without its final dot. */
  function TreePosition(arena: seq<Stem>, i: nat): (p: string)
    requires Linked(arena) && i < |arena|
  {
    var s := PositionLoop(arena, i, arena[i].level);
    if s[|s| - 1] == '.' then s[..|s| - 1] else s
  }

  /** A trunk-level stem's position is its own component; any other
      stem's is its parent's position, a dot and its own component. So a
      position lists one component per level from the trunk down, joined
      by dots. */
  lemma PositionExtendsParent(arena: seq<Stem>, i: nat)
    requires Linked(arena) && i < |arena|
    ensures arena[i].level == 0 ==> TreePosition(arena, i) == Component(arena[i])
    ensures arena[i].level > 0 ==>
      (arena[i].parent.Some? && arena[i].parent.value < i
       && TreePosition(arena, i) == TreePosition(arena, arena[i].parent.value) + "." + Component(arena[i]))
  {
    assert LinksBack(arena, i);
    var c := Component(arena[i]);
    var s := PositionLoop(arena, i, arena[i].level);
    assert TreePosition(arena, i) == s[..|s| - 1];
    if arena[i].level > 0 {
      var g := arena[i].parent.value;
      var up := PositionLoop(arena, g, arena[g].level);
      assert s == up + (c + ".") by { assert arena[g].level == arena[i].level - 1; }
      assert TreePosition(arena, g) == up[..|up| - 1];
      TrimJoin(up, c, s, TreePosition(arena, g), TreePosition(arena, i));
    } else {
      assert s == "" + (c + ".");
      TrimAfter("", c);
    }
  }

  /** The string side of PositionExtendsParent: trimming the final dot of
      up + c + "." joins up (itself trimmed) and c with a dot. */
  lemma TrimJoin(up: string, c: string, s: string, tg: string, ti: string)
    requires |up| > 0 && up[|up| - 1] == '.'
    requires s == up + (c + ".") && tg == up[..|up| - 1] && ti == s[..|s| - 1]
    ensures ti == tg + "." + c
  {
    TrimAfter(up, c);
  }

  /** Dropping the final dot of up + c + "." leaves up's dot in place. */
  lemma TrimAfter(up: string, c: string)
    ensures var s := up + (c + "."); s[..|s| - 1] == up + c
    ensures |up| > 0 && up[|up| - 1] == '.' ==>
      var s := up + (c + "."); s[..|s| - 1] == up[..|up| - 1] + "." + c
  {
    var s := up + (c + ".");
    assert s[..|s| - 1] == up + c;
    if |up| > 0 && up[|up| - 1] == '.' {
      assert up == up[..|up| - 1] + ".";
    }
  }

  /** A position holds exactly as many dots as the stem's level. */
  lemma {:induction false} PositionDots(arena: seq<Stem>, i: nat)
    requires Linked(arena) && i < |arena|
    ensures DotCount(TreePosition(arena, i)) == arena[i].level
    decreases i
  {
    PositionExtendsParent(arena, i);
    var c := Component(arena[i]);
    NoDotCount(c);
    assert LinksBack(arena, i);
    if arena[i].level > 0 {
      var g := arena[i].parent.value;
      PositionDots(arena, g);
      var up := TreePosition(arena, g);
      assert TreePosition(arena, i) == up + "." + c;
      DotCountAppend(up + ".", c);
      DotCountAppend(up, ".");
      assert DotCount(".") == 1 by {
        assert "."[..0] == "";
      }
      assert DotCount(TreePosition(arena, i)) == DotCount(up) + 1 + DotCount(c);
      assert DotCount(up) == arena[g].level && arena[g].level == arena[i].level - 1;
    } else {
      assert arena[i].level == 0 && TreePosition(arena, i) == c;
    }
  }

  /** A clone's position is the position of the stem it was cloned from
      with "c" and its clone number appended: both share the parent and the
      index, and the clone's path extends the other's by that number. */
  lemma ClonePosition(arena: seq<Stem>, o: nat, c: nat)
    requires Linked(arena) && o < |arena| && c < |arena|
    requires arena[c].parent == arena[o].parent && arena[c].level == arena[o].level
    requires arena[c].index == arena[o].index
    requires |arena[c].cloneIndex| > 0 && arena[c].cloneIndex[..|arena[c].cloneIndex| - 1] == arena[o].cloneIndex
    ensures TreePosition(arena, c)
      == TreePosition(arena, o) + ("c" + IntToString(arena[c].cloneIndex[|arena[c].cloneIndex| - 1]))
  {
    var k := arena[c].cloneIndex[|arena[c].cloneIndex| - 1];
    var tail := "c" + IntToString(k);
    var co := Component(arena[o]);
    var cc := Component(arena[c]);
    CloneComponent(arena[o], arena[c]);
    PositionExtendsParent(arena, o);
    PositionExtendsParent(arena, c);
    if arena[o].level > 0 {
      SameParentPositions(TreePosition(arena, c), TreePosition(arena, o),
                          TreePosition(arena, arena[o].parent.value), cc, co, tail);
    }
  }

  lemma SameParentPositions(pc: string, po: string, up: string, cc: string, co: string, tail: string)
    requires pc == up + "." + cc && po == up + "." + co && cc == co + tail
    ensures pc == po + tail
  {
  }

  /** The component of a clone extends that of the stem it was cloned
      from by "c" and its clone number. */
  lemma CloneComponent(o: Stem, c: Stem)
    requires c.index == o.index
    requires |c.cloneIndex| > 0 && c.cloneIndex[..|c.cloneIndex| - 1] == o.cloneIndex
    ensures Component(c) == Component(o) + ("c" + IntToString(c.cloneIndex[|c.cloneIndex| - 1]))
  {
    var tail := "c" + IntToString(c.cloneIndex[|c.cloneIndex| - 1]);
    assert CloneSuffix(c.cloneIndex) == CloneSuffix(o.cloneIndex) + tail;
  }

  // ---------------------------------------------------------------------
  // minMaxTest

  /** Stem j is reached from stem i by following clonedFrom and parent
      links (i itself included). */
  ghost predicate Reaches(arena: seq<Stem>, i: nat, j: nat)
    requires i < |arena|
    decreases i
  {
    j == i
    || (arena[i].clonedFrom.Some? && arena[i].clonedFrom.value < i && Reaches(arena, arena[i].clonedFrom.value, j))
    || (arena[i].parent.Some? && arena[i].parent.value < i && Reaches(arena, arena[i].parent.value, j))
  }

  lemma {:induction false} ReachesBelow(arena: seq<Stem>, i: nat, j: nat)
    requires i < |arena| && Reaches(arena, i, j)
    ensures j <= i
    decreases i
  {
    if j != i {
      if arena[i].clonedFrom.Some? && arena[i].clonedFrom.value < i && Reaches(arena, arena[i].clonedFrom.value, j) {
        ReachesBelow(arena, arena[i].clonedFrom.value, j);
      } else {
        ReachesBelow(arena, arena[i].parent.value, j);
      }
    }
  }

  /** Reaching depends on the links alone. */
  lemma {:induction false} ReachesSameLinks(a: seq<Stem>, b: seq<Stem>, i: nat, j: nat)
    requires |a| == |b| && i < |a|
    requires forall k :: 0 <= k < |a| ==> a[k].parent == b[k].parent && a[k].clonedFrom == b[k].clonedFrom
    ensures Reaches(a, i, j) == Reaches(b, i, j)
    decreases i
  {
    if a[i].clonedFrom.Some? && a[i].clonedFrom.value < i {
      ReachesSameLinks(a, b, a[i].clonedFrom.value, j);
    }
    if a[i].parent.Some? && a[i].parent.value < i {
      ReachesSameLinks(a, b, a[i].parent.value, j);
    }
  }

  /** `after` is `before` with the box of every stem reached from i (and
      of no other stem) widened by pt. */
  ghost predicate WidenedFrom(before: seq<Stem>, after: seq<Stem>, i: nat, pt: Vec3)
    requires i < |before|
  {
    |after| == |before|
    && forall j :: 0 <= j < |before| ==>
         after[j] == before[j].(box := if Reaches(before, i, j) then Widen(before[j].box, pt) else before[j].box)
  }

  /** minMaxTest: the stem's box, and those of the stem it was cloned from
      and of its parent, recursively, and finally the tree's box are widened
      by pt. Every stem reached that way ends up with its box widened by pt
      exactly once (widening twice changes nothing), and no other stem
      changes. */
  function MinMaxTest(arena: seq<Stem>, tree: Box, i: nat, pt: Vec3): (r: (seq<Stem>, Box))
    requires Linked(arena) && i < |arena|
    ensures WidenedFrom(arena, r.0, i, pt)
    ensures r.1 == Widen(tree, pt)
    decreases i
  {
    var s := arena[i];
    assert LinksBack(arena, i);
    var a1 := arena[i := s.(box := Widen(s.box, pt))];
    ReplaceKeepsLinked(arena, i, a1[i]);
    var r2 := if s.clonedFrom.Some? then MinMaxTest(a1, tree, s.clonedFrom.value, pt) else (a1, tree);
    assert Linked(r2.0) && |r2.0| == |arena| && r2.1 == (if s.clonedFrom.Some? then Widen(tree, pt) else tree) by {
      if s.clonedFrom.Some? {
        BoxesOnlyKeepLinked(a1, r2.0, s.clonedFrom.value, pt);
      }
    }
    var r3 := if s.parent.Some? then MinMaxTest(r2.0, r2.1, s.parent.value, pt) else (r2.0, Widen(r2.1, pt));
    MinMaxTestSteps(arena, tree, i, pt, a1, r2, r3);
    r3
  }

  /** Widening boxes keeps the links, so the arena stays linked. */
  lemma BoxesOnlyKeepLinked(a: seq<Stem>, b: seq<Stem>, i: nat, pt: Vec3)
    requires Linked(a) && i < |a| && WidenedFrom(a, b, i, pt)
    ensures Linked(b)
  {
    forall j | 0 <= j < |b|
      ensures LinksBack(b, j) && LinksForward(b, j)
    {
      assert LinksBack(a, j) && LinksForward(a, j);
      assert b[j].level == a[j].level && b[j].parent == a[j].parent && b[j].clonedFrom == a[j].clonedFrom;
      assert b[j].substems == a[j].substems && b[j].clones == a[j].clones;
      if b[j].parent.Some? {
        assert b[b[j].parent.value].level == a[b[j].parent.value].level;
      }
      if b[j].clonedFrom.Some? {
        var c := b[j].clonedFrom.value;
        assert b[c].level == a[c].level && b[c].parent == a[c].parent;
      }
      forall k | 0 <= k < |b[j].substems|
        ensures b[b[j].substems[k]].parent == Some(j)
      {
        assert b[b[j].substems[k]].parent == a[b[j].substems[k]].parent;
      }
      forall k | 0 <= k < |b[j].clones|
        ensures b[b[j].clones[k]].clonedFrom == Some(j)
      {
        assert b[b[j].clones[k]].clonedFrom == a[b[j].clones[k]].clonedFrom;
      }
    }
  }

  /** The three steps of minMaxTest together widen exactly the stems
      reached from i. */
  lemma MinMaxTestSteps(arena: seq<Stem>, tree: Box, i: nat, pt: Vec3,
                        a1: seq<Stem>, r2: (seq<Stem>, Box), r3: (seq<Stem>, Box))
    requires Linked(arena) && i < |arena| && LinksBack(arena, i)
    requires a1 == arena[i := arena[i].(box := Widen(arena[i].box, pt))]
    requires arena[i].clonedFrom.Some? ==> WidenedFrom(a1, r2.0, arena[i].clonedFrom.value, pt) && r2.1 == Widen(tree, pt)
    requires arena[i].clonedFrom.None? ==> r2 == (a1, tree)
    requires arena[i].parent.Some? ==>
      (|r2.0| == |arena| && WidenedFrom(r2.0, r3.0, arena[i].parent.value, pt) && r3.1 == Widen(r2.1, pt))
    requires arena[i].parent.None? ==> r3 == (r2.0, Widen(r2.1, pt))
    ensures WidenedFrom(arena, r3.0, i, pt)
    ensures r3.1 == Widen(tree, pt)
  {
    var s := arena[i];
    assert |r2.0| == |arena|;
    forall k | 0 <= k < |arena|
      ensures r2.0[k].parent == arena[k].parent && r2.0[k].clonedFrom == arena[k].clonedFrom
    {
    }
    forall j | 0 <= j < |arena|
      ensures r3.0[j] == arena[j].(box := if Reaches(arena, i, j) then Widen(arena[j].box, pt) else arena[j].box)
    {
      var viaClone := s.clonedFrom.Some? && Reaches(arena, s.clonedFrom.value, j);
      var viaParent := s.parent.Some? && Reaches(arena, s.parent.value, j);
      if s.clonedFrom.Some? {
        ReachesSameLinks(a1, arena, s.clonedFrom.value, j);
        if viaClone {
          ReachesBelow(arena, s.clonedFrom.value, j);
        }
      }
      if s.parent.Some? {
        ReachesSameLinks(r2.0, arena, s.parent.value, j);
        if viaParent {
          ReachesBelow(arena, s.parent.value, j);
        }
      }
      assert r2.0[j] == arena[j].(box := if j == i || viaClone then Widen(arena[j].box, pt) else arena[j].box);
      WidenIdempotent(arena[j].box, pt);
    }
    WidenIdempotent(tree, pt);
  }

  // ---------------------------------------------------------------------
  // traverseTree

  /** What a traversal reports to its visitor, in order. */
  datatype Event = Enter(stem: nat) | VisitLeaf(stem: nat, leaf: nat) | Leave(stem: nat)

  /** A TreeTraversal: each answer may depend on everything reported
      before. A leaf's answer is the visitor's answer for that leaf. */
  datatype Visitor = Visitor(
    enter: (seq<Event>, nat) -> bool,
    visitLeaf: (seq<Event>, nat, nat) -> bool,
    leave: (seq<Event>, nat) -> bool)

  /** traverseTree on stem i after the events `before`: the events it
      reports and its answer. It enters the stem; if the visitor lets it
      in, it goes through the leaves, then the substems, then the clones,
      each list stopping at the first child that answers false; it always
      leaves the stem last and answers what the visitor answers to that. */
  function Traverse(arena: seq<Stem>, v: Visitor, i: nat, before: seq<Event>): (r: (seq<Event>, bool))
    requires Linked(arena) && i < |arena|
    ensures |r.0| >= 2 && r.0[0] == Enter(i) && r.0[|r.0| - 1] == Leave(i)
    ensures r.1 == v.leave(before + r.0[..|r.0| - 1], i)
    ensures !v.enter(before, i) ==> r.0 == [Enter(i), Leave(i)]
    decreases |arena| - i, 2
  {
    var entered := before + [Enter(i)];
    if !v.enter(before, i) then
      assert [Enter(i), Leave(i)][..1] == [Enter(i)];
      ([Enter(i), Leave(i)], v.leave(entered, i))
    else
      assert LinksForward(arena, i);
      var ls := TraverseLeaves(v, i, |arena[i].leaves|, 0, entered);
      var ss := TraverseKids(arena, v, i, arena[i].substems, 0, entered + ls);
      var cs := TraverseKids(arena, v, i, arena[i].clones, 0, entered + ls + ss);
      var body := [Enter(i)] + ls + ss + cs;
      assert before + body == entered + ls + ss + cs;
      (body + [Leave(i)], v.leave(before + body, i))
  }

  /** The leaf loop: leaves k, k + 1, ... of stem i until one answers
      false. */
  function TraverseLeaves(v: Visitor, i: nat, n: nat, k: nat, before: seq<Event>): (r: seq<Event>)
    ensures |r| <= n - k || (k >= n && r == [])
    ensures forall m :: 0 <= m < |r| ==> r[m] == VisitLeaf(i, k + m)
    decreases n - k
  {
    if k >= n then []
    else if v.visitLeaf(before, i, k) then [VisitLeaf(i, k)] + TraverseLeaves(v, i, n, k + 1, before + [VisitLeaf(i, k)])
    else [VisitLeaf(i, k)]
  }

  /** A child loop: children j, j + 1, ... of stem i until one answers
      false. */
  function TraverseKids(arena: seq<Stem>, v: Visitor, i: nat, kids: seq<nat>, j: nat, before: seq<Event>): (r: seq<Event>)
    requires Linked(arena) && i < |arena|
    requires forall k :: 0 <= k < |kids| ==> i < kids[k] < |arena|
    decreases |arena| - i, 1, |kids| - j
  {
    if j >= |kids| then []
    else
      var t := Traverse(arena, v, kids[j], before);
      if t.1 then t.0 + TraverseKids(arena, v, i, kids, j + 1, before + t.0) else t.0
  }

  /** How many stems a list of events enters and how many it leaves. */
  function Enters(es: seq<Event>): nat {
    if |es| == 0 then 0 else Enters(es[..|es| - 1]) + (if es[|es| - 1].Enter? then 1 else 0)
  }

  function Leaves(es: seq<Event>): nat {
    if |es| == 0 then 0 else Leaves(es[..|es| - 1]) + (if es[|es| - 1].Leave? then 1 else 0)
  }

  lemma {:induction false} CountsAppend(a: seq<Event>, b: seq<Event>)
    ensures Enters(a + b) == Enters(a) + Enters(b) && Leaves(a + b) == Leaves(a) + Leaves(b)
    decreases |b|
  {
    if |b| == 0 {
      assert a + b == a;
    } else {
      assert (a + b)[..|a + b| - 1] == a + b[..|b| - 1];
      CountsAppend(a, b[..|b| - 1]);
    }
  }

  lemma {:induction false} LeafEventsCount(v: Visitor, i: nat, n: nat, k: nat, before: seq<Event>)
    ensures Enters(TraverseLeaves(v, i, n, k, before)) == 0 && Leaves(TraverseLeaves(v, i, n, k, before)) == 0
    decreases n - k
  {
    if k < n {
      var r := TraverseLeaves(v, i, n, k, before);
      if v.visitLeaf(before, i, k) {
        LeafEventsCount(v, i, n, k + 1, before + [VisitLeaf(i, k)]);
        CountsAppend([VisitLeaf(i, k)], TraverseLeaves(v, i, n, k + 1, before + [VisitLeaf(i, k)]));
      }
      assert Enters([VisitLeaf(i, k)]) == 0 && Leaves([VisitLeaf(i, k)]) == 0 by {
        assert [VisitLeaf(i, k)][..0] == [];
      }
    }
  }

  /** Every traversal leaves each stem it enters: the events of a
      traversal are balanced, whatever the visitor answers. */
  lemma {:induction false} TraverseBalanced(arena: seq<Stem>, v: Visitor, i: nat, before: seq<Event>)
    requires Linked(arena) && i < |arena|
    ensures Enters(Traverse(arena, v, i, before).0) == Leaves(Traverse(arena, v, i, before).0)
    decreases |arena| - i, 2
  {
    var r := Traverse(arena, v, i, before).0;
    var entered := before + [Enter(i)];
    assert Enters([Enter(i)]) == 1 && Leaves([Enter(i)]) == 0 by { assert [Enter(i)][..0] == []; }
    assert Enters([Leave(i)]) == 0 && Leaves([Leave(i)]) == 1 by { assert [Leave(i)][..0] == []; }
    if !v.enter(before, i) {
      CountsAppend([Enter(i)], [Leave(i)]);
      assert r == [Enter(i)] + [Leave(i)];
    } else {
      assert LinksForward(arena, i);
      var ls := TraverseLeaves(v, i, |arena[i].leaves|, 0, entered);
      var ss := TraverseKids(arena, v, i, arena[i].substems, 0, entered + ls);
      var cs := TraverseKids(arena, v, i, arena[i].clones, 0, entered + ls + ss);
      LeafEventsCount(v, i, |arena[i].leaves|, 0, entered);
      KidsBalanced(arena, v, i, arena[i].substems, 0, entered + ls);
      KidsBalanced(arena, v, i, arena[i].clones, 0, entered + ls + ss);
      CountsAppend([Enter(i)], ls);
      CountsAppend([Enter(i)] + ls, ss);
      CountsAppend([Enter(i)] + ls + ss, cs);
      CountsAppend([Enter(i)] + ls + ss + cs, [Leave(i)]);
      assert r == [Enter(i)] + ls + ss + cs + [Leave(i)];
    }
  }

  lemma {:induction false} KidsBalanced(arena: seq<Stem>, v: Visitor, i: nat, kids: seq<nat>, j: nat, before: seq<Event>)
    requires Linked(arena) && i < |arena|
    requires forall k :: 0 <= k < |kids| ==> i < kids[k] < |arena|
    ensures Enters(TraverseKids(arena, v, i, kids, j, before)) == Leaves(TraverseKids(arena, v, i, kids, j, before))
    decreases |arena| - i, 1, |kids| - j
  {
    if j < |kids| {
      var t := Traverse(arena, v, kids[j], before);
      TraverseBalanced(arena, v, kids[j], before);
      if t.1 {
        KidsBalanced(arena, v, i, kids, j + 1, before + t.0);
        CountsAppend(t.0, TraverseKids(arena, v, i, kids, j + 1, before + t.0));
      }
    }
  }

  // ---------------------------------------------------------------------
  // substemTotal

  /** substemTotal: the substems of stem i, their substems and so on;
      clones and their substems are not counted. */
  function SubstemTotal(arena: seq<Stem>, i: nat): (n: nat)
    requires Linked(arena) && i < |arena|
    ensures n >= |arena[i].substems|
    decreases |arena| - i, 1
  {
    assert LinksForward(arena, i);
    |arena[i].substems| + KidsTotal(arena, i, arena[i].substems, 0)
  }

  /** The substem totals of children j, j + 1, ... of stem i. */
  function KidsTotal(arena: seq<Stem>, i: nat, kids: seq<nat>, j: nat): nat
    requires Linked(arena) && i < |arena|
    requires forall k :: 0 <= k < |kids| ==> i < kids[k] < |arena|
    decreases |arena| - i, 0, |kids| - j
  {
    if j >= |kids| then 0 else SubstemTotal(arena, kids[j]) + KidsTotal(arena, i, kids, j + 1)
  }

  /** A visitor that answers true to everything. */
  ghost predicate AlwaysOn(v: Visitor) {
    (forall t, i :: v.enter(t, i)) && (forall t, i, k :: v.visitLeaf(t, i, k)) && (forall t, i :: v.leave(t, i))
  }

  /** In a tree without clones, a traversal by a visitor that answers true
      to everything enters the stem and every stem substemTotal counts
      below it. */
  lemma {:induction false} FullTraversalEntersSubstems(arena: seq<Stem>, v: Visitor, i: nat, before: seq<Event>)
    requires Linked(arena) && i < |arena| && AlwaysOn(v)
    requires forall k :: 0 <= k < |arena| ==> arena[k].clones == []
    ensures Enters(Traverse(arena, v, i, before).0) == 1 + SubstemTotal(arena, i)
    decreases |arena| - i, 2
  {
    assert LinksForward(arena, i);
    var entered := before + [Enter(i)];
    var ls := TraverseLeaves(v, i, |arena[i].leaves|, 0, entered);
    var ss := TraverseKids(arena, v, i, arena[i].substems, 0, entered + ls);
    FullTraversalEvents(arena, v, i, before);
    LeafEventsCount(v, i, |arena[i].leaves|, 0, entered);
    FullKidsEnter(arena, v, i, arena[i].substems, 0, entered + ls);
    assert Enters([Enter(i)]) == 1 by { assert [Enter(i)][..0] == []; }
    assert Enters([Leave(i)]) == 0 by { assert [Leave(i)][..0] == []; }
    CountsAppend([Enter(i)], ls);
    CountsAppend([Enter(i)] + ls, ss);
    CountsAppend([Enter(i)] + ls + ss, [Leave(i)]);
  }

  /** With a visitor that answers true to everything and no clones, the
      traversal of stem i is its entry, its leaves, its substems' traversals
      and its exit. */
  lemma FullTraversalEvents(arena: seq<Stem>, v: Visitor, i: nat, before: seq<Event>)
    requires Linked(arena) && i < |arena| && AlwaysOn(v)
    requires arena[i].clones == [] && LinksForward(arena, i)
    ensures var entered := before + [Enter(i)];
            var ls := TraverseLeaves(v, i, |arena[i].leaves|, 0, entered);
            Traverse(arena, v, i, before).0
              == [Enter(i)] + ls + TraverseKids(arena, v, i, arena[i].substems, 0, entered + ls) + [Leave(i)]
  {
    assert v.enter(before, i);
    var entered := before + [Enter(i)];
    var ls := TraverseLeaves(v, i, |arena[i].leaves|, 0, entered);
    var ss := TraverseKids(arena, v, i, arena[i].substems, 0, entered + ls);
    assert TraverseKids(arena, v, i, arena[i].clones, 0, entered + ls + ss) == [];
  }

  lemma {:induction false} FullKidsEnter(arena: seq<Stem>, v: Visitor, i: nat, kids: seq<nat>, j: nat, before: seq<Event>)
    requires Linked(arena) && i < |arena| && AlwaysOn(v)
    requires forall k :: 0 <= k < |arena| ==> arena[k].clones == []
    requires forall k :: 0 <= k < |kids| ==> i < kids[k] < |arena|
    requires j <= |kids|
    ensures Enters(TraverseKids(arena, v, i, kids, j, before)) == (|kids| - j) + KidsTotal(arena, i, kids, j)
    decreases |arena| - i, 1, |kids| - j
  {
    if j < |kids| {
      var t := Traverse(arena, v, kids[j], before);
      assert t.1;
      FullTraversalEntersSubstems(arena, v, kids[j], before);
      FullKidsEnter(arena, v, i, kids, j + 1, before + t.0);
      CountsAppend(t.0, TraverseKids(arena, v, i, kids, j + 1, before + t.0));
    }
  }

  // ---------------------------------------------------------------------
  // getSectionCountBelow

  /** How many of the first segments lie below segment number `index`:
      the loop stops at the first segment whose number is not below. */
  function BelowPrefix(segs: seq<Segment>, index: int): (n: nat)
    ensures n <= |segs| && (forall k :: 0 <= k < n ==> segs[k].index < index)
    ensures n < |segs| ==> segs[n].index >= index
    decreases |segs|
  {
    if |segs| == 0 || segs[0].index >= index then 0 else 1 + BelowPrefix(segs[1..], index)
  }

  /** The sections (subsegments) of a run of segments. */
  function Sections(segs: seq<Segment>): nat {
    if |segs| == 0 then 0 else Sections(segs[..|segs| - 1]) + segs[|segs| - 1].subsegments
  }

  /** getSectionCountBelow: the number of sections of the stem below
      segment number `index` — the sections of the segments before the
      first one numbered `index` or higher. */
  method SectionCountBelow(segs: seq<Segment>, index: int) returns (count: int)
    ensures count == Sections(segs[..BelowPrefix(segs, index)])
    ensures 0 <= count <= Sections(segs)
  {
    count := 1;
    var k := 0;
    var n := BelowPrefix(segs, index);
    while k < |segs|
      invariant 0 <= k <= n
      invariant count == 1 + Sections(segs[..k])
    {
      if segs[k].index < index {
        assert segs[..k + 1][..k] == segs[..k];
        count := count + segs[k].subsegments;
      } else {
        SectionsPrefix(segs, k);
        return count - 1;
      }
      k := k + 1;
    }
    assert segs[..k] == segs;
    SectionsPrefix(segs, k);
    count := count - 1;
  }

  lemma {:induction false} SectionsPrefix(segs: seq<Segment>, k: nat)
    requires k <= |segs|
    ensures Sections(segs[..k]) <= Sections(segs)
    decreases |segs|
  {
    if k < |segs| {
      assert segs[..|segs| - 1][..k] == segs[..k];
      SectionsPrefix(segs[..|segs| - 1], k);
    } else {
      assert segs[..k] == segs;
    }
  }
}

=== FILE: stems.dfy ===
/** The stem record (StemImpl's fields) and the arena the stems of one tree
    live in. A stem refers to its parent, the stem it was cloned from, its
    substems and its clones by position in the arena; a stem is always
    added after the stems it refers back to. */
module Stems {
  import opened Wrappers
  import opened Geometry

  /** Stems shorter than this are not created (MIN_STEM_LEN). */
  const MinStemLen: real := 0.00001
  /** Stems thinner than this are not created (MIN_STEM_RADIUS). */
  const MinStemRadius: real := MinStemLen / 10.0

  /** A segment: its number within the stem, its transformation, the radii
      at its two ends, and how many subsegments (mesh sections) it holds. */
  datatype Segment = Segment(index: int, transf: Transform, rad1: real, rad2: real, subsegments: nat)

  datatype Leaf = Leaf(transf: Transform)

  datatype Stem = Stem(
    level: int,
    parent: Option<nat>,
    clonedFrom: Option<nat>,
    transf: Transform,
    offset: real,
    length: real,
    segmentLength: real,
    segmentCount: int,
    baseRadius: real,
    lengthChildMax: real,
    substemsPerSegment: real,
    substemRotangle: real,
    leavesPerSegment: real,
    splitCorrection: real,
    pruneTest: bool,
    index: int,
    cloneIndex: seq<int>,
    segments: seq<Segment>,
    clones: seq<nat>,
    substems: seq<nat>,
    leaves: seq<Leaf>,
    box: Box)

  predicate IsClone(s: Stem) {
    |s.cloneIndex| > 0
  }

  /** The links of stem i point back to earlier stems: the parent is one
      level up, the stem it was cloned from is on the same level with the
      same parent, the trunk level has no parent and every other level has
      one. */
  predicate LinksBack(arena: seq<Stem>, i: nat)
    requires i < |arena|
  {
    var s := arena[i];
    0 <= s.level
    && (s.parent.None? <==> s.level == 0)
    && (s.parent.Some? ==> s.parent.value < i && arena[s.parent.value].level == s.level - 1)
    && (s.clonedFrom.Some? ==>
          s.clonedFrom.value < i && arena[s.clonedFrom.value].level == s.level
          && arena[s.clonedFrom.value].parent == s.parent)
  }

  /** The child lists of stem i point forward, to stems that name i as
      their parent (substems) or as the stem they were cloned from. */
  predicate LinksForward(arena: seq<Stem>, i: nat)
    requires i < |arena|
  {
    var s := arena[i];
    (forall k :: 0 <= k < |s.substems| ==>
       i < s.substems[k] < |arena| && arena[s.substems[k]].parent == Some(i))
    && (forall k :: 0 <= k < |s.clones| ==>
          i < s.clones[k] < |arena| && arena[s.clones[k]].clonedFrom == Some(i))
  }

  predicate Linked(arena: seq<Stem>) {
    forall i :: 0 <= i < |arena| ==> LinksBack(arena, i) && LinksForward(arena, i)
  }

  /** The StemImpl constructor: a stem grown out of a stem of a lower level
      has that stem as parent; one grown out of a stem of the same (or a
      higher) level is its clone and shares its parent. Every count, length
      and list starts empty or zero and the box holds no point. */
  function NewStem(arena: seq<Stem>, growsOutOf: Option<nat>, level: int, trf: Transform, offset: real): (s: Stem)
    requires growsOutOf.Some? ==> growsOutOf.value < |arena|
    ensures s.level == level && s.transf == trf && s.offset == offset
    ensures s.clonedFrom.Some? <==> growsOutOf.Some? && arena[growsOutOf.value].level >= level
    ensures s.clonedFrom.Some? ==> s.clonedFrom == growsOutOf && s.parent == arena[growsOutOf.value].parent
    ensures s.clonedFrom.None? ==> s.parent == growsOutOf
    ensures s.parent.Some? && s.clonedFrom.None? ==> arena[s.parent.value].level < level
    ensures s.cloneIndex == [] && s.index == 0 && !s.pruneTest
    ensures s.segments == [] && s.clones == [] && s.substems == [] && s.leaves == []
    ensures s.box == EmptyBox
  {
    var links: (Option<nat>, Option<nat>) :=
      match growsOutOf
      case None => (None, None)
      case Some(g) => if arena[g].level < level then (Some(g), None) else (arena[g].parent, Some(g));
    Stem(level, links.0, links.1, trf, offset,
         0.0, 0.0, 0, 0.0, 0.0, 0.0, 0.0, 0.0, 0.0, false,
         0, [], [], [], [], [], EmptyBox)
  }

  /** clone: a stem with the same level, offset, geometry, split correction,
      prune flag and substem number as stem `o`, cloned from `o`, whose
      clone-index path is o's followed by the number of clones o has so
      far. Outside a prune test it also takes o's substem and leaf
      settings, with the substem rotation turned by 180 degrees. */
  function Clone(arena: seq<Stem>, o: nat, trf: Transform): (c: Stem)
    requires o < |arena|
    ensures c.clonedFrom == Some(o) && c.parent == arena[o].parent && c.level == arena[o].level
    ensures c.cloneIndex == arena[o].cloneIndex + [|arena[o].clones|] && IsClone(c)
    ensures c.index == arena[o].index && c.offset == arena[o].offset && c.transf == trf
    ensures c.length == arena[o].length && c.segmentLength == arena[o].segmentLength
    ensures c.segmentCount == arena[o].segmentCount && c.baseRadius == arena[o].baseRadius
    ensures c.splitCorrection == arena[o].splitCorrection && c.pruneTest == arena[o].pruneTest
    ensures !arena[o].pruneTest ==>
      c.lengthChildMax == arena[o].lengthChildMax && c.substemsPerSegment == arena[o].substemsPerSegment
      && c.substemRotangle == arena[o].substemRotangle + 180.0 && c.leavesPerSegment == arena[o].leavesPerSegment
    ensures arena[o].pruneTest ==>
      c.lengthChildMax == 0.0 && c.substemsPerSegment == 0.0 && c.substemRotangle == 0.0 && c.leavesPerSegment == 0.0
    ensures c.segments == [] && c.clones == [] && c.substems == [] && c.leaves == [] && c.box == EmptyBox
  {
    var s := arena[o];
    var c := NewStem(arena, Some(o), s.level, trf, s.offset);
    var c := c.(segmentLength := s.segmentLength, segmentCount := s.segmentCount, length := s.length,
                baseRadius := s.baseRadius, splitCorrection := s.splitCorrection, pruneTest := s.pruneTest,
                index := s.index, cloneIndex := s.cloneIndex + [|s.clones|]);
    if !s.pruneTest then
      c.(lengthChildMax := s.lengthChildMax, substemsPerSegment := s.substemsPerSegment,
         substemRotangle := s.substemRotangle + 180.0, leavesPerSegment := s.leavesPerSegment)
    else c
  }

  /** A stem created as a substem of stem g (one level deeper) or as a
      clone of g keeps the arena linked when it is added at the end and
      recorded in g's list of substems or clones. */
  lemma {:induction false} AddChildKeepsLinked(arena: seq<Stem>, g: nat, child: Stem)
    requires Linked(arena) && g < |arena|
    requires (child.parent == Some(g) && child.clonedFrom.None? && child.level == arena[g].level + 1)
          || (child.clonedFrom == Some(g) && child.parent == arena[g].parent && child.level == arena[g].level)
    requires child.substems == [] && child.clones == []
    ensures var n := |arena|;
            var g' := if child.clonedFrom.None? then arena[g].(substems := arena[g].substems + [n])
                      else arena[g].(clones := arena[g].clones + [n]);
            Linked(arena[g := g'] + [child])
  {
    var n := |arena|;
    var g' := if child.clonedFrom.None? then arena[g].(substems := arena[g].substems + [n])
              else arena[g].(clones := arena[g].clones + [n]);
    var a := arena[g := g'] + [child];
    forall i | 0 <= i < |a|
      ensures LinksBack(a, i) && LinksForward(a, i)
    {
      if i < n {
        assert LinksBack(arena, i) && LinksForward(arena, i);
        assert a[i].level == arena[i].level && a[i].parent == arena[i].parent && a[i].clonedFrom == arena[i].clonedFrom;
        if i == g {
          assert LinksForward(a, i);
        }
      } else {
        assert a[i] == child;
        assert LinksBack(arena, g);
        if child.clonedFrom.Some? && child.parent.Some? {
          assert a[child.parent.value].level == arena[child.parent.value].level;
        }
      }
    }
  }

  /** A child (substem or clone of g) appended to the arena and recorded
      in g's list; every earlier stem other than g is unchanged. */
  function AddChild(arena: seq<Stem>, g: nat, child: Stem): (a: seq<Stem>)
    requires Linked(arena) && g < |arena|
    requires (child.parent == Some(g) && child.clonedFrom.None? && child.level == arena[g].level + 1)
          || (child.clonedFrom == Some(g) && child.parent == arena[g].parent && child.level == arena[g].level)
    requires child.substems == [] && child.clones == []
    ensures Linked(a) && |a| == |arena| + 1 && a[|arena|] == child
    ensures forall i :: 0 <= i < |arena| && i != g ==> a[i] == arena[i]
    ensures child.clonedFrom.None? ==> a[g] == arena[g].(substems := arena[g].substems + [|arena|])
    ensures child.clonedFrom.Some? ==> a[g] == arena[g].(clones := arena[g].clones + [|arena|])
  {
    AddChildKeepsLinked(arena, g, child);
    var n := |arena|;
    var g' := if child.clonedFrom.None? then arena[g].(substems := arena[g].substems + [n])
              else arena[g].(clones := arena[g].clones + [n]);
    arena[g := g'] + [child]
  }

  /** Replacing a stem by one with the same level, links and child lists
      keeps the arena linked. */
  lemma {:induction false} ReplaceKeepsLinked(arena: seq<Stem>, i: nat, s: Stem)
    requires Linked(arena) && i < |arena|
    requires s.level == arena[i].level && s.parent == arena[i].parent && s.clonedFrom == arena[i].clonedFrom
    requires s.substems == arena[i].substems && s.clones == arena[i].clones
    ensures Linked(arena[i := s])
  {
    var a := arena[i := s];
    forall j | 0 <= j < |a|
      ensures LinksBack(a, j) && LinksForward(a, j)
    {
      assert LinksBack(arena, j) && LinksForward(arena, j);
      assert a[j].level == arena[j].level && a[j].parent == arena[j].parent && a[j].clonedFrom == arena[j].clonedFrom;
      if a[j].parent.Some? {
        assert a[a[j].parent.value].level == arena[a[j].parent.value].level;
      }
      if a[j].clonedFrom.Some? {
        var c := a[j].clonedFrom.value;
        assert a[c].level == arena[c].level && a[c].parent == arena[c].parent;
      }
    }
  }
}

=== FILE: string_indenter.dfy ===
/** The exporters' hierarchical indenter: an indent unit and a nesting
    level, rendered as the unit repeated once per level. */
module StringIndenter {
  import opened JavaNum

  datatype Indenter = Indenter(indent: string, level: int)

  /** A new indenter starts at level 0 and renders as the empty string. */
  function New(indent: string): (d: Indenter)
    ensures d.indent == indent && d.level == 0
    ensures GetIndent(d) == ""
  {
    Indenter(indent, 0)
  }

  /** `++indentLevel`: one level deeper; at the top of the int range the
      counter wraps to IntMin like any Java int. */
  function Increase(d: Indenter): (r: Indenter)
    requires IsInt32(d.level)
    ensures r.indent == d.indent && IsInt32(r.level)
    ensures d.level < IntMax ==> r.level == d.level + 1
    ensures d.level == IntMax ==> r.level == IntMin
  {
    d.(level := Wrap(d.level + 1))
  }

  /** One level shallower, but never below 0: at level 0 (or below, after a
      wrap) nothing changes. */
  function Decrease(d: Indenter): (r: Indenter)
    ensures r.indent == d.indent
    ensures 0 < d.level ==> r.level == d.level - 1
    ensures d.level <= 0 ==> r == d
    ensures d.level >= 0 ==> r.level >= 0
  {
    if 0 < d.level then d.(level := d.level - 1) else d
  }

  function Repeat(s: string, n: nat): string {
    if n == 0 then "" else s + Repeat(s, n - 1)
  }

  /** The indent unit repeated max(0, level) times: its length is
      |indent| * level, and character k is character k mod |indent| of
      the unit. */
  function GetIndent(d: Indenter): (r: string)
    ensures |r| == |d.indent| * MaxInt(0, d.level)
    ensures forall k :: 0 <= k < |r| ==> r[k] == d.indent[k % |d.indent|]
  {
    RepeatShape(d.indent, MaxInt(0, d.level));
    Repeat(d.indent, MaxInt(0, d.level))
  }

  lemma RepeatShape(s: string, n: nat)
    ensures |Repeat(s, n)| == |s| * n
    ensures forall k :: 0 <= k < |Repeat(s, n)| ==> Repeat(s, n)[k] == s[k % |s|]
  {
    RepeatLength(s, n);
    forall k | 0 <= k < |Repeat(s, n)|
      ensures Repeat(s, n)[k] == s[k % |s|]
    {
      RepeatAt(s, n, k);
    }
  }

  lemma {:induction false} RepeatLength(s: string, n: nat)
    ensures |Repeat(s, n)| == |s| * n
  {
    if n > 0 {
      RepeatLength(s, n - 1);
      assert |s| * n == |s| + |s| * (n - 1);
    }
  }

  /** Character k of the repetition is character k mod |s| of the unit. */
  lemma {:induction false} RepeatAt(s: string, n: nat, k: int)
    requires 0 <= k < |s| * n
    ensures |Repeat(s, n)| == |s| * n && Repeat(s, n)[k] == s[k % |s|]
  {
    RepeatLength(s, n);
    var m := |s|;
    var rest := Repeat(s, n - 1);
    assert Repeat(s, n) == s + rest;
    if k >= m {
      assert Repeat(s, n)[k] == s[k % m] by {
        assert k - m < m * (n - 1) by {
          RepeatLength(s, n - 1);
          assert |Repeat(s, n)| == m + |rest|;
        }
        RepeatAt(s, n - 1, k - m);
        assert Repeat(s, n)[k] == rest[k - m];
        ModShift(k, m);
      }
    } else {
      assert Repeat(s, n)[k] == s[k % m] by {
        assert Repeat(s, n)[k] == s[k];
        ModUnique(k, m, 0, k);
      }
    }
  }

  lemma ModShift(k: int, m: int)
    requires 0 < m <= k
    ensures (k - m) % m == k % m
  {
    ModUnique(k - m, m, k / m - 1, k % m);
  }

  lemma ModUnique(a: int, m: int, q: int, r: int)
    requires 0 < m && 0 <= r < m && a == q * m + r
    ensures a % m == r
  {
    var d := q - a / m;
    assert d * m == a % m - r;
  }

  /** Increasing and then decreasing restores the level, for every level
      below the top of the int range. */
  lemma IncreaseThenDecrease(d: Indenter)
    requires IsInt32(d.level) && 0 <= d.level < IntMax
    ensures Decrease(Increase(d)) == d
  {
  }
}

=== FILE: substems.dfy ===
/** makeSubstems and substemDirection: which part of each segment carries
    substems, how many the rounding accumulator hands out there, where on
    the segment they sit, which number each kept substem gets, and the
    rotation and down angle each one starts with. */
module Substems {
  import opened Wrappers
  import opened JavaNum
  import opened Numerics
  import opened RealArith
  import opened Accumulator
  import opened Geometry
  import opened Params
  import opened Stems
  import opened StemGeometry

  // ---------------------------------------------------------------------
  // Where substems may grow

  /** The part of a segment that carries substems, from the fraction `offs`
      of the segment on, and the substems expected there before rounding. */
  datatype Share = Share(offs: real, expected: real)

  /** The region cases of makeSubstems for segment `index` of a stem of
      `level`. Above the trunk every segment expects perSegment substems,
      and on the first one they start clear of the parent's radius at the
      stem's offset (`parentRadius`). On the trunk a segment above the bare
      base expects perSegment, one inside it none, and the one the bare
      base ends in only the share of perSegment that lies above it. */
  function SegmentShare(num: Numerics, level: int, index: int, segLen: real, length: real,
                        baseSize: real, perSegment: real, parentRadius: real): (r: Option<Share>)
    ensures level > 0 ==> r.Some? && r.value.expected == perSegment
    ensures level > 0 && index != 0 ==> r.value.offs == 0.0
    ensures level > 0 && index == 0 && segLen != 0.0 ==> r.value.offs * segLen == parentRadius
  {
    var bare := baseSize * length;
    var start := index as real * segLen;
    assert level > 0 && segLen != 0.0 ==> Div(num, parentRadius, segLen) * segLen == parentRadius by {
      if level > 0 && segLen != 0.0 {
        DivMulCancel(parentRadius, segLen);
      }
    }
    if level > 0 then
      Some(Share(if index == 0 then Div(num, parentRadius, segLen) else 0.0, perSegment))
    else if start > bare then Some(Share(0.0, perSegment))
    else if (index + 1) as real * segLen <= bare then None
    else Some(Share(Div(num, bare - start, segLen), perSegment * (1.0 - Div(num, bare - start, segLen))))
  }

  /** On the trunk a segment that ends inside the bare base expects
      nothing; any other carries substems from the bare base's end (or its
      own start, if that is higher) on, and expects the share of
      perSegment that lies there. */
  lemma TrunkShare(num: Numerics, index: int, segLen: real, length: real,
                   baseSize: real, perSegment: real, parentRadius: real)
    requires segLen > 0.0
    ensures var r := SegmentShare(num, 0, index, segLen, length, baseSize, perSegment, parentRadius);
      && (r.None? <==> (index + 1) as real * segLen <= baseSize * length)
      && (r.Some? ==>
            && 0.0 <= r.value.offs < 1.0
            && (index as real + r.value.offs) * segLen == MaxReal(index as real * segLen, baseSize * length)
            && r.value.expected == perSegment * (1.0 - r.value.offs))
  {
    var bare := baseSize * length;
    var start := index as real * segLen;
    assert (index + 1) as real * segLen == start + segLen;
    if start <= bare < start + segLen {
      var offs := Div(num, bare - start, segLen);
      DivMulCancel(bare - start, segLen);
      RatioInUnit(bare - start, segLen);
      assert offs * segLen == bare - start;
    }
  }

  /** The substems a segment expects; none on the bare trunk. */
  function Expected(sh: Option<Share>): real {
    if sh.Some? then sh.value.expected else 0.0
  }

  function Expectations(shares: seq<Option<Share>>): (xs: seq<real>)
    ensures |xs| == |shares|
  {
    seq(|shares|, k requires 0 <= k < |shares| => Expected(shares[k]))
  }

  /** The shares of the first k segments of trunk s. */
  function TrunkShares(num: Numerics, s: Stem, baseSize: real, k: nat): (r: seq<Option<Share>>)
    ensures |r| == k
  {
    seq(k, i => SegmentShare(num, 0, i, s.segmentLength, s.length, baseSize, s.substemsPerSegment, 0.0))
  }

  // ---------------------------------------------------------------------
  // The trunk hands out exactly its branches

  /** The fraction of trunk segment i above a bare base that ends b
      segments up. */
  function Covered(i: int, b: real): (c: real)
    ensures 0.0 <= c <= 1.0
  {
    if i as real > b then 1.0 else if (i + 1) as real <= b then 0.0 else (i + 1) as real - b
  }

  /** Comparing against a bound b segments up, measured in lengths, is
      comparing in segment units. */
  lemma InSegmentUnits(a: real, b: real, bare: real, segLen: real)
    requires segLen > 0.0 && b * segLen == bare
    ensures a * segLen > bare <==> a > b
    ensures a * segLen <= bare <==> a <= b
  {
    if a > b {
      MulStrictMonotone(b, a, segLen);
    } else {
      MulMonotone(a, b, segLen);
    }
  }

  /** On the trunk a segment expects perSegment times the fraction of it
      above the bare base, which ends b segments up. */
  lemma TrunkShareCovered(num: Numerics, index: int, segLen: real, length: real, baseSize: real,
                          perSegment: real, parentRadius: real, b: real)
    requires segLen > 0.0 && b * segLen == baseSize * length
    ensures Expected(SegmentShare(num, 0, index, segLen, length, baseSize, perSegment, parentRadius))
         == perSegment * Covered(index, b)
  {
    var bare := baseSize * length;
    var i := index as real;
    var i1 := (index + 1) as real;
    TrunkShare(num, index, segLen, length, baseSize, perSegment, parentRadius);
    InSegmentUnits(i, b, bare, segLen);
    InSegmentUnits(i1, b, bare, segLen);
    if i <= b && b < i1 {
      var sh := SegmentShare(num, 0, index, segLen, length, baseSize, perSegment, parentRadius);
      var offs := sh.value.offs;
      var w := i + offs;
      assert w * segLen == b * segLen;
      MulDivCancel(w, segLen);
      MulDivCancel(b, segLen);
      assert offs == b - i;
    }
  }

  /** What the first k trunk segments expect, at per substems for each
      whole segment above the bare base. */
  function PerCovered(per: real, b: real, k: nat): (xs: seq<real>)
    ensures |xs| == k
  {
    seq(k, i => per * Covered(i, b))
  }

  /** The first k segments hold k - b segments' worth above the bare base
      (none while they are all bare), so they expect per times that. */
  lemma {:induction false} PerCoveredTotal(per: real, b: real, k: nat)
    requires b >= 0.0
    ensures SumReal(PerCovered(per, b, k)) == per * MaxReal(k as real - b, 0.0)
  {
    if k > 0 {
      var xs := PerCovered(per, b, k);
      assert xs[..k - 1] == PerCovered(per, b, k - 1);
      PerCoveredTotal(per, b, k - 1);
      var before := MaxReal((k - 1) as real - b, 0.0);
      var c := Covered(k - 1, b);
      var after := MaxReal(k as real - b, 0.0);
      assert after == before + c;
      MulSplit(per, after, before, c);
      assert SumReal(xs) == per * before + per * c;
    }
  }

  /** Segment by segment, the trunk expects perSegment times the fraction of
      the segment above the bare base, which ends b segments up. */
  lemma {:induction false} TrunkExpectationsCovered(num: Numerics, s: Stem, baseSize: real, k: nat, b: real)
    requires s.segmentLength > 0.0 && b * s.segmentLength == baseSize * s.length
    ensures Expectations(TrunkShares(num, s, baseSize, k)) == PerCovered(s.substemsPerSegment, b, k)
  {
    var xs := Expectations(TrunkShares(num, s, baseSize, k));
    var ys := PerCovered(s.substemsPerSegment, b, k);
    forall i | 0 <= i < k
      ensures xs[i] == ys[i]
    {
      TrunkExpectationCovered(num, s, baseSize, k, b, i);
    }
  }

  lemma {:induction false} TrunkExpectationCovered(num: Numerics, s: Stem, baseSize: real, k: nat, b: real, i: nat)
    requires s.segmentLength > 0.0 && b * s.segmentLength == baseSize * s.length
    requires i < k
    ensures Expectations(TrunkShares(num, s, baseSize, k))[i] == PerCovered(s.substemsPerSegment, b, k)[i]
  {
    TrunkShareCovered(num, i, s.segmentLength, s.length, baseSize, s.substemsPerSegment, 0.0, b);
  }

  /** Over all its segments a trunk expects its substems per segment times
      the part of its segments above the bare base: with the per-segment
      count prepareSubstemParams derives, exactly the total it spread. */
  lemma {:induction false} TrunkExpectsTotal(num: Numerics, s: Stem, baseSize: real, total: real)
    requires s.segmentCount > 0 && s.segmentLength > 0.0
    requires s.segmentLength * s.segmentCount as real == s.length
    requires 0.0 <= baseSize <= 1.0
    requires s.substemsPerSegment * s.segmentCount as real * (1.0 - baseSize) == total
    ensures SumReal(Expectations(TrunkShares(num, s, baseSize, s.segmentCount))) == total
  {
    var b := BareSegments(s, baseSize, total);
    var y := SumReal(PerCovered(s.substemsPerSegment, b, s.segmentCount));
    assert y == total by {
      PerCoveredTotal(s.substemsPerSegment, b, s.segmentCount);
    }
    assert SumReal(Expectations(TrunkShares(num, s, baseSize, s.segmentCount))) == y by {
      TrunkExpectationsSumCovered(num, s, baseSize, s.segmentCount, b);
    }
  }

  /** The bare base measured in segments, and what lies above it. */
  lemma BareSegments(s: Stem, baseSize: real, total: real) returns (b: real)
    requires s.segmentCount > 0 && s.segmentLength > 0.0
    requires s.segmentLength * s.segmentCount as real == s.length
    requires 0.0 <= baseSize <= 1.0
    requires s.substemsPerSegment * s.segmentCount as real * (1.0 - baseSize) == total
    ensures b >= 0.0 && b * s.segmentLength == baseSize * s.length
    ensures s.substemsPerSegment * MaxReal(s.segmentCount as real - b, 0.0) == total
  {
    var n := s.segmentCount as real;
    b := baseSize * n;
    assert b * s.segmentLength == baseSize * s.length;
    assert 0.0 <= b <= n by {
      MulMonotone(baseSize, 1.0, n);
    }
    MulAssoc(s.substemsPerSegment, n, 1.0 - baseSize, n - b);
  }

  lemma {:induction false} TrunkExpectationsSumCovered(num: Numerics, s: Stem, baseSize: real, k: nat, b: real)
    requires s.segmentLength > 0.0 && b * s.segmentLength == baseSize * s.length
    ensures SumReal(Expectations(TrunkShares(num, s, baseSize, k))) == SumReal(PerCovered(s.substemsPerSegment, b, k))
  {
    TrunkExpectationsCovered(num, s, baseSize, k, b);
  }

  // ---------------------------------------------------------------------
  // Rounding the expected counts

  /** One segment's substem count: a bare segment gets none and leaves the
      level's error alone, which is what a step over no expected substems
      would do; any other segment takes one accumulator step. */
  function SubstemStep(sh: Option<Share>, err: real): (r: (int, real))
    ensures -0.5 <= err < 0.5 ==> r == Step(Expected(sh), err)
    ensures sh.Some? ==> r.0 as real + r.1 == err + sh.value.expected
    ensures sh.None? ==> r == (0, err)
  {
    assert -0.5 <= err < 0.5 ==> Step(0.0, err) == (0, err) by {
      if -0.5 <= err < 0.5 {
        assert Trunc(0.0 + err + 0.5) == 0;
      }
    }
    if sh.None? then (0, err) else Step(sh.value.expected, err)
  }

  /** The counts handed to consecutive segments, starting from error err0.
      From an error inside [-0.5, 0.5) and admissible expectations this is
      the plain accumulator run over the segments' expectations, the bare
      ones counting as zero. */
  function SubstemRun(shares: seq<Option<Share>>, err0: real): (r: (seq<int>, real))
    ensures |r.0| == |shares|
    ensures -0.5 <= err0 < 0.5 && Admissible(Expectations(shares)) ==> r == Run(Expectations(shares), err0)
  {
    if |shares| == 0 then ([], err0)
    else
      var n := |shares|;
      var prev := SubstemRun(shares[..n - 1], err0);
      var st := SubstemStep(shares[n - 1], prev.1);
      assert Expectations(shares)[..n - 1] == Expectations(shares[..n - 1]);
      (prev.0 + [st.0], st.1)
  }

  /** The expectations of the trunk's segments are admissible when its
      substems per segment are. */
  lemma {:induction false} TrunkAdmissible(num: Numerics, s: Stem, baseSize: real, k: nat)
    requires s.segmentLength > 0.0 && 0.0 <= s.substemsPerSegment <= IntMax as real
    ensures Admissible(Expectations(TrunkShares(num, s, baseSize, k)))
  {
    var xs := Expectations(TrunkShares(num, s, baseSize, k));
    forall i | 0 <= i < k
      ensures 0.0 <= xs[i] <= IntMax as real
    {
      var b := baseSize * s.length / s.segmentLength;
      DivMulCancel(baseSize * s.length, s.segmentLength);
      TrunkShareCovered(num, i, s.segmentLength, s.length, baseSize, s.substemsPerSegment, 0.0, b);
      var c := Covered(i, b);
      MulMonotone(c, 1.0, s.substemsPerSegment);
      MulNonNegative(s.substemsPerSegment, c);
    }
  }

  /** Started from a zero error, the trunk's segments together are handed
      exactly the whole number of substems spread over them (nBranches,
      before make drops degenerate ones). */
  lemma {:induction false} TrunkSubstemTotal(num: Numerics, s: Stem, baseSize: real, total: int)
    requires s.segmentCount > 0 && s.segmentLength > 0.0
    requires s.segmentLength * s.segmentCount as real == s.length
    requires 0.0 <= baseSize <= 1.0
    requires 0.0 <= s.substemsPerSegment <= IntMax as real
    requires s.substemsPerSegment * s.segmentCount as real * (1.0 - baseSize) == total as real
    ensures SumInt(SubstemRun(TrunkShares(num, s, baseSize, s.segmentCount), 0.0).0) == total
  {
    var shares := TrunkShares(num, s, baseSize, s.segmentCount);
    TrunkExpectsTotal(num, s, baseSize, total as real);
    TrunkAdmissible(num, s, baseSize, s.segmentCount);
    RunTracksTotal(Expectations(shares));
  }

  // ---------------------------------------------------------------------
  // Where the substems of a segment sit

  /** Slot k of width dist from offs, its middle moved by up to a quarter
      slot: lpar_1.var(dist / 4). */
  function Slot(offs: real, dist: real, k: int, draw: real): (w: real)
    requires -1.0 <= draw <= 1.0
    ensures dist >= 0.0 ==> offs + k as real * dist + dist / 4.0 <= w <= offs + k as real * dist + 3.0 * dist / 4.0
  {
    offs + dist / 2.0 + k as real * dist + Var(dist * 0.25, draw)
  }

  ghost predicate Draws(draw: int -> real) {
    forall k :: -1.0 <= draw(k) <= 1.0
  }

  /** The positions (fractions of the segment) of the first `count`
      substems of a segment. With a non-negative slot width each sits in
      its own slot; with a positive one they follow each other up the
      segment. */
  function Placements(offs: real, dist: real, draw: int -> real, count: nat): (w: seq<real>)
    requires Draws(draw)
    ensures |w| == count
    ensures dist >= 0.0 ==> forall k :: 0 <= k < count ==>
      offs + k as real * dist + dist / 4.0 <= w[k] <= offs + k as real * dist + 3.0 * dist / 4.0
  {
    if count == 0 then [] else Placements(offs, dist, draw, count - 1) + [Slot(offs, dist, count - 1, draw(count - 1))]
  }

  /** With a positive slot width the substems follow each other up the
      segment. */
  lemma PlacementsIncreasing(offs: real, dist: real, draw: int -> real, count: nat)
    requires Draws(draw) && dist > 0.0
    ensures var w := Placements(offs, dist, draw, count);
            forall k :: 0 < k < count ==> w[k - 1] < w[k]
  {
    var w := Placements(offs, dist, draw, count);
    forall k | 0 < k < count
      ensures w[k - 1] < w[k]
    {
      SlotsInOrder(offs, dist, (k - 1) as real, k as real, w[k - 1], w[k]);
    }
  }

  /** A position in slot j lies below one in slot j + 1. */
  lemma SlotsInOrder(offs: real, dist: real, j: real, j1: real, a: real, b: real)
    requires dist > 0.0 && j1 == j + 1.0
    requires a <= offs + j * dist + 3.0 * dist / 4.0
    requires offs + j1 * dist + dist / 4.0 <= b
    ensures a < b
  {
    MulSplit(dist, j1, j, 1.0);
    assert j1 * dist == j * dist + dist;
  }

  lemma PlacementsNext(offs: real, dist: real, draw: int -> real, count: nat)
    requires Draws(draw)
    ensures Placements(offs, dist, draw, count + 1)
         == Placements(offs, dist, draw, count) + [offs + dist / 2.0 + count as real * dist + Var(dist * 0.25, draw(count))]
  {
  }

  /** The slots of a segment's eff substems span (1 - offs) nBranchDist of
      it, so with nBranchDist in [0, 1] every substem lies between the start
      of the substem region and the segment's end. */
  lemma SlotsWithinSegment(offs: real, nBranchDist: real, eff: int, draw: int -> real)
    requires Draws(draw) && eff > 0 && 0.0 <= offs <= 1.0 && 0.0 <= nBranchDist <= 1.0
    ensures var w := Placements(offs, (1.0 - offs) / eff as real * nBranchDist, draw, eff);
            forall k :: 0 <= k < eff ==> offs <= w[k] <= 1.0
  {
    var dist := (1.0 - offs) / eff as real * nBranchDist;
    var e := eff as real;
    var u := (1.0 - offs) / e;
    assert u >= 0.0;
    assert dist == u * nBranchDist;
    MulUnitFactor(u, nBranchDist);
    MulNonNegative(u, nBranchDist);
    assert dist * e <= 1.0 - offs by {
      MulMonotone(dist, u, e);
      DivMulCancel(1.0 - offs, e);
    }
    var w := Placements(offs, dist, draw, eff);
    forall k | 0 <= k < eff
      ensures offs <= w[k] <= 1.0
    {
      var kr := k as real;
      MulNonNegative(kr, dist);
      MulMonotone(kr + 1.0, e, dist);
      assert (kr + 1.0) * dist == kr * dist + dist;
      assert e * dist == dist * e;
    }
  }

  /** Substem k of a segment sits (index + where) segment lengths from the
      stem's base. On the trunk, where the substem region starts at the
      bare base, no substem grows out of the bare part, and none beyond its
      segment's end. */
  lemma TrunkSubstemsAboveBase(num: Numerics, index: int, segLen: real, length: real, baseSize: real,
                               perSegment: real, where: real)
    requires segLen > 0.0
    requires SegmentShare(num, 0, index, segLen, length, baseSize, perSegment, 0.0).Some?
    requires SegmentShare(num, 0, index, segLen, length, baseSize, perSegment, 0.0).value.offs <= where <= 1.0
    ensures baseSize * length <= (index as real + where) * segLen <= (index + 1) as real * segLen
  {
    TrunkShare(num, index, segLen, length, baseSize, perSegment, 0.0);
    var sh := SegmentShare(num, 0, index, segLen, length, baseSize, perSegment, 0.0).value;
    MulMonotone(index as real + sh.offs, index as real + where, segLen);
    MulMonotone(index as real + where, (index + 1) as real, segLen);
  }

  /** makeSubstems for one segment with its share: the count the
      accumulator hands out, the new level error, and the position of each
      substem on the segment (substemDirection and make are applied to each
      in turn; see SubstemDirection and SubstemIndices). */
  method SegmentSubstems(sh: Share, err: real, nBranchDist: real, draw: int -> real)
    returns (eff: int, err': real, wheres: seq<real>)
    requires Draws(draw)
    ensures (eff, err') == Step(sh.expected, err)
    ensures eff <= 0 ==> wheres == []
    ensures eff > 0 ==> wheres == Placements(sh.offs, (1.0 - sh.offs) / eff as real * nBranchDist, draw, eff)
  {
    eff := IntCast(sh.expected + err + 0.5);
    err' := err - (eff as real - sh.expected);
    wheres := [];
    if eff <= 0 {
      return;
    }
    var dist := (1.0 - sh.offs) / eff as real * nBranchDist;
    var s := 0;
    while s < eff
      invariant 0 <= s <= eff
      invariant wheres == Placements(sh.offs, dist, draw, s)
    {
      var where := sh.offs + dist / 2.0 + s as real * dist + Var(dist * 0.25, draw(s));
      PlacementsNext(sh.offs, dist, draw, s);
      wheres := wheres + [where];
      s := s + 1;
    }
  }

  // ---------------------------------------------------------------------
  // Numbering and direction of the substems

  function CountKept(made: seq<bool>): nat {
    if |made| == 0 then 0 else CountKept(made[..|made| - 1]) + (if made[|made| - 1] then 1 else 0)
  }

  /** A new substem is numbered with the count of substems kept so far and
      kept only if make succeeds: starting from `size0` kept substems, the
      kept ones are numbered size0, size0 + 1, ... without gaps, however
      many degenerate ones were dropped in between. */
  function SubstemIndices(size0: int, made: seq<bool>): (r: seq<int>)
    ensures |r| == CountKept(made)
    ensures forall k :: 0 <= k < |r| ==> r[k] == size0 + k
  {
    if |made| == 0 then []
    else
      var prev := SubstemIndices(size0, made[..|made| - 1]);
      if made[|made| - 1] then prev + [size0 + |prev|] else prev
  }

  /** The part of a stem that substems grow from: above the bare base on
      the trunk, the whole stem otherwise. */
  function BranchingLength(p: TreeParams, s: Stem): real {
    if s.level == 0 then s.length * (1.0 - p.baseSize) else s.length
  }

  /** The down angle of a substem at `offset`: nDownAngle +- nDownAngleV,
      or, for a negative nDownAngleV, a gradient along the branching part
      that runs from nDownAngle - nDownAngleV at its lower end to
      nDownAngle + nDownAngleV at the tip. */
  function DownAngle(num: Numerics, p: TreeParams, lp1: LevelParams, s: Stem, offset: real, draw: real): (d: real)
    requires -1.0 <= draw <= 1.0
    ensures lp1.nDownAngleV >= 0.0 ==> lp1.nDownAngle - lp1.nDownAngleV <= d <= lp1.nDownAngle + lp1.nDownAngleV
    ensures lp1.nDownAngleV < 0.0 && BranchingLength(p, s) != 0.0 && offset == s.length ==>
      d == lp1.nDownAngle + lp1.nDownAngleV
    ensures lp1.nDownAngleV < 0.0 && BranchingLength(p, s) != 0.0 && offset == s.length - BranchingLength(p, s) ==>
      d == lp1.nDownAngle - lp1.nDownAngleV
  {
    if lp1.nDownAngleV >= 0.0 then lp1.nDownAngle + Var(lp1.nDownAngleV, draw)
    else
      var len := BranchingLength(p, s);
      var ratio := Div(num, s.length - offset, len);
      ShapeRatioProfiles(num, p.envelope, ratio);
      lp1.nDownAngle + lp1.nDownAngleV * (1.0 - 2.0 * ShapeRatio(num, p.envelope, ratio, Conical))
  }

  /** The substem rotation. With nRotate >= 0 each substem turns a further
      nRotate +- nRotateV degrees, reduced by whole turns with Java's
      remainder; with nRotate < 0 substems alternate between two sides, the
      stored value flipping between 1 and -1. Returns the stored value and
      the rotation angle used. */
  function NextRotation(lp1: LevelParams, prev: real, draw: real): (r: (real, real))
    requires -1.0 <= draw <= 1.0
    ensures lp1.nRotate >= 0.0 ==>
      var turned := prev + lp1.nRotate + Var(lp1.nRotateV, draw);
      && r.1 == r.0 && -360.0 < r.0 < 360.0
      && ((turned - r.0) / 360.0).Floor as real == (turned - r.0) / 360.0
      && (turned + 360.0 >= 0.0 ==> 0.0 <= r.0)
    ensures lp1.nRotate < 0.0 ==>
      (r.0 == 1.0 || r.0 == -1.0) && r.1 == r.0 * (180.0 + lp1.nRotate + Var(lp1.nRotateV, draw))
    ensures lp1.nRotate < 0.0 && (prev == 1.0 || prev == -1.0) ==> r.0 == -prev
    ensures lp1.nRotate < 0.0 && !(prev == 1.0 || prev == -1.0) ==> r.0 == -1.0
  {
    if lp1.nRotate >= 0.0 then
      var a := FMod(prev + lp1.nRotate + Var(lp1.nRotateV, draw) + 360.0, 360.0);
      (a, a)
    else
      var side := if AbsReal(prev) != 1.0 then 1.0 else prev;
      (-side, -side * (180.0 + lp1.nRotate + Var(lp1.nRotateV, draw)))
  }

  /** substemDirection: the stem's stored rotation advances and the
      substem's transformation is the segment's turned by the down angle
      and the rotation. Nothing else of the stem changes. */
  function SubstemDirection(num: Numerics, p: TreeParams, lp1: LevelParams, s: Stem, trf: Transform,
                            offset: real, rotDraw: real, downDraw: real): (r: (Stem, Transform))
    requires -1.0 <= rotDraw <= 1.0 && -1.0 <= downDraw <= 1.0
    ensures r.0 == s.(substemRotangle := r.0.substemRotangle)
    ensures r.1.RotXZ? && r.1.t == trf
    ensures r.1.down == DownAngle(num, p, lp1, s, offset, downDraw)
    ensures r.0.substemRotangle == NextRotation(lp1, s.substemRotangle, rotDraw).0
    ensures r.1.rot == NextRotation(lp1, s.substemRotangle, rotDraw).1
    ensures lp1.nDownAngleV >= 0.0 ==> lp1.nDownAngle - lp1.nDownAngleV <= r.1.down <= lp1.nDownAngle + lp1.nDownAngleV
    ensures lp1.nRotate >= 0.0 ==> r.1.rot == r.0.substemRotangle && -360.0 < r.1.rot < 360.0
    ensures lp1.nRotate < 0.0 ==> r.0.substemRotangle == 1.0 || r.0.substemRotangle == -1.0
  {
    var rot := NextRotation(lp1, s.substemRotangle, rotDraw);
    (s.(substemRotangle := rot.0), RotXZ(trf, DownAngle(num, p, lp1, s, offset, downDraw), rot.1))
  }
}

=== FILE: wrappers.dfy ===
/** Failure-compatible result types used wherever the Java code throws or
    returns null. */
module Wrappers {

  datatype Option<+T> = None | Some(value: T) {
    predicate IsFailure() { None? }

    function PropagateFailure<U>(): Option<U>
      requires None?
    {
      None
    }

    function Extract(): T
      requires Some?
    {
      value
    }

    function GetOr(default: T): T {
      match this
      case Some(v) => v
      case None => default
    }
  }

  datatype Result<+R, +E> = Success(value: R) | Failure(error: E) {
    predicate IsFailure() { Failure? }

    function PropagateFailure<U>(): Result<U, E>
      requires Failure?
    {
      Failure(error)
    }

    function Extract(): R
      requires Success?
    {
      value
    }
  }
}
